=== FILE: README.md ===
# wb-mqtt-gpio in Dafny

A model of the decision logic of wb-mqtt-gpio, the Wiren Board daemon that
publishes GPIO lines over MQTT, and of the Python generator that derives
its system configuration from the device tree. Every operation is a pure
function. The kernel's answers, the file system, directory listings and
clocks are passed in as values. A listing is an `Option`: `None` stands for
a missing directory, on which the source's listing call fails.

Modules:

- Python generator:
  - `Cells`: property bytes become 32-bit big-endian cells (`split_each`, `bin2ulong`).
  - `DeviceTree`: property reads, GPIO specifier decoding (`of_get_prop_gpio`), and the two phandle maps (`of_find_gpiochips`, `get_phandle_map`).
  - `SystemConfig`: the main loop, which turns each child of `/wirenboard/gpios` into a channel. It covers naming of disconnected chips, ordering by `sort-order`, and the item, input and output name lists.
- `Sysfs` (src/utils.cpp):
  - chip device paths;
  - the chip-label map;
  - the ordered set of sysfs number ranges, and conversion between sysfs GPIO numbers and (chip, offset) pairs.
- `GpioConfig` (config.cpp): builds the per-chip line configuration from parsed JSON documents. This covers duplicate detection, the `.d` directory merge and the relaxed device-name requirement.
- `Edges` (src/types.cpp): edge names.
- `Counter` (src/gpio_counter.cpp): the integer part of a pulse counter.
- `FileUtils` (src/file_utils.cpp): sorted directory iteration with early exit, the pattern filter, and `TryOpen`.
- `Line` (src/gpio_line.cpp): one line's flag bits, its error and re-initialisation state, the interrupt edge filter and the debounce rule.
- `ChipDriver` (src/gpio_chip_driver.cpp):
  - request flags;
  - grouping of polled lines into bulks of at most 64;
  - bulk read and poll transitions;
  - automatic edge detection and the start-up read;
  - what the constructor does with every line, including the path for a chip that cannot be opened.
- Helpers: `Strings`, `Sorting` and `Wrappers`.

## Model

| member | source | states |
|---|---|---|
| Cells.SplitEach | generate-system-config.py:54-60 | Chunks are all `size` long and begin with a present element. The result is empty exactly when the data is. |
| Cells.SplitEachShape | generate-system-config.py:54-60 | Only the last chunk may be padded. Dropping the padding and joining the chunks gives back the data. |
| Cells.SplitEachIndex | generate-system-config.py:54-60 | Element j of chunk i is data[i*size+j] when that index exists, and padding otherwise. |
| Cells.PresentOfWrap | generate-system-config.py:54-60 | Wrapped data with the padding removed is the data itself. |
| Cells.PresentOfPadding | generate-system-config.py:54-60 | Trailing padding contributes nothing. |
| Cells.Bin2Ulong | generate-system-config.py:84-97 | Decoding succeeds exactly when the length is a multiple of 4. A failure is the padded last chunk. Cell i is the big-endian value of bytes 4i..4i+4. |
| Cells.Bin2UlongSingle | generate-system-config.py:84-97 | The single-value form succeeds exactly when the list has one cell, and returns that cell. |
| Cells.Bin2UlongSingleLength | generate-system-config.py:84-97 | The single-value form succeeds exactly on 4-byte input. |
| Cells.BigEndianOfEncodeCell | generate-system-config.py:84-97 | Encoding a 32-bit value as 4 big-endian bytes and decoding it gives the value back. |
| Cells.Bin2UlongOfEncodeCells | generate-system-config.py:84-97 | Decoding the encoding of any list of 32-bit cells gives the list back. |
| DeviceTree.ReadBytes | generate-system-config.py:34-41 | The read succeeds exactly when the node and the property exist, and yields the property's bytes. |
| DeviceTree.TrimNulStart | generate-system-config.py:38-41 | Only NUL characters are removed from the front, all of them. |
| DeviceTree.TrimNulEnd | generate-system-config.py:38-41 | Only NUL characters are removed from the back, all of them. |
| DeviceTree.StripNul | generate-system-config.py:38-41 | The stripped string neither starts nor ends with NUL. |
| DeviceTree.GetPropStr | generate-system-config.py:38-41 | Succeeds exactly when the node has the property. The text is no longer than the bytes and has no NUL at either end. |
| DeviceTree.GetPropStrOfText | generate-system-config.py:38-41 | A property stored as a text followed by one NUL reads back as that text, when the text has no NUL at either end. |
| DeviceTree.BytesToText | generate-system-config.py:38-41 | Each byte becomes the character with the same code. |
| DeviceTree.GetPropCells | generate-system-config.py:44-46 | Succeeds exactly when the property exists and its length is a multiple of 4. Cell i is then the big-endian value of bytes 4i to 4i+3. An existing property of any other length fails on a padded chunk. |
| DeviceTree.GetPropCellsOfEncoded | generate-system-config.py:44-46 | A property stored as big-endian 32-bit cells reads back as exactly those cells. |
| DeviceTree.DecodeSpecifier | generate-system-config.py:63-81 | No cells gives no locator. An unknown translation type fails once there are cells. The offset and bank/pin schemes read the first group of four cells. |
| DeviceTree.DecodeSpecifierFirstGroupOnly | generate-system-config.py:63-81 | Specifiers that agree on their first four cells decode the same. |
| DeviceTree.FirstGroup | generate-system-config.py:54-60 | The first chunk of four holds the first four cells, or padding where there are fewer. |
| DeviceTree.XlateType | generate-system-config.py:66-69 | A node without `gpio-xlate-type` uses the offset scheme. |
| DeviceTree.GetPropGpio | generate-system-config.py:63-81 | On success the translation type and the cells were read, and the result is their decoding. |
| DeviceTree.FindGpiochips | generate-system-config.py:19-31 | Succeeds exactly when every listed gpiochip class entry has a single-cell phandle and a readable base. Every listed entry's phandle is then a key. |
| DeviceTree.ScanClassDir | generate-system-config.py:19-31 | Fails with `NoListing` when `/sys/class/gpio` is missing, as `os.listdir` raises there. Otherwise succeeds exactly when every listed entry decodes, and gives the map of `DeviceTree.FindGpiochips`. |
| DeviceTree.FindGpiochipsLastWins | generate-system-config.py:19-31 | A phandle maps to the base of the last listed entry with that phandle. |
| DeviceTree.FindGpiochipsKeyOrigin | generate-system-config.py:19-31 | Every key is the phandle of a listed entry, the last one with it, and maps to that entry's base. |
| DeviceTree.FindGpiochipsStep | generate-system-config.py:19-31 | A run is the run on all but the last entry, updated by the last entry when it is listed. |
| DeviceTree.ChipNumberOfName | generate-system-config.py:109 | A number is read exactly when the entry name is `gpiochip` followed by one or more digits. |
| DeviceTree.ChipNumberOfNameRoundTrip | generate-system-config.py:109 | The entry `gpiochip<n>` yields n. |
| DeviceTree.GetPhandleMap | generate-system-config.py:100-111 | Succeeds exactly when every listed platform device has a single-cell phandle and a numbered name. Every listed entry's phandle is then a key. |
| DeviceTree.ScanBusDir | generate-system-config.py:100-111 | Fails with `NoListing` when `/sys/bus/gpio/devices/` is missing, as `os.listdir` raises there. Otherwise succeeds exactly when every listed entry decodes, and gives the map of `DeviceTree.GetPhandleMap`. |
| DeviceTree.GetPhandleMapLastWins | generate-system-config.py:100-111 | A phandle maps to the device number of the last listed entry with that phandle. |
| DeviceTree.GetPhandleMapKeyOrigin | generate-system-config.py:100-111 | Every key is the phandle of a listed entry, the last one with it, and maps to that entry's device number. |
| DeviceTree.GetPhandleMapStep | generate-system-config.py:100-111 | A run is the run on all but the last entry, updated by the last entry when it is listed. |
| SystemConfig.FirstCell | generate-system-config.py:141-146 | Succeeds exactly when the property decodes to at least one cell, and returns the first. |
| SystemConfig.DecodeChild | generate-system-config.py:129-146 | Succeeds exactly when the specifier decodes to a pin and a present `sort-order` has a first cell. The result keeps the child's name. Its offset is the decoded pin, and it is inverted exactly when the attribute is 1. Its link is the bus map's entry for the first cell, if any. A specifier failure is passed on. |
| SystemConfig.DecodeAll | generate-system-config.py:129-161 | Succeeds exactly when every child decodes, and then holds each child's decoding in order. A failure is some child's failure. |
| SystemConfig.SpecNodeProps | generate-system-config.py:129-146 | A node built from a child description carries exactly the properties the loop reads. |
| SystemConfig.SpecNodeReads | generate-system-config.py:129-146 | Reading such a node gives back the description's phandle, offset, direction, state and order. |
| SystemConfig.DecodeChildOfSpec | generate-system-config.py:129-161 | A child whose phandle is known decodes to the described channel. An unknown phandle is an error. |
| SystemConfig.ChipPathInjective | generate-system-config.py:133-137 | Distinct chip references give distinct chip paths. |
| SystemConfig.NameChips | generate-system-config.py:129-161 | One item per decoded child, each keeping the child's order and channel fields. |
| SystemConfig.NameChipsAt | generate-system-config.py:133-137 | Child i's chip name counts the disconnected children before it. |
| SystemConfig.NameChipsPaths | generate-system-config.py:133-137 | The same, for every child at once. |
| SystemConfig.DisconnectedNamesDistinct | generate-system-config.py:133-137 | Two disconnected children never share a placeholder chip name. |
| SystemConfig.Channels | generate-system-config.py:163-165 | The channel list is the items' channels in order. |
| SystemConfig.Names | generate-system-config.py:129-131 | The name list holds the children's names in order. |
| SystemConfig.Generate | generate-system-config.py:114-165 | Without the container node there is no configuration. With it, the run succeeds exactly when both listing directories exist, both phandle maps decode and every child decodes. It fails whenever either directory is missing, even with no children. A failure of the class listing is reported as such, first. |
| SystemConfig.DecodeChildFacts | generate-system-config.py:129-146 | A decoded child carries its own name and its node's order, direction, initial state, offset, inversion and chip link. |
| SystemConfig.DecodeChildKeys | generate-system-config.py:139-146 | A decoded child's order is its `sort-order` cell or 0. It is an input exactly when the node has `input`, and starts high exactly when it has `output-high`. |
| SystemConfig.DecodeChildCells | generate-system-config.py:129-140 | A decoded child's offset, inversion and chip link are what its `io-gpios` cells spell in its scheme. |
| SystemConfig.LocatorOfCells | generate-system-config.py:63-81 | Under `bank_pin` the pin is bank*32+pin, otherwise the first argument. The attribute is 1 exactly when the attribute cell of the scheme is 1. |
| SystemConfig.NamesWithMember | generate-system-config.py:139 | A name is in a direction list exactly when some child with that direction has it. |
| SystemConfig.NamesWithPartition | generate-system-config.py:139 | The input and output lists together are a permutation of all names. |
| SystemConfig.RunDecoded | generate-system-config.py:114-165 | A successful run decodes every child in name order, and the result is assembled from those decodings. |
| SystemConfig.GenerateItemNames | generate-system-config.py:129-131 | The item names are ascending and a permutation of the container's children. |
| SystemConfig.GenerateDirectionLists | generate-system-config.py:129-139 | Input and output lists partition the items. A name is an input exactly when its node has the input property. |
| SystemConfig.SortedItemsOrder | generate-system-config.py:163-165 | Channels are sorted by order, with ties in name order. |
| SystemConfig.GenerateChannels | generate-system-config.py:129-165 | Each child appears once, sorted by order with ties by name. Each channel has its node's direction, initial state, offset and inversion. Its chip is `/dev/gpiochip<n>` for the bus map's entry of the first cell, otherwise a placeholder numbered in name order. |
| SystemConfig.NamedPlaceholders | generate-system-config.py:132-137 | Before sorting, of two children on unknown chips the one with the smaller name has the smaller placeholder number. |
| SystemConfig.SortedPlaceholders | generate-system-config.py:132-165 | Sorting by order keeps placeholder numbers rising with the children's names. |
| Sysfs.GpioChipNumberToPath | src/utils.cpp:173-176 | The path is the device prefix followed by a non-empty suffix. |
| Sysfs.GpioPathToChipNumber | src/utils.cpp:178-181 | A path shorter than the prefix fails. It succeeds exactly when leading digits follow the prefix and their value is below 2^64, and the number is then that value reduced to 32 bits. |
| Sysfs.ChipPathRoundTrip | src/utils.cpp:173-181 | The path of chip n parses back to n. |
| Sysfs.ChipFilterIsPrefix | src/utils.cpp:24-27 | The filter accepts exactly the names that start with `gpiochip`. |
| Sysfs.FilterChips | src/utils.cpp:24-27 | Keeps exactly the listed names the filter accepts. |
| Sysfs.DeviceChipNumber | src/utils.cpp:29-78 | An unreadable device directory fails. So does one with other than exactly one chip entry. |
| Sysfs.DeviceChipNumberOfSingle | src/utils.cpp:29-78 | A directory whose only chip entry is `gpiochip<n>` yields n. |
| Sysfs.DevPathOfName | src/utils.cpp:29-78 | The device node of entry `gpiochip<s>` is `/dev/gpiochip<s>`. |
| Sysfs.RangeOfCovers | src/utils.cpp:98-117 | Without wrap-around, a chip's range holds exactly base..base+count-1. |
| Sysfs.RangeOfWrapped | src/utils.cpp:98-117 | A range whose end wraps past 2^32 holds nothing. |
| Sysfs.InsertRange | src/utils.cpp:119-165 | Insertion never invents or loses ranges. |
| Sysfs.InsertRangeOrdered | src/utils.cpp:119-165 | The set stays ordered. A range is added exactly when it overlaps no member. |
| Sysfs.BuildRanges | src/utils.cpp:151-170 | Inserting every chip's range keeps the old ranges, adds only chip ranges, and keeps an ordered set ordered. |
| Sysfs.BuildLabels | src/utils.cpp:159-167 | The label map's keys are the old keys plus every listed chip's label. |
| Sysfs.BuildLabelsLastWins | src/utils.cpp:159-167 | A label maps to the last chip listed with it. |
| Sysfs.BuildLabelsKeeps | src/utils.cpp:159-167 | Labels no listed chip carries keep their old number. |
| Sysfs.EnsureReady | src/utils.cpp:151-170 | After the call the mappings are ready and not cleared. Ready mappings are left alone. |
| Sysfs.EnsureReadyIdempotent | src/utils.cpp:151-170 | A second call changes nothing, whatever the listing says by then. |
| Sysfs.ClearMappingCache | src/utils.cpp:241-248 | Clearing empties both maps and marks them cleared and not ready. |
| Sysfs.GpioChipLabelToNumber | src/utils.cpp:183-192 | Builds the mappings first. Succeeds exactly for a known label, with that label's chip number. |
| Sysfs.FindByGpio | src/utils.cpp:119-145 | A found range is in the set, non-empty, and ends above the number. |
| Sysfs.FindByGpioLowerBound | src/utils.cpp:119-145 | The lookup finds the first range ending above the number, exactly when that range is non-empty. |
| Sysfs.FromSysfsGpio | src/utils.cpp:215-232 | Succeeds exactly when the lookup finds a range. The result is its chip and the 32-bit difference from its begin. |
| Sysfs.FindByChip | src/utils.cpp:119-145 | A found range is in the set, non-empty, and has a chip number at least the one asked for. `Sysfs.FindByChipLowerBound` pins it down. |
| Sysfs.FindByChipLowerBound | src/utils.cpp:119-145 | The chip lookup succeeds exactly when the first range in position order whose chip number is not below the key is non-empty, and it returns that range. When no range qualifies, or the first one that does is empty, it finds nothing. This is what the tree search finds when chip numbers ascend with position. |
| Sysfs.ToSysfsGpio | src/utils.cpp:194-213 | Succeeds exactly when the chip lookup finds a range. The result is its begin plus the offset, in 32 bits. The lookup is the position-order scan of `Sysfs.FindByChip`. |
| Sysfs.FindContaining | src/utils.cpp:98-109 | Finds a range holding the number, or proves none does. |
| Sysfs.FromSysfsGpioChecked | src/utils.cpp:215-232 | Fails exactly when no range holds the number. Otherwise returns the holding range's chip and offset. |
| Sysfs.FindChip | src/utils.cpp:194-213 | Finds the range of the chip, or proves there is none. |
| Sysfs.ToSysfsGpioChecked | src/utils.cpp:194-213 | Fails exactly when the chip has no range. Otherwise returns that range's begin plus the offset. |
| Sysfs.OrderedContainingUnique | src/utils.cpp:119-145 | In an ordered set at most one range holds a given number. |
| Sysfs.SysfsRoundTripChecked | src/utils.cpp:194-232 | Converting a chip's line to sysfs and back gives the same chip and offset, whenever the offset is in range. |
| Sysfs.ToSysfsGpioCheckedAt | src/utils.cpp:194-213 | With unique chip numbers, line `offset` of a chip gets its range's begin plus the offset. |
| Sysfs.FromSysfsGpioCheckedAt | src/utils.cpp:215-232 | On an ordered set, a number inside a range maps to that range's chip and the offset from its begin. |
| Sysfs.FindByGpioInRange | src/utils.cpp:119-145 | On an ordered set the lookup finds the range that holds the number. |
| Sysfs.FromSysfsGpioInRange | src/utils.cpp:215-232 | For numbers inside some range, the code as written agrees with the checked version. |
| Sysfs.SysfsRoundTrip | src/utils.cpp:194-232 | When chip numbers ascend with position, the code as written round-trips. |
| Sysfs.FindByChipAscending | src/utils.cpp:119-145 | When chip numbers ascend with position, the chip lookup finds the chip's own range. |
| Sysfs.FromSysfsGpioAcceptsGap | src/utils.cpp:215-232 | A number between two ranges is accepted, with a wrapped offset. The checked version rejects it. |
| Sysfs.ToSysfsGpioPicksWrongChip | src/utils.cpp:194-213 | With descending chip numbers, a line of chip 0 gets a number that maps back to chip 1. |
| GpioConfig.FindChip | config.cpp:28-35 | Finds the first chip with the path, whose lines are the path's lines, or proves there is none. |
| GpioConfig.Paths | config.cpp:26-56 | The chip paths, in order. |
| GpioConfig.AppendLine | config.cpp:26-56 | Fails exactly on a duplicate name or offset on that chip, and the name is checked first. The device name is kept. |
| GpioConfig.AppendLineEffect | config.cpp:26-56 | Only the appended path gains the line, at its end. A new path is added last. |
| GpioConfig.AppendLineNewChip | config.cpp:31-35 | An unknown path becomes a new last chip holding just the line. |
| GpioConfig.AppendLineNewValue | config.cpp:31-35 | An unknown path gives the old chips plus one new chip. |
| GpioConfig.AppendLineKnownChip | config.cpp:37-55 | A known path gains the line at its end, and the chip list keeps its paths. |
| GpioConfig.AppendLineWellFormed | config.cpp:26-56 | Appending keeps paths distinct, and keeps names and offsets distinct per chip. |
| GpioConfig.LinesAtAppendChip | config.cpp:31-35 | Adding a chip changes only its own path's lines. |
| GpioConfig.LinesAtUpdate | config.cpp:55 | Replacing a chip changes only its own path's lines. |
| GpioConfig.FindChipAppended | config.cpp:31-35 | A newly added chip is found at the last position. |
| GpioConfig.WellFormedLinesAt | config.cpp:26-56 | In a well-formed configuration every path's lines have distinct names and offsets. |
| GpioConfig.AppendAll | config.cpp:68-104 | Appending many lines keeps the device name. |
| GpioConfig.AppendAllLines | config.cpp:68-104 | Each path gains exactly the entries for it, in order. |
| GpioConfig.AppendAllWellFormed | config.cpp:68-104 | Appending many lines keeps the configuration well-formed. |
| GpioConfig.AppendAllPaths | config.cpp:68-104 | New paths are added in first-appearance order. |
| GpioConfig.AppendAllSucceeds | config.cpp:26-56 | Appending succeeds exactly when every path's old and new lines have distinct names and offsets. |
| GpioConfig.AppendAllStep | config.cpp:68-104 | Appending the first entry then the rest accounts for every entry. |
| GpioConfig.ClashNotDistinct | config.cpp:37-53 | A line clashing with an earlier one breaks distinctness. |
| GpioConfig.Tag | config.cpp:119-127 | Each of a chip's lines is tagged with the chip's path. |
| GpioConfig.LinesForConcat | config.cpp:119-127 | Entries for a path split over concatenation. |
| GpioConfig.LinesForTag | config.cpp:119-127 | A tagged chip contributes its lines to its own path only. |
| GpioConfig.EntriesLinesFor | config.cpp:119-127 | Flattening a well-formed configuration preserves each path's lines. |
| GpioConfig.Append | config.cpp:119-127 | The merged configuration takes the source's device name. |
| GpioConfig.AppendMerges | config.cpp:119-127 | Each path holds the destination's lines followed by the source's. |
| GpioConfig.RemoveDeviceNameRequirement | config.cpp:108-117 | Drops exactly the `device_name` key and keeps the others. |
| GpioConfig.RemoveDistributes | config.cpp:108-117 | Removal works element by element and keeps order. |
| GpioConfig.RemoveKeepsOthers | config.cpp:108-117 | A list without `device_name` is unchanged. |
| GpioConfig.Validate | config.cpp:60 | Succeeds exactly when every required key is present. A failure names a missing required key. |
| GpioConfig.ValidateWithoutDeviceName | config.cpp:108-117 | A document without a device name passes the relaxed requirement whenever it passes the full one. |
| GpioConfig.ChannelLine | config.cpp:82-101 | Each field comes from the channel key, or the default when the key is absent. The direction is input only for `"input"`, and the edge follows the edge names. |
| GpioConfig.ChannelEntry | config.cpp:68-84 | A sysfs number outside every range skips the channel. A chip/offset pair is kept as given. |
| GpioConfig.ChannelEntries | config.cpp:68-84 | Skipping never adds channels. |
| GpioConfig.ChannelEntryAsWritten | config.cpp:68-84 | A sysfs number is skipped exactly when the lower-bound lookup finds no non-empty range. Otherwise it goes on the found chip at the 32-bit difference from its begin. A chip/offset pair is kept as given. |
| GpioConfig.ChannelEntryAgrees | config.cpp:68-84 | On an ordered chip set, a number inside some range is placed the same by the code as written and by the checked lookup. |
| GpioConfig.ChannelEntryGap | config.cpp:68-84 | Number 40, between chip 0's 0..31 and chip 1's 64..95, is kept on chip 1 at offset 2^32-24 by the code as written and skipped by the checked lookup. |
| GpioConfig.ChannelEntriesAgree | config.cpp:68-104 | When every sysfs number of a document lies inside a range, the code as written and the checked lookup give the same entries. |
| GpioConfig.LoadFromJson | config.cpp:58-106 | A loaded document keeps its device name, or "" when it has none. Channels are placed by `GpioConfig.ChannelEntry`, with its checked lookup (see "## Left out"). |
| GpioConfig.LoadFromJsonSucceeds | config.cpp:58-106 | Loading succeeds exactly when the document validates and no chip gets a name or offset twice. |
| GpioConfig.LoadFromJsonLines | config.cpp:58-106 | A loaded document is well-formed, and each path holds its channels in document order. |
| GpioConfig.Parse | config.cpp:134-137 | Parsing succeeds exactly for an existing file. |
| GpioConfig.ConfDFilesSorted | config.cpp:143-146 | The `.d` directory's `.conf` files are visited in sorted order. |
| GpioConfig.LoadAll | config.cpp:143-146 | A successful merge read every file. |
| GpioConfig.LoadAllStep | config.cpp:143-146 | A merge that succeeds on a list succeeds on its first file. |
| GpioConfig.LoadAllHead | config.cpp:143-146 | Merging a list is merging its first file and then the rest. |
| GpioConfig.LoadAllLines | config.cpp:143-146 | Each path gathers its lines from the files in order. The lines of each file are those `GpioConfig.ChannelEntry` places, with its checked lookup (see "## Left out"). |
| GpioConfig.LoadConfig | config.cpp:130-150 | A non-empty optional file is loaded on its own and the result succeeds exactly when it exists and loads. A result takes its device name from the optional file or else the main file. Without an optional file, success means every `.d` file was read. |
| GpioConfig.LoadConfigOptional | config.cpp:136-137 | A non-empty optional file is loaded alone. The main file and the directory are ignored. |
| GpioConfig.LoadConfigSplit | config.cpp:139-150 | Without an optional file, the result is the main file appended after the `.d` files. Each file is loaded with the checked lookup of `GpioConfig.ChannelEntry` (see "## Left out"). |
| GpioConfig.LoadConfigMerged | config.cpp:139-150 | Each path holds the `.d` files' lines, then the main file's. The device name is the main file's. The lines are those placed with the checked lookup of `GpioConfig.ChannelEntry` (see "## Left out"). |
| GpioConfig.MainAfterConfD | config.cpp:139-150 | The main file's lines come after the `.d` files' lines. |
| Edges.EnumerateGpioEdge | src/types.cpp:8-20 | The three names select their edge. Any other text leaves the prior edge unchanged. |
| Edges.GpioEdgeCodeToString | src/types.cpp:22-36 | Every code renders as a non-empty text. |
| Edges.GpioEdgeToString | src/types.cpp:8-36 | A rendered edge is non-empty and parses back to itself for rising, falling and both. The rendered `auto` leaves the prior edge. |
| Edges.GpioEdgeToStringNames | src/types.cpp:22-36 | The four edges render as rising, falling, both and auto. |
| Edges.UnknownCodeText | src/types.cpp:33-34 | An unknown code renders as `<unknown (n)>`, which parses to no edge. |
| Edges.GpioEdgeCodeToStringInjective | src/types.cpp:22-36 | Different codes render differently. |
| Counter.NewCounter | src/gpio_counter.cpp:22-52 | Only watt and water meters are accepted, with zero counts. Explicit decimal places are kept. |
| Counter.NewCounterTypes | src/gpio_counter.cpp:22-52 | The meter types publish their control types, with the default decimal places per type. |
| Counter.HandleInterrupt | src/gpio_counter.cpp:57-72 | Counts one pulse, wrapping at the counter limit, and records the interval. |
| Counter.SetInitialValues | src/gpio_counter.cpp:130-136 | Resets the count and nothing else. |
| Counter.SetInterruptEdge | src/gpio_counter.cpp:120-123 | Sets the edge and nothing else. |
| Counter.SetThenGetEdge | src/gpio_counter.cpp:120-128 | Setting then reading an edge gives it back. The last setting wins, and re-setting the current edge changes nothing. |
| Counter.Pulses | src/gpio_counter.cpp:57-72 | Counting pulses keeps the edge. |
| Counter.PulsesCount | src/gpio_counter.cpp:57-72 | After k pulses the count has advanced by k, modulo the limit. |
| Counter.ResetThenCount | src/gpio_counter.cpp:57-72 | After a reset, k pulses below the limit give exactly k. |
| Counter.GetIdsAndTypes | src/gpio_counter.cpp:100-103 | Two controls: base id plus the total suffix, and base id plus the current suffix, each with its type. |
| Counter.IdsDistinct | src/gpio_counter.cpp:100-103 | Control ids identify their base id and kind. |
| FileUtils.VisitUntil | src/file_utils.cpp:27-45 | Visits a prefix of the names and stops right after the first accepted one. |
| FileUtils.IterateDir | src/file_utils.cpp:27-45 | An unreadable directory fails. Otherwise the visited names are some of the listed ones. |
| FileUtils.IterateDirVisits | src/file_utils.cpp:27-45 | Names are visited in ascending order. Every name left out sorts after the accepted last one. |
| FileUtils.EntryPath | src/file_utils.cpp:47-63 | An entry's path is never empty. |
| FileUtils.MatchingPaths | src/file_utils.cpp:47-63 | The matching paths are no more than the names. |
| FileUtils.IterateDirByPattern | src/file_utils.cpp:47-63 | A non-empty result is the path of a listed entry that contains the pattern and is accepted. |
| FileUtils.IterateDirByPatternEmpty | src/file_utils.cpp:47-63 | The result is "" exactly when no matching entry is accepted. |
| FileUtils.IterateDirByPatternFirst | src/file_utils.cpp:47-63 | Otherwise the result is the first accepted entry in sorted order. |
| FileUtils.PatternCallsAll | src/file_utils.cpp:47-63 | A callback that never stops sees every matching path in sorted order. |
| FileUtils.TryOpen | src/file_utils.cpp:8-18 | Reports the first name that opens, or that none does. |
| Line.FlagPredicatesAreBits | src/gpio_line.cpp:158-191 | The five flag predicates read bits 0 to 4 of the kernel flags. |
| Line.TreatAsOutput | src/gpio_line.cpp:168-171 | Sets the output bit and leaves the other bits and fields alone. |
| Line.TreatAsOutputKeepsOthers | src/gpio_line.cpp:168-171 | The used, active-low, open-drain and open-source bits are unchanged. |
| Line.TreatAsOutputIdempotent | src/gpio_line.cpp:168-171 | Doing it twice is doing it once. |
| Line.TreatAsOutputOnOutput | src/gpio_line.cpp:168-171 | An output line is unchanged. |
| Line.UpdateInfo | src/gpio_line.cpp:65-81 | A successful query copies name, flags and consumer. A failed one records only the error. |
| Line.CounterFor | src/gpio_line.cpp:19-39 | A counter is built exactly for a meter type. An empty type means no counter, and any other type is an error. |
| Line.NewLine | src/gpio_line.cpp:19-39 | A new line has no handle, zero values, unknown interrupt support, and the configured offset. Its flags and name come from the kernel's answer. |
| Line.NewDummyLine | src/gpio_line.cpp:41-56 | A line built without a chip has the dummy name and consumer, all flags clear, no handle, no error and no counter. |
| Line.SetFd | src/gpio_line.cpp:274-278 | Records the descriptor. The line is handled exactly when it is non-negative, and values and config are kept. |
| Line.GetInterruptEdge | src/gpio_line.cpp:332 | A plain line listens to both edges. A counter line listens to its counter's edge. |
| Line.HandleInterrupt | src/gpio_line.cpp:342-357 | An event is skipped exactly when it is on the other edge. A handled event records only its time. |
| Line.UpdateIfStable | src/gpio_line.cpp:389-406 | The value settles exactly after more than the debounce time. It takes the unfiltered reading, and a counter counts one pulse. |
| Line.SetUnfiltered | src/gpio_line.cpp:255 | Stores the raw reading and nothing else. |
| Line.DebounceBoundary | src/gpio_line.cpp:342-406 | An event settles one microsecond past the debounce time, but not at it. |
| Line.RisingSkippedOnFallingLine | src/gpio_line.cpp:342-357 | A counter on the falling edge ignores rising events. |
| Line.SetValue | src/gpio_line.cpp:235-248 | A line in error is left alone. Otherwise it caches the value and records the write result. |
| Line.SetError | src/gpio_line.cpp:280 | Records the error and nothing else. |
| Line.ClearError | src/gpio_line.cpp:295-302 | Clears the error. An MCP23017 output line is marked for re-initialisation. |
| Line.SetValueAfterClear | src/gpio_line.cpp:235-302 | Writes are refused in error, and accepted again after the error is cleared. |
| Line.FdGet | src/gpio_line.cpp:203-217 | A failed read records its errno. A successful read clears the error. |
| ChipDriver.FlagsFromConfig | src/gpio_chip_driver.cpp:29-47 | Each request bit is set exactly when its configuration setting asks for it. The direction is left out when asked "as is". |
| ChipDriver.FlagsDetermineRequest | src/gpio_chip_driver.cpp:29-47 | Two configurations get the same flags exactly when they agree on direction, active-low, open drain and open source. |
| ChipDriver.FlagsAsIs | src/gpio_chip_driver.cpp:29-47 | The "as is" flags are the full flags without the direction bits. |
| ChipDriver.EventFlags | src/gpio_chip_driver.cpp:369-386 | Rising is requested unless the edge is falling, and falling unless it is rising. |
| ChipDriver.ListenRequest | src/gpio_chip_driver.cpp:358-404 | The event request carries the line's offset, request flags and edge flags. |
| ChipDriver.OutputRequest | src/gpio_chip_driver.cpp:437-469 | One offset, whose default is the configured initial state. The output bit is requested only for a line not already an output. |
| ChipDriver.ActiveLowDefault | src/gpio_chip_driver.cpp:491-522 | The default level is 1 exactly for an active-low line. |
| ChipDriver.PollRequest | src/gpio_chip_driver.cpp:491-522 | One offset and one default per line, in order, with the given flags. |
| ChipDriver.InitLinesPolling | src/gpio_chip_driver.cpp:491-522 | Fails exactly when the kernel refuses. Otherwise every line gets the shared descriptor and keeps its value. |
| ChipDriver.AddToBulks | src/gpio_chip_driver.cpp:55-63 | Appends to the last bulk, or opens a new one when that bulk is full. |
| ChipDriver.BatchShape | src/gpio_chip_driver.cpp:55-63 | Batching keeps the lines in order. All bulks but the last are full, and their number is the ceiling of n/64. |
| ChipDriver.BatchFlatten | src/gpio_chip_driver.cpp:55-63 | Batching keeps the lines in order. |
| ChipDriver.BatchPacked | src/gpio_chip_driver.cpp:55-63 | Bulks are full except the last, and there are ceil(n/64) of them. |
| ChipDriver.AddToBulksPacked | src/gpio_chip_driver.cpp:55-63 | Adding a line keeps the bulks packed. |
| ChipDriver.PackedLength | src/gpio_chip_driver.cpp:55-63 | Packed bulks hold 64 per full bulk plus the last bulk's size. |
| ChipDriver.BatchIsChunks | src/gpio_chip_driver.cpp:55-63 | Incremental batching equals cutting the list into consecutive pieces of 64. |
| ChipDriver.ChunksSnoc | src/gpio_chip_driver.cpp:55-63 | Cutting one more line equals adding it to the cut pieces. |
| ChipDriver.PollFlags | src/gpio_chip_driver.cpp:97-110 | Polling flags fit 32 bits. |
| ChipDriver.AddToPoll | src/gpio_chip_driver.cpp:55-63 | Only the line's flag group changes. The line is added to that group's bulks. |
| ChipDriver.WithFlags | src/gpio_chip_driver.cpp:55-63 | Selects lines having the given flags. |
| ChipDriver.PollGroupsAt | src/gpio_chip_driver.cpp:55-63 | A flag group exists exactly when some line has those flags. It holds the batches of those lines. |
| ChipDriver.BatchSnoc | src/gpio_chip_driver.cpp:55-63 | Batching one more line equals adding it to the batches. |
| ChipDriver.WithFlagsHas | src/gpio_chip_driver.cpp:55-63 | Every line is in its own flag group. |
| ChipDriver.Level | src/gpio_chip_driver.cpp:577-599 | A reading is 1 exactly when the kernel says high. |
| ChipDriver.ReadLinesValues | src/gpio_chip_driver.cpp:577-599 | A failed read marks every line in error. A good read gives each line its own value and changes nothing else. |
| ChipDriver.ReadLinesValuesIdempotent | src/gpio_chip_driver.cpp:577-599 | Applying the same reading twice is applying it once. |
| ChipDriver.PollLine | src/gpio_chip_driver.cpp:524-575 | A poll clears the error and flags a recovered MCP23017 output for re-initialisation. It keeps flags, counter, descriptor and config. An output takes the polled value directly. |
| ChipDriver.PollLineSteady | src/gpio_chip_driver.cpp:524-575 | An unchanged, error-free input is left alone. |
| ChipDriver.PollLineChanged | src/gpio_chip_driver.cpp:524-575 | A changed input takes the value and the time exactly when its edge filter accepts the change. |
| ChipDriver.PollLinesValues | src/gpio_chip_driver.cpp:524-575 | A failed read marks error-free lines once and leaves lines already in error alone. A good read polls each line with its own value. |
| ChipDriver.PollLineTwice | src/gpio_chip_driver.cpp:524-575 | Polling the same value twice is polling it once. |
| ChipDriver.PollLinesValuesTwice | src/gpio_chip_driver.cpp:524-575 | A second poll with the same reading changes nothing. |
| ChipDriver.AutoEdge | src/gpio_chip_driver.cpp:641-691 | Auto detection picks rising or falling. |
| ChipDriver.SumOfBits | src/gpio_chip_driver.cpp:641-691 | A sum of 0/1 readings reaches the count exactly when every reading is 1. |
| ChipDriver.AutoEdgeMeaning | src/gpio_chip_driver.cpp:641-691 | Falling is chosen exactly when every reading was high. Otherwise rising. |
| ChipDriver.ReadKeepsNeeds | src/gpio_chip_driver.cpp:641-691 | Reading values does not change whether a line needs detection. |
| ChipDriver.Rounds | src/gpio_chip_driver.cpp:641-691 | Detection rounds keep one line and one sum per line. |
| ChipDriver.Held | src/gpio_chip_driver.cpp:641-691 | One reading per round. |
| ChipDriver.RoundsSums | src/gpio_chip_driver.cpp:641-691 | The sum for a line is the total of its own readings over the rounds. |
| ChipDriver.ApplyEdges | src/gpio_chip_driver.cpp:641-691 | Setting edges keeps one line per line. |
| ChipDriver.AutoDetect | src/gpio_chip_driver.cpp:641-691 | Detection keeps one line per line. |
| ChipDriver.AutoDetectChooses | src/gpio_chip_driver.cpp:641-691 | Afterwards no line needs detection. A detected line gets falling exactly when all its readings were high, and other lines keep their edge. |
| ChipDriver.RoundsKeep | src/gpio_chip_driver.cpp:641-691 | Detection rounds keep each line's counter and config. |
| ChipDriver.AutoDetectIdempotent | src/gpio_chip_driver.cpp:641-691 | Detecting again changes nothing. |
| ChipDriver.Selected | src/gpio_chip_driver.cpp:693-704 | Selection keeps at most the given lines. |
| ChipDriver.Scatter | src/gpio_chip_driver.cpp:693-704 | Scattering keeps one line per line. |
| ChipDriver.SelectedAt | src/gpio_chip_driver.cpp:693-704 | A line read at start sits among the selected lines at its rank, the number of lines read at start before it. |
| ChipDriver.ScatterAt | src/gpio_chip_driver.cpp:693-704 | Scattering puts the read line of that rank at a selected position and keeps every other line. |
| ChipDriver.ReadInputValuesAsWritten | src/gpio_chip_driver.cpp:693-704 | The start-up read as written leaves every line not read at start unchanged. After a good read, the line with rank j among the lines read takes value j of the reply, not the value at its own position. After a failed read each line read carries the read error. |
| ChipDriver.ReadInputValuesMisaligned | src/gpio_chip_driver.cpp:693-704 | A counter input ahead of a plain input makes the as-written read give the plain line the counter's value. |
| ChipDriver.ReadInputValues | src/gpio_chip_driver.cpp:693-704 | Only plain inputs are read, each getting its own value or the error. Every other line is unchanged. |
| ChipDriver.ReadInputValuesAllSelected | src/gpio_chip_driver.cpp:693-704 | When every line is a plain input, both versions equal a plain bulk read. |
| ChipDriver.SelectedAll | src/gpio_chip_driver.cpp:693-704 | Selecting from all-plain inputs keeps them all. |
| ChipDriver.ScatterAll | src/gpio_chip_driver.cpp:693-704 | Scattering into all-plain inputs is the read itself. |
| ChipDriver.StartHandle | src/gpio_chip_driver.cpp:641-704 | The intended start-up: after edge detection and the corrected read no line of a handle needs edge detection. |
| ChipDriver.StartHandleAsWritten | src/gpio_chip_driver.cpp:641-704 | The start-up as written keeps one line per line, and afterwards no line needs edge detection. |
| ChipDriver.StartHandleAgrees | src/gpio_chip_driver.cpp:641-704 | For a handle of plain inputs only, the start-up as written and the intended one give the same lines. |
| ChipDriver.StartHandleMisaligned | src/gpio_chip_driver.cpp:641-704 | With a counter input ahead of a plain input and replies [1, 0], the start-up as written gives the plain input 1, and the intended one gives it 0. |
| ChipDriver.LoadLines | src/gpio_chip_driver.cpp:74-80 | Succeeds exactly when every configuration is accepted, with one line per configuration. A line's error is the kernel's failed info answer, or 0. |
| ChipDriver.ByOffset | src/gpio_chip_driver.cpp:168-183 | The map's keys are exactly the lines' offsets. |
| ChipDriver.ByOffsetFinds | src/gpio_chip_driver.cpp:168-183 | With distinct offsets, each line is found under its own offset. |
| ChipDriver.ByOffsetValue | src/gpio_chip_driver.cpp:65-71 | Every line stored by offset is one of the given lines. |
| ChipDriver.UnopenedLines | src/gpio_chip_driver.cpp:65-71 | On an unopened chip the stored offsets are exactly the configured ones, and every stored line has error -1. |
| ChipDriver.InitInput | src/gpio_chip_driver.cpp:471-489 | An input listens exactly when interrupts are not ruled out and the kernel grants the event request. Otherwise it is polled with interrupts marked unsupported. |
| ChipDriver.InitOutput | src/gpio_chip_driver.cpp:437-469 | An output is driven exactly when the kernel grants its request. Otherwise it stays unchanged and unavailable. |
| ChipDriver.PlaceLine | src/gpio_chip_driver.cpp:74-94 | The configured direction picks input or output initialisation. |
| ChipDriver.Singles | src/gpio_chip_driver.cpp:74-94 | Each single handle holds one line. |
| ChipDriver.PlacementsCounted | src/gpio_chip_driver.cpp:74-94 | Every line is placed exactly once. |
| ChipDriver.FlagOrder | src/gpio_chip_driver.cpp:97-110 | The flag values polled are exactly those some polled line has. |
| ChipDriver.Tag | src/gpio_chip_driver.cpp:97-110 | Each bulk is tagged with its group's flags. |
| ChipDriver.PollBulks | src/gpio_chip_driver.cpp:97-110 | Every bulk holds 1 to 64 lines that all share the bulk's flags. |
| ChipDriver.BulksInOk | src/gpio_chip_driver.cpp:97-110 | Bulks of consistent groups are consistent. |
| ChipDriver.PollGroupBulk | src/gpio_chip_driver.cpp:55-63 | Each bulk of a flag group is sized and its lines have the group's flags. |
| ChipDriver.Grant | src/gpio_chip_driver.cpp:491-522 | A granted bulk keeps its size. |
| ChipDriver.Collect | src/gpio_chip_driver.cpp:97-110 | Every polled line ends up in a granted handle or refused. Handles hold 1 to 64 lines. |
| ChipDriver.InitPolling | src/gpio_chip_driver.cpp:97-110 | Every polled line ends up in a granted handle or refused. Handles hold 1 to 64 lines. |
| ChipDriver.CollectGranted | src/gpio_chip_driver.cpp:97-110 | When every bulk is granted, there is one handle per bulk, in order, and nothing is refused. |
| ChipDriver.CollectRefused | src/gpio_chip_driver.cpp:97-110 | When every bulk is refused, every polled line is refused. |
| ChipDriver.InitPollingGranted | src/gpio_chip_driver.cpp:491-522 | When the kernel grants every bulk, each becomes a handle with its lines. |
| ChipDriver.InitPollingRefused | src/gpio_chip_driver.cpp:491-522 | When the kernel refuses every bulk, all polled lines go to the disconnected set. |
| ChipDriver.PollBulksNonEmpty | src/gpio_chip_driver.cpp:55-63 | Some polled line means some bulk line. |
| ChipDriver.Place | src/gpio_chip_driver.cpp:74-114 | Handles hold 1 to 64 lines. The only failure is that no line was initialised. |
| ChipDriver.PlaceFails | src/gpio_chip_driver.cpp:112-114 | Placing fails exactly when there are no lines. |
| ChipDriver.ChipKernel | src/gpio_line.cpp:65-75 | On an unopened chip every line-info query fails with -1. An opened chip asks the kernel. |
| ChipDriver.Construct | src/gpio_chip_driver.cpp:50-118 | A rejected counter type is reported. On an unopened chip every line is disconnected under its offset with error -1, and nothing is handled. |
| ChipDriver.ConstructFails | src/gpio_chip_driver.cpp:65-114 | With valid counters, construction fails exactly when the chip opened and has no lines. |
| Strings.NatToString | generate-system-config.py:133-137 | Decimal rendering is all digits, non-empty, without a leading zero. |
| Strings.DigitsValueOfNatToString | src/utils.cpp:173-181 | The rendered number parses back. |
| Strings.NatToStringInjective | src/utils.cpp:173-181 | Different numbers render differently. |
| Strings.ParseDecimal | src/utils.cpp:178-181 | Parsing succeeds exactly on non-empty digit strings. |
| Strings.LeadingDigits | src/utils.cpp:178-181 | The longest digit prefix. |
| Strings.Find | src/utils.cpp:24-27 | Finds the first occurrence, exactly when there is one. |
| Strings.FindZeroIsPrefix | src/utils.cpp:24-27 | An occurrence at position 0 means a prefix. |
| Strings.StrLessTotal | generate-system-config.py:129-131 | Name order is total. |
| Strings.StrLessTransitive | generate-system-config.py:129-131 | Name order is transitive. |
| Sorting.SortNames | generate-system-config.py:129-131 | Sorting permutes the names. |
| Sorting.SortNamesSorted | generate-system-config.py:129-131 | Sorted names are in order. |
| Sorting.SortNamesAscending | src/file_utils.cpp:27-45 | Distinct names sort strictly ascending. |
| Sorting.SortByKeyStable | generate-system-config.py:163-165 | Key sorting permutes, orders by key, and keeps equal-key items in their original order. |
| Sorting.SortByKeyTiesByName | generate-system-config.py:163-165 | Items that came sorted by name stay name-sorted within equal keys. |
| Wrappers.MapAll | config.cpp:68-104 | Succeeds exactly when every element does, element by element. Otherwise it reports some element's error. |

## Left out

- The MQTT side, the daemon main loop, epoll registration, timers and timerfd, and `HandleGpioInterrupt`/`HandleTimerInterrupt`: these are I/O and scheduling. The per-line event logic they call is modelled (`Line.HandleInterrupt`, `Line.UpdateIfStable`).
- `ReListenLine`, `ReInitOutput`, `FlushMcp23xState`, `ReleaseLineIfUsed`: recovery paths that only repeat kernel requests. They are also outside the operations modelled here.
- Energy and flow rates, `GetCurrent`, `GetTotal` and decimal rounding in the counter: floating point.
- Symlink resolution (`realpath`), file writes and the JSON dump of the generator: file-system I/O.
- JSON parsing and schema validation beyond the top-level `required` keys: a parsed document is an input.
- The driver's lines map is an unordered map keyed by descriptor. Here it is an ordered sequence of handles, and polling bulks are processed in first-appearance flag order, one valid iteration order.
- Line.NewLine: the constructor's assertion that the offset is below the chip's line count is not a precondition. Lines of a disconnected chip are built without it.
- Line.NewLine: flags are 0 when the kernel query fails; the source leaves them as they were.
- ChipDriver.Grant: requires at most 64 lines, which the source only asserts.
- Sysfs.EnsureReady: requires mappings that were never cleared. The source only asserts this, in debug builds (src/utils.cpp:153). A release build would rebuild the mappings after `ClearMappingCache`. The model does not describe that.
- Sysfs.GpioChipLabelToNumber: has the same requires as `Sysfs.EnsureReady`, for the same reason.
- ChipDriver.PollLine: polled counter lines count through the debounce timer, which is not modelled, so a poll never changes a counter.
- Errors that the driver reports as text are modelled as non-zero integer codes.
- `DeviceChipNumber` takes the device directory listing as input; enumerating `/sys/bus/gpio/devices` is not modelled.
- Sysfs.GpioPathToChipNumber: `stoul` also skips leading white space and accepts a sign; the model accepts only digits right after the prefix.
- Sysfs.GpioPathToChipNumber: the 2^64 limit assumes a 64-bit `unsigned long`. On a 32-bit ARM build `stoul` already fails from 2^32, which the model does not follow.
- Sysfs.FindByChip: `std::set::find` with a chip-number key is a tree search for the lower bound. The model scans the ranges in position order. The two agree whenever the ranges whose chip number is below the key come first, for example when chip numbers ascend with position (`Sysfs.FindByChipAscending`). Otherwise the tree's shape decides the answer: with chips [2, 0, 1] in position order and key 1, a balanced tree finds chip 1 where the scan finds chip 2.
- Sysfs.ToSysfsGpio: inherits the position-order scan of `Sysfs.FindByChip`, so it matches the source only under the same condition.
- DeviceTree.BytesToText: maps each byte to the character with the same code (Latin-1). The generator reads the file in text mode, which decodes UTF-8 and raises on invalid bytes. Kernel-written property names are ASCII, where the two agree. Text mode also turns "\r\n" and "\r" into "\n", and the model keeps the raw bytes. The only text property read, `gpio-xlate-type`, holds a scheme name without a carriage return.
- DeviceTree.ChipNumberOfName: accepts only digits after `gpiochip`. Python's `int` also accepts surrounding white space, a sign and underscores. Kernel-generated entry names are `gpiochip` followed by digits.
- DeviceTree.GetPhandleMap: inherits the digits-only reading of `DeviceTree.ChipNumberOfName`.
- GpioConfig.ChannelEntry: places a sysfs number with the checked lookup `Sysfs.FromSysfsGpioChecked`, the corrected half of the first finding below. The code as written is `GpioConfig.ChannelEntryAsWritten`. The two agree for every number inside some range of an ordered chip set (`GpioConfig.ChannelEntryAgrees`). A number between ranges is skipped here but kept by the source on a wrapped offset (`GpioConfig.ChannelEntryGap`).
- GpioConfig.LoadFromJsonSucceeds: stated over `GpioConfig.ChannelEntry`, so it is the source's condition whenever every sysfs number lies inside a range (`GpioConfig.ChannelEntriesAgree`).
- GpioConfig.LoadFromJsonLines: likewise stated over the checked lookup, and equal to the source's lines under the same condition.
- ChipDriver.Construct: stops after placing the lines. The two start-up steps that follow, edge detection and the first read, are modelled per handle, apart from the constructor.
- ChipDriver.StartHandle: uses the corrected read `ChipDriver.ReadInputValues`, the corrected half of the third finding below. The source's start-up is `ChipDriver.StartHandleAsWritten`, whose read is `ChipDriver.ReadInputValuesAsWritten`. The two agree when every line of the handle is a plain input (`ChipDriver.StartHandleAgrees`).

## Findings

| source | as written | input that shows it | evidently intended | confidence | as-written member | corrected member |
|---|---|---|---|---|---|---|
| src/utils.cpp:215-232 | The lookup by sysfs number takes the first range ending above the number, without checking that the number is at or above its begin. The offset is then computed in 32 bits. | Chip 0 holds 0..31 and chip 1 holds 64..95. Number 40 gives chip 1 with offset 2^32-24. | Numbers outside every range are rejected as out of range. | not executed | Sysfs.FromSysfsGpioAcceptsGap | Sysfs.FromSysfsGpioChecked (Sysfs.SysfsRoundTripChecked) |
| src/utils.cpp:194-213 | The lookup by chip number takes the lower bound: a range whose chip number is at least the one asked for, not necessarily equal to it. | Chip 1 holds 0..31 and chip 0 holds 32..63. No chip number is below 0, so any tree search for chip 0 stops at the first range, chip 1. Line 5 of chip 0 is given number 5, which maps back to chip 1. | Each chip's own range is used. | not executed | Sysfs.ToSysfsGpioPicksWrongChip | Sysfs.ToSysfsGpioChecked (Sysfs.SysfsRoundTripChecked) |
| src/gpio_chip_driver.cpp:693-704 | The start-up read collects the plain inputs of a handle and reads them as a bulk. Value i of the handle's reply goes to the i-th collected line. | A handle [counter input, plain input] with kernel values [1, 0]: the plain input gets 1. | Each line takes the value at its own position in the handle. | not executed | ChipDriver.ReadInputValuesAsWritten (ChipDriver.StartHandleMisaligned) | ChipDriver.ReadInputValues (ChipDriver.ReadInputValuesAllSelected) |

=== FILE: cells.dfy ===
/**
 * Decoding of device-tree property bytes into 32-bit big-endian cells, as the
 * generator's `split_each` and `bin2ulong` do it.
 *
 * `split_each` pads a short last chunk with Python `None`; `int.from_bytes`
 * then raises, so a property whose length is not a multiple of four is a
 * decoding failure, never a zero-padded cell.
 */
module Cells {
  import opened Wrappers

  type byte = b: int | 0 <= b < 256

  const CellSize: nat := 4
  const CellLimit: nat := 0x1_0000_0000

  datatype CellError =
    | PaddedChunk     // int.from_bytes met a None pad element (TypeError)
    | NotSingleValue  // `single_value=True` and a cell count other than one

  function Wrap<T>(s: seq<T>): (r: seq<Option<T>>)
    ensures |r| == |s| && forall i :: 0 <= i < |s| ==> r[i] == Some(s[i])
  {
    seq(|s|, i requires 0 <= i < |s| => Some(s[i]))
  }

  function Padding<T>(k: nat): (r: seq<Option<T>>)
    ensures |r| == k && forall i :: 0 <= i < k ==> r[i] == None
  {
    seq(k, i => None)
  }

  /** `split_each(data, size)`: consecutive chunks of `size`, the last one padded with `None`. */
  function SplitEach<T>(data: seq<T>, size: nat): (chunks: seq<seq<Option<T>>>)
    requires size > 0
    ensures |chunks| == 0 <==> |data| == 0
    ensures forall i :: 0 <= i < |chunks| ==> |chunks[i]| == size && chunks[i][0].Some?
    decreases |data|
  {
    if |data| >= size then [Wrap(data[..size])] + SplitEach(data[size..], size)
    else if |data| > 0 then [Wrap(data) + Padding(size - |data|)]
    else []
  }

  /** The values a chunk carries, with the `None` padding removed. */
  function Present<T>(chunk: seq<Option<T>>): seq<T> {
    if |chunk| == 0 then []
    else (if chunk[0].Some? then [chunk[0].value] else []) + Present(chunk[1..])
  }

  function Joined<T>(chunks: seq<seq<Option<T>>>): seq<T> {
    if |chunks| == 0 then [] else Present(chunks[0]) + Joined(chunks[1..])
  }

  predicate Unpadded<T>(chunk: seq<Option<T>>) {
    forall j :: 0 <= j < |chunk| ==> chunk[j].Some?
  }

  lemma {:induction false} PresentOfWrap<T>(s: seq<T>)
    ensures Present(Wrap(s)) == s
    decreases |s|
  {
    if |s| > 0 {
      assert Wrap(s)[1..] == Wrap(s[1..]);
      PresentOfWrap(s[1..]);
    }
  }

  lemma {:induction false} PresentOfPadding<T>(s: seq<Option<T>>, k: nat)
    ensures Present(s + Padding<T>(k)) == Present(s)
    decreases |s|, k
  {
    if |s| > 0 {
      assert (s + Padding<T>(k))[1..] == s[1..] + Padding<T>(k);
      PresentOfPadding(s[1..], k);
    } else if k > 0 {
      assert (s + Padding<T>(k))[1..] == [] + Padding<T>(k - 1);
      PresentOfPadding(s, k - 1);
    }
  }

  /**
   * Every chunk but the last is full, and removing the padding and joining
   * the chunks gives back the input.
   */
  lemma {:induction false} SplitEachShape<T>(data: seq<T>, size: nat)
    requires size > 0
    ensures forall i :: 0 <= i < |SplitEach(data, size)| - 1 ==> Unpadded(SplitEach(data, size)[i])
    ensures Joined(SplitEach(data, size)) == data
    decreases |data|
  {
    var chunks := SplitEach(data, size);
    if |data| >= size {
      SplitEachShape(data[size..], size);
      PresentOfWrap(data[..size]);
      assert chunks[1..] == SplitEach(data[size..], size);
      assert data == data[..size] + data[size..];
    } else if |data| > 0 {
      PresentOfPadding(Wrap(data), size - |data|);
      PresentOfWrap(data);
    }
  }

  /** Element `j` of chunk `i` is element `i * size + j` of the input, or a pad past its end. */
  lemma {:induction false} SplitEachIndex<T>(data: seq<T>, size: nat, i: nat, j: nat)
    requires size > 0 && i < |SplitEach(data, size)| && j < size
    ensures SplitEach(data, size)[i][j] == if i * size + j < |data| then Some(data[i * size + j]) else None
    decreases |data|
  {
    if i > 0 {
      assert |data| >= size;
      SplitEachIndex(data[size..], size, i - 1, j);
      assert (i - 1) * size + j + size == i * size + j;
    }
  }

  /** `int.from_bytes(chunk, "big")` for a chunk of real bytes. */
  function BigEndian(bs: seq<byte>): nat {
    if |bs| == 0 then 0 else BigEndian(bs[..|bs| - 1]) * 256 + bs[|bs| - 1]
  }

  function DecodeChunks(chunks: seq<seq<Option<byte>>>): Result<seq<nat>, CellError> {
    if |chunks| == 0 then Success([])
    else if !Unpadded(chunks[0]) then Failure(PaddedChunk)
    else
      var rest :- DecodeChunks(chunks[1..]);
      Success([BigEndian(Present(chunks[0]))] + rest)
  }

  /**
   * `bin2ulong(filename)` applied to the file's content: content of length
   * 4k decodes to k cells in file order, cell i being the big-endian value
   * of bytes [4i, 4i+4); any other length fails on the padded last chunk.
   */
  function Bin2Ulong(content: seq<byte>): (r: Result<seq<nat>, CellError>)
    ensures r.Success? <==> |content| % 4 == 0
    ensures r.Failure? ==> r.error == PaddedChunk
    ensures r.Success? ==>
      |r.value| == |content| / 4 &&
      forall i :: 0 <= i < |content| / 4 ==> r.value[i] == BigEndian(content[4 * i..4 * i + 4])
  {
    SplitCells(content);
    DecodeChunks(SplitEach(content, CellSize))
  }

  /** `bin2ulong(filename, single_value=True)`. */
  function Bin2UlongSingle(content: seq<byte>): (r: Result<nat, CellError>)
    ensures r.Success? <==> Bin2Ulong(content).Success? && |Bin2Ulong(content).value| == 1
    ensures r.Success? ==> r.value == Bin2Ulong(content).value[0]
  {
    var cells :- Bin2Ulong(content);
    if |cells| != 1 then Failure(NotSingleValue) else Success(cells[0])
  }

  lemma {:induction false} CellOfRest(content: seq<byte>, i: nat)
    requires 0 < i && 4 * i + 4 <= |content|
    ensures content[4 * i..4 * i + 4] == content[4..][4 * (i - 1)..4 * (i - 1) + 4]
  {
    var a := 4 * (i - 1);
    assert 4 * i == a + 4;
    assert content[4..][a..a + 4] == content[a + 4..a + 8];
  }

  /** The chunk decoding behind `Bin2Ulong`, by induction over the chunks. */
  lemma {:induction false} SplitCells(content: seq<byte>)
    ensures var r := DecodeChunks(SplitEach(content, CellSize));
      (r.Success? <==> |content| % 4 == 0) && (r.Failure? ==> r.error == PaddedChunk) &&
      (r.Success? ==>
        |r.value| == |content| / 4 &&
        forall i :: 0 <= i < |content| / 4 ==> r.value[i] == BigEndian(content[4 * i..4 * i + 4]))
    decreases |content|
  {
    var chunks := SplitEach(content, CellSize);
    if |content| >= 4 {
      var rest := content[4..];
      SplitCells(rest);
      assert |content| / 4 == |rest| / 4 + 1 && |content| % 4 == |rest| % 4;
      assert chunks[0] == Wrap(content[..4]);
      assert chunks[1..] == SplitEach(rest, CellSize);
      PresentOfWrap(content[..4]);
      var r := DecodeChunks(chunks);
      if r.Success? {
        var cells := r.value;
        assert cells == [BigEndian(content[..4])] + DecodeChunks(SplitEach(rest, CellSize)).value;
        forall i | 0 <= i < |content| / 4
          ensures cells[i] == BigEndian(content[4 * i..4 * i + 4])
        {
          if i > 0 {
            CellOfRest(content, i);
          }
        }
      }
    } else if |content| > 0 {
      assert chunks[0][3] == None;
    }
  }

  /** A bare `single_value` read succeeds exactly on a 4-byte property. */
  lemma {:induction false} Bin2UlongSingleLength(content: seq<byte>)
    ensures Bin2UlongSingle(content).Success? <==> |content| == 4
  {
  }

  /** The inverse direction: the device-tree encoding of one cell. */
  function EncodeCell(c: nat): (bs: seq<byte>)
    requires c < CellLimit
    ensures |bs| == 4
  {
    [c / 0x100_0000, (c / 0x1_0000) % 256, (c / 0x100) % 256, c % 256]
  }

  function EncodeCells(cells: seq<nat>): (bs: seq<byte>)
    requires forall i :: 0 <= i < |cells| ==> cells[i] < CellLimit
    ensures |bs| == 4 * |cells|
  {
    if |cells| == 0 then [] else EncodeCell(cells[0]) + EncodeCells(cells[1..])
  }

  lemma {:induction false} BigEndianOfEncodeCell(c: nat)
    requires c < CellLimit
    ensures BigEndian(EncodeCell(c)) == c
  {
    var bs := EncodeCell(c);
    var d1 := c / 0x100;
    var d2 := d1 / 0x100;
    var d3 := d2 / 0x100;
    assert d2 == c / 0x1_0000 && d3 == c / 0x100_0000;
    assert bs[..1] == [d3] && bs[..2] == [d3, d2 % 256] && bs[..3] == [d3, d2 % 256, d1 % 256];
    assert BigEndian(bs[..1]) == d3 by {
      assert bs[..1][..0] == [];
    }
    assert BigEndian(bs[..2]) == d2 by {
      assert bs[..2][..1] == bs[..1];
    }
    assert BigEndian(bs[..3]) == d1 by {
      assert bs[..3][..2] == bs[..2];
    }
    assert bs[..4][..3] == bs[..3];
  }

  /** Decoding the encoding of in-range cells gives the cells back. */
  lemma {:induction false} Bin2UlongOfEncodeCells(cells: seq<nat>)
    requires forall i :: 0 <= i < |cells| ==> cells[i] < CellLimit
    ensures Bin2Ulong(EncodeCells(cells)) == Success(cells)
    decreases |cells|
  {
    if |cells| > 0 {
      var head := EncodeCell(cells[0]);
      var tail := EncodeCells(cells[1..]);
      var content := EncodeCells(cells);
      assert content == head + tail;
      assert content[..4] == head && content[4..] == tail;
      var chunks := SplitEach(content, CellSize);
      assert chunks == [Wrap(head)] + SplitEach(tail, CellSize);
      assert chunks[1..] == SplitEach(tail, CellSize);
      PresentOfWrap(head);
      BigEndianOfEncodeCell(cells[0]);
      Bin2UlongOfEncodeCells(cells[1..]);
      assert cells == [cells[0]] + cells[1..];
    }
  }
}

=== FILE: chip_driver.dfy ===
/**
 * The decisions of one chip's driver (`TGpioChipDriver`): the request flags a
 * line configuration asks the kernel for, the grouping of lines that cannot
 * use interrupts into bulk polling handles, the requests those handles send,
 * the per-line transitions of a bulk read and of a poll, the automatic choice
 * of a counter's edge, and what the constructor makes of each line.
 *
 * The kernel's answers to requests and reads are parameters. Bit values and
 * the bulk size come from the Linux GPIO character device interface
 * (`linux/gpio.h`, version 1 of the interface).
 */
module ChipDriver {
  import opened Wrappers
  import opened Edges
  import GpioConfig
  import L = Line
  import C = Counter
  import Sysfs
  import Sorting

  /** `GPIOHANDLE_REQUEST_*` bits. */
  const RequestInput: bv32 := 1
  const RequestOutput: bv32 := 2
  const RequestActiveLow: bv32 := 4
  const RequestOpenDrain: bv32 := 8
  const RequestOpenSource: bv32 := 16

  /** `GPIOEVENT_REQUEST_*` bits. */
  const EventRisingEdge: bv32 := 1
  const EventFallingEdge: bv32 := 2
  const EventBothEdges: bv32 := 3

  /** `GPIOHANDLES_MAX`: the most lines one handle request may carry. */
  const HandlesMax: nat := 64

  // ---------------------------------------------------------------------------
  // Request flags.

  /**
   * `GetFlagsFromConfig(config, asIs)`: the direction bit unless `asIs`, and
   * one bit per electrical option.
   */
  function FlagsFromConfig(config: GpioConfig.LineConfig, asIs: bool): (f: bv32)
    ensures f & RequestInput != 0 <==> !asIs && config.direction == GpioConfig.Input
    ensures f & RequestOutput != 0 <==> !asIs && config.direction == GpioConfig.Output
    ensures f & RequestActiveLow != 0 <==> config.isActiveLow
    ensures f & RequestOpenDrain != 0 <==> config.isOpenDrain
    ensures f & RequestOpenSource != 0 <==> config.isOpenSource
    ensures f & !0x1f == 0
  {
    var direction: bv32 :=
      if asIs then 0
      else match config.direction
        case Input => RequestInput
        case Output => RequestOutput;
    direction
    | (if config.isOpenDrain then RequestOpenDrain else 0)
    | (if config.isOpenSource then RequestOpenSource else 0)
    | (if config.isActiveLow then RequestActiveLow else 0)
  }

  /** Two configurations ask for the same request exactly when they agree on direction and the three options. */
  predicate SameRequest(a: GpioConfig.LineConfig, b: GpioConfig.LineConfig) {
    a.direction == b.direction && a.isActiveLow == b.isActiveLow &&
    a.isOpenDrain == b.isOpenDrain && a.isOpenSource == b.isOpenSource
  }

  lemma {:induction false} FlagsDetermineRequest(a: GpioConfig.LineConfig, b: GpioConfig.LineConfig)
    ensures FlagsFromConfig(a, false) == FlagsFromConfig(b, false) <==> SameRequest(a, b)
  {
    var fa, fb := FlagsFromConfig(a, false), FlagsFromConfig(b, false);
    if SameRequest(a, b) {
      SameBitsSameFlags(fa, fb);
    }
  }

  /** Two request words that agree on the five request bits and have no other bit set are equal. */
  lemma {:induction false} SameBitsSameFlags(f: bv32, g: bv32)
    requires f & !0x1f == 0 && g & !0x1f == 0
    requires (f & RequestInput != 0) == (g & RequestInput != 0)
    requires (f & RequestOutput != 0) == (g & RequestOutput != 0)
    requires (f & RequestActiveLow != 0) == (g & RequestActiveLow != 0)
    requires (f & RequestOpenDrain != 0) == (g & RequestOpenDrain != 0)
    requires (f & RequestOpenSource != 0) == (g & RequestOpenSource != 0)
    ensures f == g
  {
  }

  /** Asking "as is" clears exactly the two direction bits. */
  lemma {:induction false} FlagsAsIs(c: GpioConfig.LineConfig)
    ensures FlagsFromConfig(c, true) == FlagsFromConfig(c, false) & !(RequestInput | RequestOutput)
  {
    var t, f := FlagsFromConfig(c, true), FlagsFromConfig(c, false);
    SameBitsSameFlags(t, f & !(RequestInput | RequestOutput));
  }

  /** The event bits a line listens with: AUTO listens to both edges until an edge is chosen. */
  function EventFlags(e: Edge): (f: bv32)
    ensures f & EventRisingEdge != 0 <==> e != Falling
    ensures f & EventFallingEdge != 0 <==> e != Rising
    ensures f & !EventBothEdges == 0
  {
    match e
    case Rising => EventRisingEdge
    case Falling => EventFallingEdge
    case Both => EventBothEdges
    case Auto => EventBothEdges
  }

  // ---------------------------------------------------------------------------
  // Requests and the kernel's answers.

  /** `gpiohandle_request`: flags, one offset and one default value per line. */
  datatype HandleRequest = HandleRequest(flags: bv32, offsets: seq<Sysfs.u32>, defaults: seq<L.u8>)

  /** `gpioevent_request`: one line, its handle flags and the edges to report. */
  datatype EventRequest = EventRequest(offset: Sysfs.u32, handleFlags: bv32, eventFlags: bv32)

  /** An ioctl's outcome: the new descriptor, or a failure. */
  datatype Reply = Granted(fd: nat) | Refused

  /** `GPIOHANDLE_GET_LINE_VALUES_IOCTL`: one value per line of the handle, or a failure. */
  datatype ReadReply = Values(values: seq<L.u8>) | ReadFailed

  /** The kernel's answers to event requests, handle requests and line-info queries. */
  datatype Kernel = Kernel(listen: EventRequest -> Reply, handle: HandleRequest -> Reply, info: Sysfs.u32 -> L.InfoReply)

  /** `TryListenLine`'s request. */
  function ListenRequest(l: L.Line): (req: EventRequest)
    ensures req.offset == l.offset
    ensures req.handleFlags == FlagsFromConfig(l.config, false)
    ensures req.eventFlags == EventFlags(l.config.edge)
  {
    EventRequest(l.offset, FlagsFromConfig(l.config, false), EventFlags(l.config.edge))
  }

  /**
   * `InitOutput`'s request: the one line with its initial state, and no
   * direction bit when the kernel already reports the line as an output.
   */
  function OutputRequest(l: L.Line): (req: HandleRequest)
    ensures req.offsets == [l.offset] && req.defaults == [if l.config.initialState then 1 else 0]
    ensures req.flags & RequestOutput != 0 <==> !L.IsOutput(l) && l.config.direction == GpioConfig.Output
  {
    HandleRequest(FlagsFromConfig(l.config, L.IsOutput(l)), [l.offset], [if l.config.initialState then 1 else 0])
  }

  /** The default value a polled line is requested with: 1 exactly for an active-low line. */
  function ActiveLowDefault(l: L.Line): (v: L.u8)
    ensures v == 1 <==> L.IsActiveLow(l)
    ensures v <= 1
  {
    if L.IsActiveLow(l) then 1 else 0
  }

  /**
   * `InitLinesPolling`'s request: the lines in order, each with its offset
   * and its active-low default.
   */
  function PollRequest(flags: bv32, lines: seq<L.Line>): (req: HandleRequest)
    requires |lines| <= HandlesMax
    ensures req.flags == flags && |req.offsets| == |lines| && |req.defaults| == |lines|
    ensures forall i :: 0 <= i < |lines| ==> req.offsets[i] == lines[i].offset
    ensures forall i :: 0 <= i < |lines| ==> req.defaults[i] == ActiveLowDefault(lines[i])
  {
    HandleRequest(flags,
      seq(|lines|, i requires 0 <= i < |lines| => lines[i].offset),
      seq(|lines|, i requires 0 <= i < |lines| => ActiveLowDefault(lines[i])))
  }

  /**
   * `InitLinesPolling(flags, lines)`: on success every line holds the one
   * new descriptor; on failure nothing is returned.
   */
  function InitLinesPolling(k: Kernel, flags: bv32, lines: seq<L.Line>): (r: Option<seq<L.Line>>)
    requires |lines| <= HandlesMax
    ensures r.None? <==> k.handle(PollRequest(flags, lines)).Refused?
    ensures r.Some? ==> |r.value| == |lines|
    ensures r.Some? ==> forall i :: 0 <= i < |lines| ==>
      r.value[i].fd == k.handle(PollRequest(flags, lines)).fd &&
      r.value[i].offset == lines[i].offset && r.value[i].config == lines[i].config
  {
    match k.handle(PollRequest(flags, lines))
    case Refused => None
    case Granted(fd) => Some(seq(|lines|, i requires 0 <= i < |lines| => L.SetFd(lines[i], fd, k.info(lines[i].offset))))
  }

  // ---------------------------------------------------------------------------
  // Batching lines that are polled.

  /** The lines of the bulks, in order. */
  function Flatten<T>(bulks: seq<seq<T>>): (xs: seq<T>)
  {
    if |bulks| == 0 then [] else Flatten(bulks[..|bulks| - 1]) + bulks[|bulks| - 1]
  }

  /** Every bulk holds between one and `HandlesMax` lines and every bulk but the last is full. */
  predicate Packed<T>(bulks: seq<seq<T>>) {
    (forall i :: 0 <= i < |bulks| ==> 0 < |bulks[i]| <= HandlesMax) &&
    (forall i :: 0 <= i < |bulks| - 1 ==> |bulks[i]| == HandlesMax)
  }

  /** The `addToPoll` step on one flag group: a new bulk only when there is none or the last is full. */
  function AddToBulks<T>(bulks: seq<seq<T>>, x: T): (r: seq<seq<T>>)
    ensures Flatten(r) == Flatten(bulks) + [x]
    ensures |r| == if |bulks| == 0 || |bulks[|bulks| - 1]| == HandlesMax then |bulks| + 1 else |bulks|
    ensures r[..|r| - 1] == if |r| > |bulks| then bulks else bulks[..|bulks| - 1]
  {
    if |bulks| == 0 || |bulks[|bulks| - 1]| == HandlesMax then
      var r := bulks + [[x]];
      assert r[..|r| - 1] == bulks;
      r
    else
      var n := |bulks| - 1;
      var r := bulks[..n] + [bulks[n] + [x]];
      assert r[..|r| - 1] == bulks[..n];
      assert Flatten(bulks) == Flatten(bulks[..n]) + bulks[n];
      r
  }

  /** Lines added one at a time, starting from no bulk. */
  function Batch<T>(xs: seq<T>): (bulks: seq<seq<T>>)
  {
    if |xs| == 0 then [] else AddToBulks(Batch(xs[..|xs| - 1]), xs[|xs| - 1])
  }

  /**
   * Batching keeps the lines and their order, packs them into full bulks of
   * `HandlesMax` with the remainder last, and so needs ceil(n / 64) handles.
   */
  lemma {:induction false} BatchShape<T>(xs: seq<T>)
    ensures Flatten(Batch(xs)) == xs
    ensures Packed(Batch(xs))
    ensures |Batch(xs)| == (|xs| + HandlesMax - 1) / HandlesMax
  {
    BatchFlatten(xs);
    BatchPacked(xs);
  }

  lemma {:induction false} BatchFlatten<T>(xs: seq<T>)
    ensures Flatten(Batch(xs)) == xs
    decreases |xs|
  {
    if |xs| > 0 {
      var init := xs[..|xs| - 1];
      BatchFlatten(init);
      Sorting.SnocSplit(xs);
    }
  }

  lemma {:induction false} BatchPacked<T>(xs: seq<T>)
    ensures Packed(Batch(xs))
    ensures |Batch(xs)| == (|xs| + HandlesMax - 1) / HandlesMax
    decreases |xs|
  {
    if |xs| > 0 {
      var init := xs[..|xs| - 1];
      BatchPacked(init);
      BatchFlatten(init);
      AddToBulksPacked(Batch(init), xs[|xs| - 1], |init|);
    }
  }

  lemma {:induction false} AddToBulksPacked<T>(bulks: seq<seq<T>>, x: T, n: nat)
    requires Packed(bulks) && |Flatten(bulks)| == n && |bulks| == (n + HandlesMax - 1) / HandlesMax
    ensures Packed(AddToBulks(bulks, x))
    ensures |AddToBulks(bulks, x)| == (n + 1 + HandlesMax - 1) / HandlesMax
  {
    var r := AddToBulks(bulks, x);
    PackedLength(bulks);
    if |bulks| == 0 || |bulks[|bulks| - 1]| == HandlesMax {
      assert r == bulks + [[x]];
      assert n == |bulks| * HandlesMax;
    } else {
      assert r == bulks[..|bulks| - 1] + [bulks[|bulks| - 1] + [x]];
      assert r[|r| - 1] == bulks[|bulks| - 1] + [x];
      assert forall i :: 0 <= i < |r| - 1 ==> r[i] == bulks[i];
    }
  }

  /** The lines of packed bulks: all full ones, plus the last. */
  lemma {:induction false} PackedLength<T>(bulks: seq<seq<T>>)
    requires Packed(bulks)
    ensures |bulks| > 0 ==> |Flatten(bulks)| == (|bulks| - 1) * HandlesMax + |bulks[|bulks| - 1]|
    ensures |bulks| == 0 ==> |Flatten(bulks)| == 0
    decreases |bulks|
  {
    if |bulks| > 1 {
      var init := bulks[..|bulks| - 1];
      assert Packed(init);
      PackedLength(init);
    } else if |bulks| == 1 {
      assert Flatten(bulks) == Flatten(bulks[..0]) + bulks[0];
    }
  }

  /**
   * The reference split: the first `HandlesMax` lines, then the split of
   * the rest. Batching one line at a time yields exactly this split.
   */
  function Chunks<T>(xs: seq<T>): (bulks: seq<seq<T>>)
    decreases |xs|
  {
    if |xs| == 0 then []
    else if |xs| <= HandlesMax then [xs]
    else [xs[..HandlesMax]] + Chunks(xs[HandlesMax..])
  }

  lemma {:induction false} BatchIsChunks<T>(xs: seq<T>)
    ensures Batch(xs) == Chunks(xs)
    decreases |xs|
  {
    if |xs| > 0 {
      var init, x := xs[..|xs| - 1], xs[|xs| - 1];
      BatchIsChunks(init);
      ChunksSnoc(init, x);
      Sorting.SnocSplit(xs);
      calc {
        Batch(xs);
        AddToBulks(Batch(init), x);
        AddToBulks(Chunks(init), x);
        Chunks(init + [x]);
      }
    }
  }

  lemma {:induction false} ChunksSnoc<T>(xs: seq<T>, x: T)
    ensures Chunks(xs + [x]) == AddToBulks(Chunks(xs), x)
    decreases |xs|
  {
    if |xs| > HandlesMax {
      var rest := xs[HandlesMax..];
      ChunksSnoc(rest, x);
      ChunksSnocLong(xs, x);
    } else if |xs| == HandlesMax {
      ChunksSnocFull(xs, x);
    } else if |xs| > 0 {
      assert Chunks(xs) == [xs];
      assert Chunks(xs + [x]) == [xs + [x]];
      var b := [xs];
      assert b[..|b| - 1] + [b[|b| - 1] + [x]] == [xs + [x]];
    } else {
      assert xs + [x] == [x];
      assert Chunks([x]) == [[x]];
    }
  }

  /** Past the first bulk, appending to the split is appending to the split of the rest. */
  lemma {:induction false} ChunksSnocLong<T>(xs: seq<T>, x: T)
    requires |xs| > HandlesMax
    requires Chunks(xs[HandlesMax..] + [x]) == AddToBulks(Chunks(xs[HandlesMax..]), x)
    ensures Chunks(xs + [x]) == AddToBulks(Chunks(xs), x)
  {
    var rest := xs[HandlesMax..];
    assert (xs + [x])[..HandlesMax] == xs[..HandlesMax];
    assert (xs + [x])[HandlesMax..] == rest + [x];
    assert Chunks(xs + [x]) == [xs[..HandlesMax]] + Chunks(rest + [x]);
    assert Chunks(xs) == [xs[..HandlesMax]] + Chunks(rest);
    AddToBulksCons(xs[..HandlesMax], Chunks(rest), x);
  }

  /** One line past a full bulk starts the second bulk. */
  lemma {:induction false} ChunksSnocFull<T>(xs: seq<T>, x: T)
    requires |xs| == HandlesMax
    ensures Chunks(xs + [x]) == AddToBulks(Chunks(xs), x)
  {
    assert (xs + [x])[..HandlesMax] == xs;
    assert (xs + [x])[HandlesMax..] == [x];
    assert Chunks([x]) == [[x]];
    assert Chunks(xs) == [xs];
    assert AddToBulks([xs], x) == [xs] + [[x]];
  }

  /** A bulk in front of a non-empty list is left alone by an append. */
  lemma {:induction false} AddToBulksCons<T>(h: seq<T>, t: seq<seq<T>>, x: T)
    requires |t| > 0
    ensures AddToBulks([h] + t, x) == [h] + AddToBulks(t, x)
  {
    var s := [h] + t;
    assert s[|s| - 1] == t[|t| - 1];
    if |t[|t| - 1]| != HandlesMax {
      assert s[..|s| - 1] == [h] + t[..|t| - 1];
    }
  }

  /** The flags a polled line is grouped by. */
  function PollFlags(l: L.Line): (f: nat)
    ensures f < 0x1_0000_0000
  {
    FlagsFromConfig(l.config, false) as nat
  }

  /** The `addToPoll` lambda: the line joins the bulks of its own flags. */
  function AddToPoll(groups: map<nat, seq<seq<L.Line>>>, l: L.Line): (r: map<nat, seq<seq<L.Line>>>)
    ensures r.Keys == groups.Keys + {PollFlags(l)}
    ensures forall g :: g in groups && g != PollFlags(l) ==> g in r && r[g] == groups[g]
    ensures PollFlags(l) in r && r[PollFlags(l)] == AddToBulks(if PollFlags(l) in groups then groups[PollFlags(l)] else [], l)
  {
    var f := PollFlags(l);
    groups[f := AddToBulks(if f in groups then groups[f] else [], l)]
  }

  function PollGroups(lines: seq<L.Line>): map<nat, seq<seq<L.Line>>> {
    if |lines| == 0 then map[] else AddToPoll(PollGroups(lines[..|lines| - 1]), lines[|lines| - 1])
  }

  /** The lines with flags `f`, in order. */
  function WithFlags(lines: seq<L.Line>, f: nat): (r: seq<L.Line>)
    ensures forall i :: 0 <= i < |r| ==> PollFlags(r[i]) == f
    ensures |r| <= |lines|
  {
    if |lines| == 0 then []
    else WithFlags(lines[..|lines| - 1], f) + (if PollFlags(lines[|lines| - 1]) == f then [lines[|lines| - 1]] else [])
  }

  /**
   * The group of flags `f` exists exactly when some line has those flags,
   * and it is the batch of those lines in their original order.
   */
  lemma {:induction false} PollGroupsAt(lines: seq<L.Line>, f: nat)
    ensures f in PollGroups(lines) <==> WithFlags(lines, f) != []
    ensures f in PollGroups(lines) ==> PollGroups(lines)[f] == Batch(WithFlags(lines, f))
    decreases |lines|
  {
    if |lines| > 0 {
      var init, l := lines[..|lines| - 1], lines[|lines| - 1];
      PollGroupsAt(init, f);
      var w := WithFlags(init, f);
      assert PollGroups(lines) == AddToPoll(PollGroups(init), l);
      if PollFlags(l) == f {
        assert WithFlags(lines, f) == w + [l];
        BatchSnoc(w, l);
      } else {
        assert WithFlags(lines, f) == w;
      }
    }
  }

  lemma {:induction false} BatchSnoc<T>(xs: seq<T>, x: T)
    ensures Batch(xs + [x]) == AddToBulks(Batch(xs), x)
  {
    assert (xs + [x])[..|xs|] == xs;
  }

  /** Each line with flags `f` is in the group of `f`. */
  lemma {:induction false} WithFlagsHas(lines: seq<L.Line>, i: nat)
    requires i < |lines|
    ensures lines[i] in WithFlags(lines, PollFlags(lines[i]))
    decreases |lines|
  {
    var init := lines[..|lines| - 1];
    if i < |lines| - 1 {
      WithFlagsHas(init, i);
      assert init[i] == lines[i];
    }
  }

  // ---------------------------------------------------------------------------
  // Reading and polling a handle's lines.

  /** The error a failed read leaves on a line; any non-zero code marks a line as disconnected. */
  const ReadError: int := -1

  /** The kernel answered with at least one value for each line read. */
  predicate Covers(reply: ReadReply, n: nat) {
    reply.Values? ==> n <= |reply.values|
  }

  /** The level a `bool` stores in the cached value. */
  function Level(b: bool): (v: L.u8)
    ensures (v == 1 <==> b) && v <= 1
  {
    if b then 1 else 0
  }

  /**
   * `ReadLinesValues(lines)`: an empty list reads nothing; a failed read
   * marks every line with the read error; otherwise line `i` caches value
   * `i`. Nothing else about a line changes.
   */
  function ReadLinesValues(lines: seq<L.Line>, reply: ReadReply): (r: seq<L.Line>)
    requires Covers(reply, |lines|)
    ensures |r| == |lines|
    ensures reply.ReadFailed? ==> forall i :: 0 <= i < |lines| ==> r[i].error == ReadError && r[i].(error := lines[i].error) == lines[i]
    ensures reply.Values? ==> forall i :: 0 <= i < |lines| ==> r[i].value == reply.values[i] && r[i].(value := lines[i].value) == lines[i]
  {
    if |lines| == 0 then lines
    else match reply
      case ReadFailed => seq(|lines|, i requires 0 <= i < |lines| => L.SetError(lines[i], ReadError))
      case Values(vs) => seq(|lines|, i requires 0 <= i < |lines| => lines[i].(value := vs[i]))
  }

  /** Reading the same answer twice leaves the lines as one read did. */
  lemma {:induction false} ReadLinesValuesIdempotent(lines: seq<L.Line>, reply: ReadReply)
    requires Covers(reply, |lines|)
    ensures ReadLinesValues(ReadLinesValues(lines, reply), reply) == ReadLinesValues(lines, reply)
  {
  }

  /**
   * One line of `PollLinesValues` after a successful read of `newValue`: a
   * line in error recovers first; an input whose value changed, or that just
   * recovered, is treated as an interrupt on the edge the new value implies
   * and caches the value only when the line accepts that edge; an input with
   * no change only runs its counter's idle update (floating-point rates,
   * which this model does not hold); an output caches the value.
   */
  function PollLine(l: L.Line, newValue: bool, now: int): (r: L.Line)
    ensures r.error == 0
    ensures r.needReinit <==> l.needReinit || (l.error != 0 && L.IsOutput(l) && l.chipLabel == L.Mcp23017)
    ensures r.flags == l.flags && r.counter == l.counter && r.fd == l.fd && r.config == l.config
    ensures L.IsOutput(l) ==> r.value == Level(newValue)
  {
    var oldValue := l.value != 0;
    var recovery := l.error != 0;
    var alive := if recovery then L.ClearError(l) else l;
    if !L.IsOutput(alive) then
      if recovery || oldValue != newValue then
        var edge := if newValue then Rising else Falling;
        var handled := L.HandleInterrupt(alive, edge, now);
        if handled.0 == L.Handled then handled.1.(value := Level(newValue)) else handled.1
      else alive
    else alive.(value := Level(newValue))
  }

  /** The edge an input line accepts when its new level is `newValue`. */
  predicate Accepts(l: L.Line, newValue: bool) {
    var e := L.GetInterruptEdge(l);
    e == Both || e == (if newValue then Rising else Falling)
  }

  /** An input that is alive and reads its cached level is left as it was. */
  lemma {:induction false} PollLineSteady(l: L.Line, newValue: bool, now: int)
    requires !L.IsOutput(l) && l.error == 0 && (l.value != 0) == newValue
    ensures PollLine(l, newValue, now) == l
  {
  }

  /**
   * An input that recovers or reads a new level takes the level, and the
   * time of the change, exactly when it accepts the implied edge.
   */
  lemma {:induction false} PollLineChanged(l: L.Line, newValue: bool, now: int)
    requires !L.IsOutput(l) && (l.error != 0 || (l.value != 0) != newValue)
    ensures PollLine(l, newValue, now).value == if Accepts(l, newValue) then Level(newValue) else l.value
    ensures PollLine(l, newValue, now).lastInterrupt == if Accepts(l, newValue) then now else l.lastInterrupt
  {
    var alive := if l.error != 0 then L.ClearError(l) else l;
    assert L.GetInterruptEdge(alive) == L.GetInterruptEdge(l);
    assert !L.IsOutput(alive);
  }

  /**
   * `PollLinesValues(lines)`: a failed read marks every line with the read
   * error, unless the first line is already in error, in which case nothing
   * changes; a successful read polls each line with its own value.
   */
  function PollLinesValues(lines: seq<L.Line>, reply: ReadReply, now: int): (r: seq<L.Line>)
    requires |lines| > 0 && Covers(reply, |lines|)
    ensures |r| == |lines|
    ensures reply.ReadFailed? && lines[0].error == 0 ==> forall i :: 0 <= i < |lines| ==> r[i] == L.SetError(lines[i], ReadError)
    ensures reply.ReadFailed? && lines[0].error != 0 ==> r == lines
    ensures reply.Values? ==> forall i :: 0 <= i < |lines| ==> r[i] == PollLine(lines[i], reply.values[i] != 0, now)
  {
    match reply
    case ReadFailed =>
      if lines[0].error == 0 then seq(|lines|, i requires 0 <= i < |lines| => L.SetError(lines[i], ReadError))
      else lines
    case Values(vs) => seq(|lines|, i requires 0 <= i < |lines| => PollLine(lines[i], vs[i] != 0, now))
  }

  /** Polling the same levels again changes nothing: a poll reaches a fixed point in one step. */
  lemma {:induction false} PollLineTwice(l: L.Line, newValue: bool, now: int, later: int)
    ensures PollLine(PollLine(l, newValue, now), newValue, later) == PollLine(l, newValue, now)
  {
    var once := PollLine(l, newValue, now);
    if L.IsOutput(l) {
      assert L.IsOutput(once);
    } else if l.error == 0 && (l.value != 0) == newValue {
      PollLineSteady(l, newValue, now);
      PollLineSteady(l, newValue, later);
    } else {
      PollLineChanged(l, newValue, now);
      if Accepts(l, newValue) {
        PollLineSteady(once, newValue, later);
      } else {
        assert once == (if l.error != 0 then L.ClearError(l) else l);
      }
    }
  }

  lemma {:induction false} PollLinesValuesTwice(lines: seq<L.Line>, reply: ReadReply, now: int, later: int)
    requires |lines| > 0 && Covers(reply, |lines|)
    ensures PollLinesValues(PollLinesValues(lines, reply, now), reply, later) == PollLinesValues(lines, reply, now)
  {
    var once := PollLinesValues(lines, reply, now);
    if reply.Values? {
      forall i | 0 <= i < |lines|
        ensures PollLinesValues(once, reply, later)[i] == once[i]
      {
        PollLineTwice(lines[i], reply.values[i] != 0, now, later);
      }
    }
  }

  // ---------------------------------------------------------------------------
  // Choosing a counter's edge.

  /** How many reads decide an edge. */
  const TestCount: nat := 10

  /** `doesNeedAutoDetect`: a handled input whose counter asks for AUTO. */
  predicate NeedsAutoDetect(l: L.Line) {
    L.IsHandled(l) && !L.IsOutput(l) && l.counter.Some? && l.counter.value.edge == Auto
  }

  /** A line that read high on every test read counts falling edges; otherwise rising ones. */
  function AutoEdge(sum: int): (e: Edge)
    ensures e == Rising || e == Falling
  {
    if sum < TestCount then Rising else Falling
  }

  function Sum(xs: seq<nat>): nat {
    if |xs| == 0 then 0 else Sum(xs[..|xs| - 1]) + xs[|xs| - 1]
  }

  /** A sum of zeros and ones reaches the count exactly when every reading is one. */
  lemma {:induction false} SumOfBits(xs: seq<nat>)
    requires forall k :: 0 <= k < |xs| ==> xs[k] <= 1
    ensures Sum(xs) <= |xs|
    ensures Sum(xs) == |xs| <==> forall k :: 0 <= k < |xs| ==> xs[k] == 1
    decreases |xs|
  {
    if |xs| > 0 {
      var init := xs[..|xs| - 1];
      SumOfBits(init);
      if Sum(xs) == |xs| {
        forall k | 0 <= k < |xs|
          ensures xs[k] == 1
        {
          if k < |xs| - 1 {
            assert init[k] == xs[k];
          }
        }
      }
    }
  }

  /**
   * Over the ten test reads of levels 0 and 1, a line settles on FALLING
   * exactly when it read 1 every time, and on RISING when it read 0 at least
   * once.
   */
  lemma {:induction false} AutoEdgeMeaning(readings: seq<nat>)
    requires |readings| == TestCount && forall k :: 0 <= k < |readings| ==> readings[k] <= 1
    ensures AutoEdge(Sum(readings)) == Falling <==> forall k :: 0 <= k < |readings| ==> readings[k] == 1
    ensures AutoEdge(Sum(readings)) == Rising <==> exists k :: 0 <= k < |readings| && readings[k] == 0
  {
    SumOfBits(readings);
  }

  /** Reads never change which lines need an edge chosen. */
  lemma {:induction false} ReadKeepsNeeds(lines: seq<L.Line>, reply: ReadReply, i: nat)
    requires Covers(reply, |lines|) && i < |lines|
    ensures NeedsAutoDetect(ReadLinesValues(lines, reply)[i]) == NeedsAutoDetect(lines[i])
  {
  }

  /**
   * The test reads of one handle: each round reads all of its lines, then
   * adds each line's cached value to its sum when it needs an edge.
   */
  function Rounds(lines: seq<L.Line>, replies: seq<ReadReply>, sums: seq<nat>): (r: (seq<L.Line>, seq<nat>))
    requires |sums| == |lines|
    requires forall k :: 0 <= k < |replies| ==> Covers(replies[k], |lines|)
    ensures |r.0| == |lines| && |r.1| == |lines|
    decreases |replies|
  {
    if |replies| == 0 then (lines, sums)
    else
      var read := ReadLinesValues(lines, replies[0]);
      var added := seq(|lines|, i requires 0 <= i < |lines| =>
        sums[i] + if NeedsAutoDetect(read[i]) then read[i].value else 0);
      Rounds(read, replies[1..], added)
  }

  /** The levels line `i` holds after each read, starting from `v`: a failed read keeps the last one. */
  function Held(v: L.u8, replies: seq<ReadReply>, i: nat): (hs: seq<nat>)
    requires forall k :: 0 <= k < |replies| ==> Covers(replies[k], i + 1)
    ensures |hs| == |replies|
    decreases |replies|
  {
    if |replies| == 0 then []
    else
      assert Covers(replies[0], i + 1);
      var next := if replies[0].Values? then replies[0].values[i] else v;
      [next as nat] + Held(next, replies[1..], i)
  }

  lemma {:induction false} SumCons(x: nat, xs: seq<nat>)
    ensures Sum([x] + xs) == x + Sum(xs)
    decreases |xs|
  {
    if |xs| > 0 {
      var init := xs[..|xs| - 1];
      SumCons(x, init);
      assert ([x] + xs)[..|xs|] == [x] + init;
    } else {
      assert [x] + xs == [x];
    }
  }

  /**
   * Each line that needs an edge sums exactly the levels it held after each
   * read; the others sum nothing; reads leave every line's need unchanged.
   */
  lemma {:induction false} RoundsSums(lines: seq<L.Line>, replies: seq<ReadReply>, sums: seq<nat>, i: nat)
    requires |sums| == |lines| && i < |lines|
    requires forall k :: 0 <= k < |replies| ==> Covers(replies[k], |lines|)
    ensures Rounds(lines, replies, sums).1[i] ==
      sums[i] + if NeedsAutoDetect(lines[i]) then Sum(Held(lines[i].value, replies, i)) else 0
    ensures NeedsAutoDetect(Rounds(lines, replies, sums).0[i]) == NeedsAutoDetect(lines[i])
    decreases |replies|
  {
    if |replies| > 0 {
      var read := ReadLinesValues(lines, replies[0]);
      ReadKeepsNeeds(lines, replies[0], i);
      var added := seq(|lines|, j requires 0 <= j < |lines| =>
        sums[j] + if NeedsAutoDetect(read[j]) then read[j].value else 0);
      RoundsSums(read, replies[1..], added, i);
      assert read[i].value == if replies[0].Values? then replies[0].values[i] else lines[i].value;
      var next := read[i].value;
      assert Held(lines[i].value, replies, i) == [next as nat] + Held(next, replies[1..], i);
      SumCons(next as nat, Held(next, replies[1..], i));
    }
  }

  /** Sets the chosen edge on the counter and in the configuration of each line that needed one. */
  function ApplyEdges(lines: seq<L.Line>, sums: seq<nat>): (r: seq<L.Line>)
    requires |sums| == |lines|
    ensures |r| == |lines|
  {
    seq(|lines|, i requires 0 <= i < |lines| =>
      if NeedsAutoDetect(lines[i]) then
        var e := AutoEdge(sums[i]);
        lines[i].(counter := Some(C.SetInterruptEdge(lines[i].counter.value, e)), config := lines[i].config.(edge := e))
      else lines[i])
  }

  /**
   * `AutoDetectInterruptEdges` on one handle: a handle with no line that
   * needs an edge is not read at all; otherwise it is read `TestCount` times
   * and each line that needs an edge gets the one its sum gives.
   */
  function AutoDetect(lines: seq<L.Line>, replies: seq<ReadReply>): (r: seq<L.Line>)
    requires |replies| == TestCount
    requires forall k :: 0 <= k < |replies| ==> Covers(replies[k], |lines|)
    ensures |r| == |lines|
  {
    if exists i :: 0 <= i < |lines| && NeedsAutoDetect(lines[i]) then
      var done := Rounds(lines, replies, seq(|lines|, i requires 0 <= i < |lines| => 0));
      ApplyEdges(done.0, done.1)
    else lines
  }

  /**
   * Afterwards no line needs an edge any more: each line that needed one
   * now has RISING or FALLING on both its counter and its configuration,
   * as given by the sum of the levels it held over the test reads; every
   * other line's edge is untouched.
   */
  lemma {:induction false} AutoDetectChooses(lines: seq<L.Line>, replies: seq<ReadReply>, i: nat)
    requires |replies| == TestCount && i < |lines|
    requires forall k :: 0 <= k < |replies| ==> Covers(replies[k], |lines|)
    ensures !NeedsAutoDetect(AutoDetect(lines, replies)[i])
    ensures NeedsAutoDetect(lines[i]) ==>
      AutoDetect(lines, replies)[i].counter.Some? &&
      AutoDetect(lines, replies)[i].counter.value.edge == AutoEdge(Sum(Held(lines[i].value, replies, i))) &&
      AutoDetect(lines, replies)[i].config.edge == AutoEdge(Sum(Held(lines[i].value, replies, i)))
    ensures !NeedsAutoDetect(lines[i]) ==>
      AutoDetect(lines, replies)[i].counter == lines[i].counter && AutoDetect(lines, replies)[i].config == lines[i].config
  {
    if exists j :: 0 <= j < |lines| && NeedsAutoDetect(lines[j]) {
      var zeros := seq(|lines|, j requires 0 <= j < |lines| => 0);
      RoundsSums(lines, replies, zeros, i);
      RoundsKeep(lines, replies, zeros, i);
    }
  }

  /** Reads change only cached values and errors. */
  lemma {:induction false} RoundsKeep(lines: seq<L.Line>, replies: seq<ReadReply>, sums: seq<nat>, i: nat)
    requires |sums| == |lines| && i < |lines|
    requires forall k :: 0 <= k < |replies| ==> Covers(replies[k], |lines|)
    ensures Rounds(lines, replies, sums).0[i].counter == lines[i].counter
    ensures Rounds(lines, replies, sums).0[i].config == lines[i].config
    decreases |replies|
  {
    if |replies| > 0 {
      var read := ReadLinesValues(lines, replies[0]);
      var added := seq(|lines|, j requires 0 <= j < |lines| =>
        sums[j] + if NeedsAutoDetect(read[j]) then read[j].value else 0);
      RoundsKeep(read, replies[1..], added, i);
    }
  }

  /** Choosing again changes nothing. */
  lemma {:induction false} AutoDetectIdempotent(lines: seq<L.Line>, replies: seq<ReadReply>, again: seq<ReadReply>)
    requires |replies| == TestCount && |again| == TestCount
    requires forall k :: 0 <= k < |replies| ==> Covers(replies[k], |lines|)
    requires forall k :: 0 <= k < |again| ==> Covers(again[k], |lines|)
    ensures AutoDetect(AutoDetect(lines, replies), again) == AutoDetect(lines, replies)
  {
    var once := AutoDetect(lines, replies);
    forall i | 0 <= i < |lines|
      ensures !NeedsAutoDetect(once[i])
    {
      AutoDetectChooses(lines, replies, i);
    }
  }

  // ---------------------------------------------------------------------------
  // The first read of plain inputs.

  /** `ReadInputValues` reads the inputs that have no counter. */
  predicate ReadAtStart(l: L.Line) {
    !L.IsOutput(l) && l.counter.None?
  }

  /** The lines of a handle that are read at start, in order. */
  function Selected(lines: seq<L.Line>): (r: seq<L.Line>)
    ensures |r| <= |lines|
  {
    if |lines| == 0 then []
    else (if ReadAtStart(lines[0]) then [lines[0]] else []) + Selected(lines[1..])
  }

  /** Puts the updated selected lines back in their places among the handle's lines. */
  function Scatter(lines: seq<L.Line>, read: seq<L.Line>): (r: seq<L.Line>)
    requires |read| == |Selected(lines)|
    ensures |r| == |lines|
  {
    if |lines| == 0 then []
    else if ReadAtStart(lines[0]) then [read[0]] + Scatter(lines[1..], read[1..])
    else [lines[0]] + Scatter(lines[1..], read)
  }

  /** The number of lines read at start before position `i`: the place of line `i` among the selected lines. */
  function Rank(lines: seq<L.Line>, i: nat): (k: nat)
    requires i <= |lines|
    ensures k <= i
  {
    |Selected(lines[..i])|
  }

  /** The selected line at rank `Rank(lines, i)` is line `i`. */
  lemma {:induction false} SelectedAt(lines: seq<L.Line>, i: nat)
    requires i < |lines| && ReadAtStart(lines[i])
    ensures Rank(lines, i) < |Selected(lines)| && Selected(lines)[Rank(lines, i)] == lines[i]
    decreases i
  {
    if i == 0 {
      assert lines[..0] == [];
    } else {
      SelectedAt(lines[1..], i - 1);
      SelectedPrefixCons(lines, i);
    }
  }

  lemma {:induction false} SelectedPrefixCons(lines: seq<L.Line>, i: nat)
    requires 0 < i <= |lines|
    ensures Selected(lines[..i]) == (if ReadAtStart(lines[0]) then [lines[0]] else []) + Selected(lines[1..][..i - 1])
  {
    assert lines[..i][0] == lines[0];
    assert lines[..i][1..] == lines[1..][..i - 1];
  }

  /** Line `i` after scattering: its own line when not selected, otherwise the read line at its rank. */
  lemma {:induction false} ScatterAt(lines: seq<L.Line>, read: seq<L.Line>, i: nat)
    requires |read| == |Selected(lines)| && i < |lines|
    ensures ReadAtStart(lines[i]) ==> Rank(lines, i) < |read| && Scatter(lines, read)[i] == read[Rank(lines, i)]
    ensures !ReadAtStart(lines[i]) ==> Scatter(lines, read)[i] == lines[i]
    decreases i
  {
    if i == 0 {
      assert lines[..0] == [];
    } else if ReadAtStart(lines[0]) {
      ScatterAt(lines[1..], read[1..], i - 1);
      SelectedPrefixCons(lines, i);
    } else {
      ScatterAt(lines[1..], read, i - 1);
      SelectedPrefixCons(lines, i);
    }
  }

  /**
   * `ReadInputValues` on one handle as the source does it: the selected
   * lines are read as a list of their own, so the j-th selected line takes
   * the j-th value of the kernel's answer, whose values follow the order of
   * all the handle's lines.
   */
  function ReadInputValuesAsWritten(lines: seq<L.Line>, reply: ReadReply): (r: seq<L.Line>)
    requires Covers(reply, |lines|)
    ensures |r| == |lines|
    ensures forall i :: 0 <= i < |lines| && !ReadAtStart(lines[i]) ==> r[i] == lines[i]
    ensures reply.Values? ==> forall i :: 0 <= i < |lines| && ReadAtStart(lines[i]) ==>
      r[i] == lines[i].(value := reply.values[Rank(lines, i)])
    ensures reply.ReadFailed? ==> forall i :: 0 <= i < |lines| && ReadAtStart(lines[i]) ==>
      r[i] == L.SetError(lines[i], ReadError)
  {
    var selected := Selected(lines);
    var read := ReadLinesValues(selected, reply);
    forall i | 0 <= i < |lines|
      ensures ReadAtStart(lines[i]) ==> Rank(lines, i) < |read| && Scatter(lines, read)[i] == read[Rank(lines, i)]
      ensures ReadAtStart(lines[i]) ==> Rank(lines, i) < |selected| && selected[Rank(lines, i)] == lines[i]
      ensures !ReadAtStart(lines[i]) ==> Scatter(lines, read)[i] == lines[i]
    {
      ScatterAt(lines, read, i);
      if ReadAtStart(lines[i]) {
        SelectedAt(lines, i);
      }
    }
    Scatter(lines, read)
  }

  /**
   * A handle holding a counter input and then a plain input, read as levels
   * 1 and 0: the plain input is given the counter input's level.
   */
  lemma {:induction false} ReadInputValuesMisaligned(plain: L.Line, c: C.Counter)
    requires ReadAtStart(plain)
    ensures var lines := [plain.(counter := Some(c)), plain];
      ReadInputValuesAsWritten(lines, Values([1, 0]))[1].value == 1 &&
      ReadInputValues(lines, Values([1, 0]))[1].value == 0
  {
    var lines := [plain.(counter := Some(c)), plain];
    assert Selected(lines) == [plain] by {
      assert lines[1..] == [plain];
      assert Selected([plain]) == [plain] + Selected([]);
    }
    var read := ReadLinesValues([plain], Values([1, 0]));
    assert read[0].value == 1;
    assert Scatter(lines, read)[1] == Scatter(lines[1..], read)[0];
    assert Scatter(lines[1..], read)[0] == read[0];
  }

  /**
   * `ReadInputValues` on one handle with each selected line given its own
   * position's value: a handle with no selected line is not read; otherwise
   * a failed read marks every selected line and a successful one caches each
   * selected line's level. Lines not selected are untouched.
   */
  function ReadInputValues(lines: seq<L.Line>, reply: ReadReply): (r: seq<L.Line>)
    requires Covers(reply, |lines|)
    ensures |r| == |lines|
    ensures forall i :: 0 <= i < |lines| && !ReadAtStart(lines[i]) ==> r[i] == lines[i]
    ensures reply.Values? ==> forall i :: 0 <= i < |lines| && ReadAtStart(lines[i]) ==> r[i] == lines[i].(value := reply.values[i])
    ensures reply.ReadFailed? ==> forall i :: 0 <= i < |lines| && ReadAtStart(lines[i]) ==> r[i] == L.SetError(lines[i], ReadError)
  {
    var read := ReadLinesValues(lines, reply);
    seq(|lines|, i requires 0 <= i < |lines| => if ReadAtStart(lines[i]) then read[i] else lines[i])
  }

  /** When every line of the handle is selected, the two readings agree with a plain read of the handle. */
  lemma {:induction false} ReadInputValuesAllSelected(lines: seq<L.Line>, reply: ReadReply)
    requires Covers(reply, |lines|)
    requires forall i :: 0 <= i < |lines| ==> ReadAtStart(lines[i])
    ensures ReadInputValues(lines, reply) == ReadLinesValues(lines, reply)
    ensures ReadInputValuesAsWritten(lines, reply) == ReadLinesValues(lines, reply)
  {
    SelectedAll(lines);
    ScatterAll(lines, ReadLinesValues(lines, reply));
  }

  lemma {:induction false} SelectedAll(lines: seq<L.Line>)
    requires forall i :: 0 <= i < |lines| ==> ReadAtStart(lines[i])
    ensures Selected(lines) == lines
    decreases |lines|
  {
    if |lines| > 0 {
      SelectedAll(lines[1..]);
    }
  }

  lemma {:induction false} ScatterAll(lines: seq<L.Line>, read: seq<L.Line>)
    requires forall i :: 0 <= i < |lines| ==> ReadAtStart(lines[i])
    requires Selected(lines) == lines && |read| == |lines|
    ensures Scatter(lines, read) == read
    decreases |lines|
  {
    if |lines| > 0 {
      SelectedAll(lines[1..]);
      ScatterAll(lines[1..], read[1..]);
    }
  }

  /**
   * The start of a handle once every handle is set up: its edges are chosen
   * from ten reads, then its plain inputs are read once more.
   */
  function StartHandle(lines: seq<L.Line>, replies: seq<ReadReply>): (r: seq<L.Line>)
    requires |replies| == TestCount + 1
    requires forall k :: 0 <= k < |replies| ==> Covers(replies[k], |lines|)
    ensures |r| == |lines|
    ensures forall i :: 0 <= i < |r| ==> !NeedsAutoDetect(r[i])
  {
    var chosen := AutoDetect(lines, replies[..TestCount]);
    forall i | 0 <= i < |lines|
      ensures !NeedsAutoDetect(chosen[i])
    {
      AutoDetectChooses(lines, replies[..TestCount], i);
    }
    ReadInputValues(chosen, replies[TestCount])
  }

  /**
   * The start of a handle as the constructor runs it: the same edge choice,
   * then the reading as written, which gives the j-th plain input the j-th
   * value of the answer.
   */
  function StartHandleAsWritten(lines: seq<L.Line>, replies: seq<ReadReply>): (r: seq<L.Line>)
    requires |replies| == TestCount + 1
    requires forall k :: 0 <= k < |replies| ==> Covers(replies[k], |lines|)
    ensures |r| == |lines|
    ensures forall i :: 0 <= i < |r| ==> !NeedsAutoDetect(r[i])
  {
    var chosen := AutoDetect(lines, replies[..TestCount]);
    forall i | 0 <= i < |lines|
      ensures !NeedsAutoDetect(ReadInputValuesAsWritten(chosen, replies[TestCount])[i])
    {
      AutoDetectChooses(lines, replies[..TestCount], i);
    }
    ReadInputValuesAsWritten(chosen, replies[TestCount])
  }

  /** A handle of plain inputs only starts the same as written and as intended. */
  lemma {:induction false} StartHandleAgrees(lines: seq<L.Line>, replies: seq<ReadReply>)
    requires |replies| == TestCount + 1
    requires forall k :: 0 <= k < |replies| ==> Covers(replies[k], |lines|)
    requires forall i :: 0 <= i < |lines| ==> ReadAtStart(lines[i])
    ensures StartHandleAsWritten(lines, replies) == StartHandle(lines, replies)
  {
    assert forall i :: 0 <= i < |lines| ==> !NeedsAutoDetect(lines[i]);
    assert AutoDetect(lines, replies[..TestCount]) == lines;
    ReadInputValuesAllSelected(lines, replies[TestCount]);
  }

  /**
   * With a counter input ahead of a plain input, the start-up as written
   * gives the plain input the counter input's level, where the intended
   * start-up gives it its own.
   */
  lemma {:induction false} StartHandleMisaligned(plain: L.Line, c: C.Counter, replies: seq<ReadReply>)
    requires ReadAtStart(plain) && c.edge != Auto
    requires |replies| == TestCount + 1 && forall k :: 0 <= k < |replies| ==> replies[k] == Values([1, 0])
    ensures var lines := [plain.(counter := Some(c)), plain];
      StartHandleAsWritten(lines, replies)[1].value == 1 && StartHandle(lines, replies)[1].value == 0
  {
    var lines := [plain.(counter := Some(c)), plain];
    assert !NeedsAutoDetect(lines[0]) && !NeedsAutoDetect(lines[1]);
    assert AutoDetect(lines, replies[..TestCount]) == lines;
    ReadInputValuesMisaligned(plain, c);
  }

  // ---------------------------------------------------------------------------
  // Construction.

  /** The lines a driver holds: handles of one or more lines, and the lines it could not take, by offset. */
  datatype Driver = Driver(handles: seq<seq<L.Line>>, disconnected: map<Sysfs.u32, L.Line>)

  datatype DriverError = BadCounter(error: C.CounterError) | NoLineInitialized

  /** `TGpioChip::LoadLines`: one line per configuration, in order. */
  function LoadLines(k: Kernel, chipLabel: string, configs: seq<GpioConfig.LineConfig>): (r: Result<seq<L.Line>, C.CounterError>)
    ensures r.Success? ==> |r.value| == |configs|
    ensures r.Success? ==> forall i :: 0 <= i < |configs| ==>
      r.value[i].config == configs[i] && r.value[i].offset == configs[i].offset && !L.IsHandled(r.value[i])
    ensures r.Success? ==> forall i :: 0 <= i < |configs| ==>
      r.value[i].error == (if k.info(configs[i].offset).InfoFailed? then k.info(configs[i].offset).ret else 0)
    ensures r.Success? <==> forall i :: 0 <= i < |configs| ==>
      configs[i].kind == "" || configs[i].kind == C.WattMeter || configs[i].kind == C.WaterMeter
  {
    var load := (c: GpioConfig.LineConfig) => L.NewLine(c, chipLabel, k.info(c.offset));
    var r := MapAll(load, configs);
    assert forall i :: 0 <= i < |configs| ==> load(configs[i]) == L.NewLine(configs[i], chipLabel, k.info(configs[i].offset));
    r
  }

  /** Lines stored by offset one after another: a later line replaces an earlier one with the same offset. */
  function ByOffset(lines: seq<L.Line>): (m: map<Sysfs.u32, L.Line>)
    ensures forall o :: o in m <==> exists i :: 0 <= i < |lines| && lines[i].offset == o
    decreases |lines|
  {
    if |lines| == 0 then map[]
    else
      var init, l := lines[..|lines| - 1], lines[|lines| - 1];
      var m := ByOffset(init);
      assert forall i :: 0 <= i < |init| ==> init[i] == lines[i];
      m[l.offset := l]
  }

  /** Every line stored by offset is one of the lines given. */
  lemma {:induction false} ByOffsetValue(lines: seq<L.Line>, o: Sysfs.u32) returns (i: nat)
    requires o in ByOffset(lines)
    ensures i < |lines| && ByOffset(lines)[o] == lines[i]
    decreases |lines|
  {
    var init := lines[..|lines| - 1];
    if lines[|lines| - 1].offset == o {
      i := |lines| - 1;
    } else {
      i := ByOffsetValue(init, o);
    }
  }

  predicate OffsetsDistinct(lines: seq<L.Line>) {
    forall i, j :: 0 <= i < j < |lines| ==> lines[i].offset != lines[j].offset
  }

  /** With distinct offsets every line is found under its own offset. */
  lemma {:induction false} ByOffsetFinds(lines: seq<L.Line>, i: nat)
    requires OffsetsDistinct(lines) && i < |lines|
    ensures lines[i].offset in ByOffset(lines) && ByOffset(lines)[lines[i].offset] == lines[i]
    decreases |lines|
  {
    var init := lines[..|lines| - 1];
    if i < |lines| - 1 {
      ByOffsetFinds(init, i);
      assert init[i] == lines[i];
    }
  }

  /** Where the constructor puts a line. */
  datatype Placement = Listening(line: L.Line) | Polled(line: L.Line) | Driven(line: L.Line) | Unavailable(line: L.Line)

  /** `InitInputInterrupts`: a line known not to support interrupts is polled; otherwise listening is tried. */
  function InitInput(k: Kernel, l: L.Line): (p: Placement)
    ensures p.Listening? || p.Polled?
    ensures p.Listening? <==> l.support != L.No && k.listen(ListenRequest(l)).Granted?
    ensures p.Listening? ==> p.line.support == L.Yes && L.IsHandled(p.line)
    ensures p.Polled? ==> p.line == l.(support := L.No)
  {
    if l.support == L.No then Polled(l)
    else match k.listen(ListenRequest(l))
      case Granted(fd) => Listening(L.SetFd(l, fd, k.info(l.offset)).(support := L.Yes))
      case Refused => Polled(l.(support := L.No))
  }

  /** `InitOutput`: a refused output is unavailable. */
  function InitOutput(k: Kernel, l: L.Line): (p: Placement)
    ensures p.Driven? || p.Unavailable?
    ensures p.Driven? <==> k.handle(OutputRequest(l)).Granted?
    ensures p.Driven? ==> L.IsHandled(p.line)
    ensures p.Unavailable? ==> p.line == l
  {
    match k.handle(OutputRequest(l))
    case Granted(fd) => Driven(L.SetFd(l, fd, k.info(l.offset)))
    case Refused => Unavailable(l)
  }

  function PlaceLine(k: Kernel, l: L.Line): (p: Placement)
    ensures l.config.direction == GpioConfig.Input ==> p == InitInput(k, l)
    ensures l.config.direction == GpioConfig.Output ==> p == InitOutput(k, l)
  {
    match l.config.direction
    case Input => InitInput(k, l)
    case Output => InitOutput(k, l)
  }

  /** A handle of its own for each listening input and each driven output, in order. */
  function Singles(ps: seq<Placement>): (hs: seq<seq<L.Line>>)
    ensures forall h :: h in hs ==> |h| == 1
  {
    if |ps| == 0 then []
    else (if ps[0].Listening? || ps[0].Driven? then [[ps[0].line]] else []) + Singles(ps[1..])
  }

  function PolledOf(ps: seq<Placement>): seq<L.Line> {
    if |ps| == 0 then [] else (if ps[0].Polled? then [ps[0].line] else []) + PolledOf(ps[1..])
  }

  function UnavailableOf(ps: seq<Placement>): seq<L.Line> {
    if |ps| == 0 then [] else (if ps[0].Unavailable? then [ps[0].line] else []) + UnavailableOf(ps[1..])
  }

  /** Every placement is counted once. */
  lemma {:induction false} PlacementsCounted(ps: seq<Placement>)
    ensures |Singles(ps)| + |PolledOf(ps)| + |UnavailableOf(ps)| == |ps|
    decreases |ps|
  {
    if |ps| > 0 {
      PlacementsCounted(ps[1..]);
    }
  }

  /** The flags of the polled lines, each once, in order of first appearance. */
  function FlagOrder(lines: seq<L.Line>): (fs: seq<nat>)
    ensures forall f :: f in fs <==> WithFlags(lines, f) != []
    ensures forall f :: f in fs ==> f < 0x1_0000_0000
    decreases |lines|
  {
    if |lines| == 0 then []
    else
      var init, f := lines[..|lines| - 1], PollFlags(lines[|lines| - 1]);
      var fs := FlagOrder(init);
      assert forall g :: WithFlags(lines, g) == WithFlags(init, g) + (if g == f then [lines[|lines| - 1]] else []);
      if f in fs then fs else fs + [f]
  }

  /** A polling request: lines that share one set of request flags. */
  datatype Bulk = Bulk(flags: bv32, lines: seq<L.Line>)

  /** The bulks of the groups, group after group in the given order, each with its flags. */
  function BulksIn(groups: map<nat, seq<seq<L.Line>>>, order: seq<nat>): (bs: seq<Bulk>)
    requires forall j :: 0 <= j < |order| ==> order[j] in groups && order[j] < 0x1_0000_0000
  {
    if |order| == 0 then []
    else
      assert forall j :: 0 <= j < |order| - 1 ==> order[1..][j] == order[j + 1];
      Tag(order[0], groups[order[0]]) + BulksIn(groups, order[1..])
  }

  function Tag(f: Sysfs.u32, bulks: seq<seq<L.Line>>): (bs: seq<Bulk>)
    ensures |bs| == |bulks| && forall i :: 0 <= i < |bulks| ==> bs[i] == Bulk(f as bv32, bulks[i])
  {
    seq(|bulks|, i requires 0 <= i < |bulks| => Bulk(f as bv32, bulks[i]))
  }

  /** The bulks the constructor requests for the polled lines: at most `HandlesMax` lines of one set of flags each. */
  function PollBulks(polled: seq<L.Line>): (bs: seq<Bulk>)
    ensures forall i :: 0 <= i < |bs| ==> BulkOf(bs[i])
  {
    var groups := PollGroups(polled);
    var order := FlagOrder(polled);
    forall j | 0 <= j < |order|
      ensures order[j] in groups && order[j] < 0x1_0000_0000
    {
      assert order[j] in order;
      PollGroupsAt(polled, order[j]);
    }
    forall j | 0 <= j < |order|
      ensures GroupOk(groups, order[j])
    {
      forall k | 0 <= k < |groups[order[j]]|
        ensures BulkOf(Bulk(order[j] as bv32, groups[order[j]][k]))
      {
        PollGroupBulk(polled, order[j], k);
      }
    }
    BulksInOk(groups, order);
    BulksIn(groups, order)
  }

  /** A bulk fits one handle request. */
  predicate Sized(b: Bulk) {
    0 < |b.lines| <= HandlesMax
  }

  /** A bulk is a valid handle request: between one and `HandlesMax` lines, all with the bulk's flags. */
  predicate BulkOf(b: Bulk) {
    Sized(b) &&
    forall j :: 0 <= j < |b.lines| ==> PollFlags(b.lines[j]) == b.flags as nat
  }

  /** Every bulk of group `f` is a valid request with flags `f`. */
  predicate GroupOk(groups: map<nat, seq<seq<L.Line>>>, f: nat)
    requires f in groups && f < 0x1_0000_0000
  {
    forall k :: 0 <= k < |groups[f]| ==> BulkOf(Bulk(f as bv32, groups[f][k]))
  }

  lemma {:induction false} BulksInOk(groups: map<nat, seq<seq<L.Line>>>, order: seq<nat>)
    requires forall j :: 0 <= j < |order| ==> order[j] in groups && order[j] < 0x1_0000_0000 && GroupOk(groups, order[j])
    ensures forall i :: 0 <= i < |BulksIn(groups, order)| ==> BulkOf(BulksIn(groups, order)[i])
    decreases |order|
  {
    if |order| > 0 {
      var rest := order[1..];
      assert forall j :: 0 <= j < |rest| ==> rest[j] == order[j + 1];
      BulksInOk(groups, rest);
      var t := Tag(order[0], groups[order[0]]);
      assert GroupOk(groups, order[0]);
      assert BulksIn(groups, order) == t + BulksIn(groups, rest);
    }
  }

  /** Each bulk of a flag group is a valid request for that group's flags. */
  lemma {:induction false} PollGroupBulk(polled: seq<L.Line>, f: nat, k: nat)
    requires f in PollGroups(polled) && k < |PollGroups(polled)[f]| && f < 0x1_0000_0000
    ensures BulkOf(Bulk(f as bv32, PollGroups(polled)[f][k]))
  {
    PollGroupsAt(polled, f);
    var w := WithFlags(polled, f);
    BatchPacked(w);
    var b := Batch(w)[k];
    assert (f as bv32) as nat == f;
    forall j | 0 <= j < |b|
      ensures PollFlags(b[j]) == f
    {
      BatchMember(w, k, j);
      WithFlagsMember(polled, f, b[j]);
    }
  }

  /** A line of a bulk is one of the batched lines. */
  lemma {:induction false} BatchMember<T>(xs: seq<T>, k: nat, j: nat)
    requires k < |Batch(xs)| && j < |Batch(xs)[k]|
    ensures Batch(xs)[k][j] in xs
  {
    FlattenHas(Batch(xs), k, j);
    BatchFlatten(xs);
  }

  lemma {:induction false} WithFlagsMember(lines: seq<L.Line>, f: nat, x: L.Line)
    requires x in WithFlags(lines, f)
    ensures PollFlags(x) == f
  {
    var w := WithFlags(lines, f);
    var m :| 0 <= m < |w| && w[m] == x;
  }

  /** A line of a bulk is a line of the flattened bulks. */
  lemma {:induction false} FlattenHas<T>(bulks: seq<seq<T>>, k: nat, j: nat)
    requires k < |bulks| && j < |bulks[k]|
    ensures bulks[k][j] in Flatten(bulks)
    decreases |bulks|
  {
    if k < |bulks| - 1 {
      FlattenHas(bulks[..|bulks| - 1], k, j);
    }
  }

  /** Lines in all the bulks. */
  function BulkSize(bulks: seq<Bulk>): nat {
    if |bulks| == 0 then 0 else BulkSize(bulks[..|bulks| - 1]) + |bulks[|bulks| - 1].lines|
  }

  /** Total lines in handles. */
  function HandleSize(handles: seq<seq<L.Line>>): nat {
    if |handles| == 0 then 0 else HandleSize(handles[..|handles| - 1]) + |handles[|handles| - 1]|
  }

  /** The outcome of the polling requests: the granted handles and the lines of refused bulks. */
  datatype Polling = Polling(handles: seq<seq<L.Line>>, refused: seq<L.Line>)

  /** The kernel's answer to the handle request of one bulk. */
  function Grant(k: Kernel, b: Bulk): (r: Option<seq<L.Line>>)
    requires Sized(b)
    ensures r.Some? ==> |r.value| == |b.lines|
  {
    InitLinesPolling(k, b.flags, b.lines)
  }

  /**
   * Requests each bulk in turn: a granted bulk becomes a handle; the lines
   * of a refused one are disconnected. No line is lost or added.
   */
  function Collect(grant: Bulk --> Option<seq<L.Line>>, bulks: seq<Bulk>): (r: Polling)
    requires forall i :: 0 <= i < |bulks| ==> Sized(bulks[i]) && grant.requires(bulks[i])
    requires forall b :: Sized(b) && grant.requires(b) && grant(b).Some? ==> |grant(b).value| == |b.lines|
    ensures HandleSize(r.handles) + |r.refused| == BulkSize(bulks)
    ensures forall h :: h in r.handles ==> 0 < |h| <= HandlesMax
    ensures |r.handles| <= |bulks|
    decreases |bulks|
  {
    if |bulks| == 0 then Polling([], [])
    else
      var init, b := bulks[..|bulks| - 1], bulks[|bulks| - 1];
      assert forall i :: 0 <= i < |init| ==> init[i] == bulks[i];
      var done := Collect(grant, init);
      match grant(b)
      case None => Polling(done.handles, done.refused + b.lines)
      case Some(h) =>
        assert done.handles + [h] == (done.handles + [h])[..|done.handles|] + [h];
        Polling(done.handles + [h], done.refused)
  }

  /** `InitLinesPolling` on each bulk of an opened chip, in order. */
  function InitPolling(k: Kernel, bulks: seq<Bulk>): (r: Polling)
    requires forall i :: 0 <= i < |bulks| ==> Sized(bulks[i])
    ensures HandleSize(r.handles) + |r.refused| == BulkSize(bulks)
    ensures forall h :: h in r.handles ==> 0 < |h| <= HandlesMax
  {
    Collect(b requires Sized(b) => Grant(k, b), bulks)
  }

  /** When every bulk is granted, each becomes one handle, in order, and no line is disconnected. */
  lemma {:induction false} CollectGranted(grant: Bulk --> Option<seq<L.Line>>, bulks: seq<Bulk>)
    requires forall i :: 0 <= i < |bulks| ==> Sized(bulks[i]) && grant.requires(bulks[i]) && grant(bulks[i]).Some?
    requires forall b :: Sized(b) && grant.requires(b) && grant(b).Some? ==> |grant(b).value| == |b.lines|
    ensures |Collect(grant, bulks).handles| == |bulks| && Collect(grant, bulks).refused == []
    ensures forall i :: 0 <= i < |bulks| ==> Collect(grant, bulks).handles[i] == grant(bulks[i]).value
    decreases |bulks|
  {
    if |bulks| > 0 {
      var init := bulks[..|bulks| - 1];
      assert forall i :: 0 <= i < |init| ==> init[i] == bulks[i];
      CollectGranted(grant, init);
      var b := bulks[|bulks| - 1];
      var done := Collect(grant, init);
      assert Collect(grant, bulks).handles == done.handles + [grant(b).value];
      var all := done.handles + [grant(b).value];
      forall i | 0 <= i < |bulks|
        ensures all[i] == grant(bulks[i]).value
      {
        if i < |init| {
          assert init[i] == bulks[i];
        } else {
          assert i == |done.handles|;
        }
      }
    }
  }

  /** When every bulk is refused, there is no handle and the lines of all the bulks are disconnected, in order. */
  lemma {:induction false} CollectRefused(grant: Bulk --> Option<seq<L.Line>>, bulks: seq<Bulk>)
    requires forall i :: 0 <= i < |bulks| ==> Sized(bulks[i]) && grant.requires(bulks[i]) && grant(bulks[i]).None?
    requires forall b :: Sized(b) && grant.requires(b) && grant(b).Some? ==> |grant(b).value| == |b.lines|
    ensures Collect(grant, bulks).handles == []
    ensures Collect(grant, bulks).refused == Flatten(seq(|bulks|, i requires 0 <= i < |bulks| => bulks[i].lines))
    decreases |bulks|
  {
    if |bulks| > 0 {
      var init := bulks[..|bulks| - 1];
      assert forall i :: 0 <= i < |init| ==> init[i] == bulks[i];
      CollectRefused(grant, init);
      var ls := seq(|bulks|, i requires 0 <= i < |bulks| => bulks[i].lines);
      assert ls[..|bulks| - 1] == seq(|init|, i requires 0 <= i < |init| => init[i].lines);
    }
  }

  /** On a kernel that grants every polling request, each bulk becomes the handle `InitLinesPolling` builds for it. */
  lemma {:induction false} InitPollingGranted(k: Kernel, bulks: seq<Bulk>)
    requires forall i :: 0 <= i < |bulks| ==> Sized(bulks[i]) && k.handle(PollRequest(bulks[i].flags, bulks[i].lines)).Granted?
    ensures |InitPolling(k, bulks).handles| == |bulks| && InitPolling(k, bulks).refused == []
    ensures forall i :: 0 <= i < |bulks| ==>
      InitPolling(k, bulks).handles[i] == InitLinesPolling(k, bulks[i].flags, bulks[i].lines).value
  {
    var grant := b requires Sized(b) => Grant(k, b);
    CollectGranted(grant, bulks);
  }

  /** On a kernel that refuses every polling request, every polled line is disconnected. */
  lemma {:induction false} InitPollingRefused(k: Kernel, bulks: seq<Bulk>)
    requires forall i :: 0 <= i < |bulks| ==> Sized(bulks[i]) && k.handle(PollRequest(bulks[i].flags, bulks[i].lines)).Refused?
    ensures InitPolling(k, bulks).handles == []
    ensures InitPolling(k, bulks).refused == Flatten(seq(|bulks|, i requires 0 <= i < |bulks| => bulks[i].lines))
  {
    var grant := b requires Sized(b) => Grant(k, b);
    CollectRefused(grant, bulks);
  }

  /** There are lines in the bulks as soon as there are polled lines. */
  lemma {:induction false} PollBulksNonEmpty(polled: seq<L.Line>)
    requires |polled| > 0
    ensures BulkSize(PollBulks(polled)) > 0
  {
    var bs := PollBulks(polled);
    var f := PollFlags(polled[0]);
    WithFlagsHas(polled, 0);
    assert f in FlagOrder(polled);
    var order := FlagOrder(polled);
    var i :| 0 <= i < |order| && order[i] == f;
    assert |bs| > 0 by {
      var groups := PollGroups(polled);
      PollGroupsAt(polled, order[0]);
      BatchShape(WithFlags(polled, order[0]));
      assert |Tag(order[0], groups[order[0]])| > 0;
    }
    BulkSizeAtLeast(bs, 0);
  }

  lemma {:induction false} BulkSizeAtLeast(bulks: seq<Bulk>, i: nat)
    requires i < |bulks|
    ensures BulkSize(bulks) >= |bulks[i].lines|
    decreases |bulks|
  {
    if i < |bulks| - 1 {
      BulkSizeAtLeast(bulks[..|bulks| - 1], i);
    }
  }

  /** `TGpioChipDriver(config)` on a chip that can be opened, once its lines are loaded. */
  function Place(k: Kernel, lines: seq<L.Line>): (r: Result<Driver, DriverError>)
    ensures r.Success? ==> forall h :: h in r.value.handles ==> 0 < |h| <= HandlesMax
    ensures r.Failure? ==> r.error == NoLineInitialized
  {
    var ps := seq(|lines|, i requires 0 <= i < |lines| => PlaceLine(k, lines[i]));
    var polling := InitPolling(k, PollBulks(PolledOf(ps)));
    var handles := Singles(ps) + polling.handles;
    var disconnected := ByOffset(UnavailableOf(ps) + polling.refused);
    if |handles| == 0 && |disconnected| == 0 then Failure(NoLineInitialized)
    else Success(Driver(handles, disconnected))
  }

  /** The constructor fails to initialize any line only when it was given none. */
  lemma {:induction false} PlaceFails(k: Kernel, lines: seq<L.Line>)
    ensures Place(k, lines).Failure? <==> |lines| == 0
  {
    if |lines| > 0 {
      var ps := seq(|lines|, i requires 0 <= i < |lines| => PlaceLine(k, lines[i]));
      PlacementsCounted(ps);
      var polling := InitPolling(k, PollBulks(PolledOf(ps)));
      PlacedSomewhere(ps, polling);
      var gone := UnavailableOf(ps) + polling.refused;
      if |gone| > 0 {
        ByOffsetNonEmpty(gone);
      }
    }
  }

  /** A polled line ends up in a handle or among the refused lines. */
  lemma {:induction false} PlacedSomewhere(ps: seq<Placement>, polling: Polling)
    requires |Singles(ps)| + |PolledOf(ps)| + |UnavailableOf(ps)| > 0
    requires HandleSize(polling.handles) + |polling.refused| == BulkSize(PollBulks(PolledOf(ps)))
    ensures |Singles(ps) + polling.handles| > 0 || |UnavailableOf(ps) + polling.refused| > 0
  {
    if |PolledOf(ps)| > 0 {
      PollBulksNonEmpty(PolledOf(ps));
    }
  }

  lemma {:induction false} ByOffsetNonEmpty(lines: seq<L.Line>)
    requires |lines| > 0
    ensures |ByOffset(lines)| > 0
  {
    assert lines[0].offset in ByOffset(lines);
  }

  /** The line-info query on a chip that could not be opened: the ioctl on fd -1 returns -1. */
  const UnopenedRet := -1

  /** The kernel a chip's lines see: an unopened chip answers every line-info query with a failure. */
  function ChipKernel(k: Kernel, chipOpened: bool): (r: Kernel)
    ensures chipOpened ==> r == k
    ensures !chipOpened ==> forall o :: r.info(o) == L.InfoFailed(UnopenedRet)
  {
    if chipOpened then k else k.(info := (o: Sysfs.u32) => L.InfoFailed(UnopenedRet))
  }

  /** Every stored line carries error `err`. */
  predicate AllInError(m: map<Sysfs.u32, L.Line>, err: int) {
    forall o :: o in m ==> m[o].error == err
  }

  /** On an unopened chip the lines stored by offset are exactly the configured offsets, each with the failed query's error. */
  lemma {:induction false} UnopenedLines(k: Kernel, chipLabel: string, configs: seq<GpioConfig.LineConfig>)
    requires LoadLines(ChipKernel(k, false), chipLabel, configs).Success?
    ensures var m := ByOffset(LoadLines(ChipKernel(k, false), chipLabel, configs).value);
      (forall o :: o in m <==> exists i :: 0 <= i < |configs| && configs[i].offset == o) && AllInError(m, UnopenedRet)
  {
    var lines := LoadLines(ChipKernel(k, false), chipLabel, configs).value;
    var m := ByOffset(lines);
    forall o
      ensures o in m <==> exists i :: 0 <= i < |configs| && configs[i].offset == o
    {
      if o in m {
        var i :| 0 <= i < |lines| && lines[i].offset == o;
        assert configs[i].offset == o;
      }
      if exists i :: 0 <= i < |configs| && configs[i].offset == o {
        var i :| 0 <= i < |configs| && configs[i].offset == o;
        assert lines[i].offset == o;
      }
    }
    forall o | o in m
      ensures m[o].error == UnopenedRet
    {
      var i := ByOffsetValue(lines, o);
    }
  }

  /**
   * `TGpioChipDriver(config)`: loads the lines, then either stores them all
   * as disconnected when the chip could not be opened, or places each line.
   * On an unopened chip every line's info query fails, so every initially
   * disconnected line carries that failure as its error.
   */
  function Construct(k: Kernel, chipOpened: bool, chipLabel: string, configs: seq<GpioConfig.LineConfig>): (r: Result<Driver, DriverError>)
    ensures LoadLines(ChipKernel(k, chipOpened), chipLabel, configs).Failure? ==>
      r == Failure(BadCounter(LoadLines(ChipKernel(k, chipOpened), chipLabel, configs).error))
    ensures r.Success? ==> forall h :: h in r.value.handles ==> 0 < |h| <= HandlesMax
    ensures !chipOpened && r.Success? ==> (r.value.handles == [] &&
      forall o :: o in r.value.disconnected <==> exists i :: 0 <= i < |configs| && configs[i].offset == o)
    ensures !chipOpened && r.Success? ==> AllInError(r.value.disconnected, UnopenedRet)
  {
    if !chipOpened then
      match LoadLines(ChipKernel(k, false), chipLabel, configs)
      case Failure(e) => Failure(BadCounter(e))
      case Success(lines) =>
        UnopenedLines(k, chipLabel, configs);
        Success(Driver([], ByOffset(lines)))
    else
      assert ChipKernel(k, chipOpened) == k;
      match LoadLines(k, chipLabel, configs)
      case Failure(e) => Failure(BadCounter(e))
      case Success(lines) => Place(k, lines)
  }

  /**
   * An opened chip with loadable lines yields a driver exactly when it has at
   * least one line; an unopened one always does.
   */
  lemma {:induction false} ConstructFails(k: Kernel, chipOpened: bool, chipLabel: string, configs: seq<GpioConfig.LineConfig>)
    requires LoadLines(ChipKernel(k, chipOpened), chipLabel, configs).Success?
    ensures Construct(k, chipOpened, chipLabel, configs).Failure? <==> chipOpened && |configs| == 0
  {
    if chipOpened {
      PlaceFails(k, LoadLines(k, chipLabel, configs).value);
    }
  }
}

=== FILE: counter.dfy ===
/**
 * The integer and text bookkeeping of a pulse counter: which meter type maps
 * to which published control types, the decimal-place defaults, the pulse
 * count and the interrupt edge. Energy and flow rates are floating point and
 * are not part of this model.
 */
module Counter {
  import opened Wrappers
  import opened Edges

  const WattMeter: string := "watt_meter"
  const WaterMeter: string := "water_meter"
  const TotalSuffix: string := "_total"
  const CurrentSuffix: string := "_current"

  /** The configuration value that asks for the meter type's own default. */
  const DefaultDecimals: int := -1

  /** `Counts` is a `uint64_t`. */
  const CountLimit: nat := 0x1_0000_0000_0000_0000
  type u64 = x: int | 0 <= x < 0x1_0000_0000_0000_0000

  datatype Counter = Counter(
    totalType: string,
    currentType: string,
    decimalsTotal: int,
    decimalsCurrent: int,
    counts: u64,
    edge: Edge,
    previousInterval: nat)

  datatype CounterError = UnknownType(kind: string)

  /** `d`, or the meter type's default when `d` is -1. */
  function OrDefault(d: int, default: int): int {
    if d == DefaultDecimals then default else d
  }

  /** The counter a line of meter type `kind` gets, or the error for an unknown type. */
  function NewCounter(kind: string, decimalsTotal: int, decimalsCurrent: int, edge: Edge): (r: Result<Counter, CounterError>)
    ensures r.Success? <==> kind == WattMeter || kind == WaterMeter
    ensures r.Failure? ==> r.error == UnknownType(kind)
    ensures r.Success? ==> r.value.counts == 0 && r.value.edge == edge && r.value.previousInterval == 0
    ensures r.Success? && decimalsTotal != -1 ==> r.value.decimalsTotal == decimalsTotal
    ensures r.Success? && decimalsCurrent != -1 ==> r.value.decimalsCurrent == decimalsCurrent
  {
    if kind == WattMeter then
      Success(Counter("power_consumption", "power", OrDefault(decimalsTotal, 3), OrDefault(decimalsCurrent, 2), 0, edge, 0))
    else if kind == WaterMeter then
      Success(Counter("water_consumption", "water_flow", OrDefault(decimalsTotal, 2), OrDefault(decimalsCurrent, 3), 0, edge, 0))
    else Failure(UnknownType(kind))
  }

  /** The two meter types publish disjoint control types, with their own decimal defaults. */
  lemma {:induction false} NewCounterTypes(total: int, current: int, edge: Edge)
    ensures NewCounter(WattMeter, total, current, edge).Success?
    ensures NewCounter(WattMeter, total, current, edge).value.totalType == "power_consumption"
    ensures NewCounter(WattMeter, total, current, edge).value.currentType == "power"
    ensures NewCounter(WaterMeter, total, current, edge).Success?
    ensures NewCounter(WaterMeter, total, current, edge).value.totalType == "water_consumption"
    ensures NewCounter(WaterMeter, total, current, edge).value.currentType == "water_flow"
    ensures NewCounter(WattMeter, -1, -1, edge).value.decimalsTotal == 3
    ensures NewCounter(WattMeter, -1, -1, edge).value.decimalsCurrent == 2
    ensures NewCounter(WaterMeter, -1, -1, edge).value.decimalsTotal == 2
    ensures NewCounter(WaterMeter, -1, -1, edge).value.decimalsCurrent == 3
  {
  }

  /**
   * `HandleInterrupt(edge, interval)`: callers only pass the counter's own
   * edge; the interval is remembered and the 64-bit count goes up by one.
   */
  function HandleInterrupt(c: Counter, e: Edge, interval: nat): (r: Counter)
    requires e == c.edge
    ensures r.counts == if c.counts == CountLimit - 1 then 0 else c.counts + 1
    ensures r.previousInterval == interval
    ensures r == c.(counts := r.counts, previousInterval := interval)
  {
    c.(counts := (c.counts + 1) % CountLimit, previousInterval := interval)
  }

  /** `SetInitialValues(total)`: the count restarts from zero. */
  function SetInitialValues(c: Counter): (r: Counter)
    ensures r.counts == 0 && r == c.(counts := 0)
  {
    c.(counts := 0)
  }

  function SetInterruptEdge(c: Counter, e: Edge): (r: Counter)
    ensures r.edge == e && r == c.(edge := e)
  {
    c.(edge := e)
  }

  function GetInterruptEdge(c: Counter): Edge {
    c.edge
  }

  /** Setting the edge and reading it back gives the edge that was set, and only the edge changed. */
  lemma {:induction false} SetThenGetEdge(c: Counter, e: Edge, e2: Edge)
    ensures GetInterruptEdge(SetInterruptEdge(c, e)) == e
    ensures SetInterruptEdge(SetInterruptEdge(c, e2), e) == SetInterruptEdge(c, e)
    ensures SetInterruptEdge(c, GetInterruptEdge(c)) == c
  {
  }

  /** `k` interrupts on the counter's edge, each with interval `interval`. */
  function Pulses(c: Counter, k: nat, interval: nat): (r: Counter)
    ensures r.edge == c.edge
    decreases k
  {
    if k == 0 then c else HandleInterrupt(Pulses(c, k - 1, interval), c.edge, interval)
  }

  /** After `k` pulses the count has grown by exactly `k`, modulo 2^64. */
  lemma {:induction false} PulsesCount(c: Counter, k: nat, interval: nat)
    ensures Pulses(c, k, interval).counts == (c.counts + k) % CountLimit
    decreases k
  {
    if k > 0 {
      PulsesCount(c, k - 1, interval);
      var n := c.counts + k - 1;
      assert Pulses(c, k, interval).counts == (n % CountLimit + 1) % CountLimit;
      ModSuccessor(n);
    }
  }

  lemma {:induction false} ModSuccessor(n: nat)
    ensures (n % CountLimit + 1) % CountLimit == (n + 1) % CountLimit
  {
    var q, r := n / CountLimit, n % CountLimit;
    assert n == q * CountLimit + r;
    if r + 1 == CountLimit {
      assert n + 1 == (q + 1) * CountLimit;
    } else {
      assert n + 1 == q * CountLimit + (r + 1);
    }
  }

  /** Resetting and then counting `k` pulses reads exactly `k`, as long as `k` fits in 64 bits. */
  lemma {:induction false} ResetThenCount(c: Counter, k: nat, interval: nat)
    requires k < CountLimit
    ensures Pulses(SetInitialValues(c), k, interval).counts == k
  {
    PulsesCount(SetInitialValues(c), k, interval);
  }

  /** `GetIdsAndTypes(baseId)`: the total control first, then the current one. */
  function GetIdsAndTypes(c: Counter, baseId: string): (r: seq<(string, string)>)
    ensures |r| == 2
    ensures r[0].1 == c.totalType && r[1].1 == c.currentType
    ensures |r[0].0| == |baseId| + |TotalSuffix| && |r[1].0| == |baseId| + |CurrentSuffix|
    ensures r[0].0[..|baseId|] == baseId && r[0].0[|baseId|..] == TotalSuffix
    ensures r[1].0[..|baseId|] == baseId && r[1].0[|baseId|..] == CurrentSuffix
  {
    [(baseId + TotalSuffix, c.totalType), (baseId + CurrentSuffix, c.currentType)]
  }

  /**
   * The two ids never clash, and ids of different base ids never clash either,
   * so the controls of distinct counters are distinct.
   */
  lemma {:induction false} IdsDistinct(c: Counter, d: Counter, a: string, b: string, i: nat, j: nat)
    requires i < 2 && j < 2
    requires GetIdsAndTypes(c, a)[i].0 == GetIdsAndTypes(d, b)[j].0
    ensures a == b && i == j
  {
    var x, y := GetIdsAndTypes(c, a)[i].0, GetIdsAndTypes(d, b)[j].0;
    // "_total" and "_current" differ in their last character, so equal ids
    // have equal suffixes, and then equal base ids.
    assert x[|x| - 1] == y[|y| - 1];
    assert |a| == |b|;
    assert a == x[..|a|] && b == y[..|b|];
  }
}

=== FILE: device_tree.dfy ===
/**
 * The generator's view of the device tree and of the two GPIO controller
 * listings: property reads, GPIO specifier decoding (`of_get_prop_gpio`) and
 * the two phandle maps (`of_find_gpiochips`, `get_phandle_map`).
 *
 * The filesystem is an injected value: a map from node path to the node's
 * property files and sub-directories. Symlink resolution of node paths is
 * not part of this model.
 */
module DeviceTree {
  import opened Wrappers
  import opened Strings
  import opened Cells

  /** A device-tree node: its property files (raw bytes) and its child directories. */
  datatype Node = Node(props: map<string, seq<byte>>, children: seq<string>)

  type Tree = map<string, Node>

  datatype TreeError =
    | NoSuchFile(path: string)          // open() on a missing file
    | IsADirectory(path: string)        // open() on a child node's directory
    | BadCells(cause: CellError)        // bin2ulong failure
    | UnknownXlateType(xlate: string)   // RuntimeError("Unknown xlate type ...")
    | UnknownPhandle(phandle: nat)      // RuntimeError("Unknown phandle ...")
    | NoneArgument                      // int(None) on a padded bank_pin specifier
    | NotAnInteger(text: string)        // int() of a non-numeric text
    | EmptyCellList                     // `[0]` of an empty cell list
    | NoSpecifier                       // `None.split(":")`

  const NulChar: char := 0 as char

  /** `os.path.exists(node/prop)`: a property file or a child directory of that name. */
  predicate HasProp(t: Tree, node: string, prop: string) {
    node in t && (prop in t[node].props || prop in t[node].children)
  }

  function ReadBytes(t: Tree, node: string, prop: string): (r: Result<seq<byte>, TreeError>)
    ensures r.Success? <==> node in t && prop in t[node].props
    ensures r.Success? ==> r.value == t[node].props[prop]
  {
    if node !in t then Failure(NoSuchFile(node + "/" + prop))
    else if prop in t[node].props then Success(t[node].props[prop])
    else if prop in t[node].children then Failure(IsADirectory(node + "/" + prop))
    else Failure(NoSuchFile(node + "/" + prop))
  }

  /** Leading NUL characters removed. */
  function TrimNulStart(s: string): (r: string)
    ensures |r| <= |s| && r == s[|s| - |r|..]
    ensures forall i :: 0 <= i < |s| - |r| ==> s[i] == NulChar
    ensures |r| > 0 ==> r[0] != NulChar
  {
    if |s| > 0 && s[0] == NulChar then TrimNulStart(s[1..]) else s
  }

  /** Trailing NUL characters removed. */
  function TrimNulEnd(s: string): (r: string)
    ensures |r| <= |s| && r == s[..|r|]
    ensures forall i :: |r| <= i < |s| ==> s[i] == NulChar
    ensures |r| > 0 ==> r[|r| - 1] != NulChar
  {
    if |s| > 0 && s[|s| - 1] == NulChar then TrimNulEnd(s[..|s| - 1]) else s
  }

  /** `text.strip("\x00")`: NULs removed from both ends. */
  function StripNul(s: string): (r: string)
    ensures |r| > 0 ==> r[0] != NulChar && r[|r| - 1] != NulChar
  {
    TrimNulEnd(TrimNulStart(s))
  }

  function BytesToText(bs: seq<byte>): (s: string)
    ensures |s| == |bs| && forall i :: 0 <= i < |bs| ==> s[i] as int == bs[i]
  {
    seq(|bs|, i requires 0 <= i < |bs| => bs[i] as char)
  }

  /** `of_get_prop_str(node, prop)`: the file's text without NULs at either end. */
  function GetPropStr(t: Tree, node: string, prop: string): (r: Result<string, TreeError>)
    ensures r.Success? <==> node in t && prop in t[node].props
    ensures r.Success? ==> |r.value| <= |t[node].props[prop]|
    ensures r.Success? && |r.value| > 0 ==> r.value[0] != NulChar && r.value[|r.value| - 1] != NulChar
  {
    var bs :- ReadBytes(t, node, prop);
    Success(StripNul(BytesToText(bs)))
  }

  /** The bytes of a text whose characters are all below 256. */
  function TextBytes(s: string): (bs: seq<byte>)
    requires forall i :: 0 <= i < |s| ==> s[i] as int < 256
    ensures |bs| == |s|
  {
    seq(|s|, i requires 0 <= i < |s| => s[i] as int)
  }

  /**
   * A string property as the kernel stores it, the text followed by one NUL,
   * reads back as the text when the text does not start or end with NUL.
   */
  lemma {:induction false} GetPropStrOfText(t: Tree, node: string, prop: string, text: string)
    requires forall i :: 0 <= i < |text| ==> text[i] as int < 256
    requires |text| > 0 ==> text[0] != NulChar && text[|text| - 1] != NulChar
    requires node in t && prop in t[node].props && t[node].props[prop] == TextBytes(text) + [0]
    ensures GetPropStr(t, node, prop) == Success(text)
  {
    var s := BytesToText(TextBytes(text) + [0]);
    TextOfBytes(text);
    var stripped := TrimNulStart(s);
    if |text| == 0 {
      assert s == [NulChar];
      assert TrimNulStart(s[1..]) == [];
      assert stripped == [];
    } else {
      assert stripped == s;
      assert s[..|s| - 1] == text;
    }
  }

  lemma {:induction false} TextOfBytes(text: string)
    requires forall i :: 0 <= i < |text| ==> text[i] as int < 256
    ensures BytesToText(TextBytes(text) + [0]) == text + [NulChar]
  {
    var s := BytesToText(TextBytes(text) + [0]);
    forall i | 0 <= i < |s|
      ensures s[i] == (text + [NulChar])[i]
    {
      if i < |text| {
        assert (TextBytes(text) + [0])[i] == text[i] as int;
      }
    }
  }

  /** `of_get_prop_ulong(node, prop)`: the property's cells. */
  function GetPropCells(t: Tree, node: string, prop: string): (r: Result<seq<nat>, TreeError>)
    ensures r.Success? <==> node in t && prop in t[node].props && |t[node].props[prop]| % 4 == 0
    ensures r.Success? ==> |r.value| == |t[node].props[prop]| / 4
    ensures r.Success? ==> forall i :: 0 <= i < |r.value| ==>
      r.value[i] == BigEndian(t[node].props[prop][4 * i..4 * i + 4])
    ensures node in t && prop in t[node].props && |t[node].props[prop]| % 4 != 0 ==>
      r == Failure(BadCells(PaddedChunk))
  {
    var bs :- ReadBytes(t, node, prop);
    match Bin2Ulong(bs)
    case Success(cells) => Success(cells)
    case Failure(e) => Failure(BadCells(e))
  }

  /** A property stored as big-endian 32-bit cells reads back as those cells. */
  lemma {:induction false} GetPropCellsOfEncoded(t: Tree, node: string, prop: string, cells: seq<nat>)
    requires forall i :: 0 <= i < |cells| ==> cells[i] < CellLimit
    requires node in t && prop in t[node].props && t[node].props[prop] == EncodeCells(cells)
    ensures GetPropCells(t, node, prop) == Success(cells)
  {
    Bin2UlongOfEncodeCells(cells);
  }

  // ---------------------------------------------------------------------------
  // GPIO specifiers.

  /**
   * The `"<base>:<pin>:<attr>"` string `of_get_prop_gpio` returns. A pin or
   * attribute that came from a `None` pad prints as `"None"`.
   */
  datatype Locator = Locator(base: int, pin: Option<nat>, attr: Option<nat>)

  const XlateOffset: string := "offset"
  const XlateBankPin: string := "bank_pin"
  const PinsPerBank: nat := 32

  /** Cell `i` of a specifier, or the pad `None` past the end. */
  function CellAt(values: seq<nat>, i: nat): Option<nat> {
    if i < |values| then Some(values[i]) else None
  }

  /** The body of the `for ... in split_each(values, 4)` loop, run on the first group only. */
  function DecodeGroup(chips: map<nat, int>, xlate: string, g: seq<Option<nat>>): Result<Option<Locator>, TreeError>
    requires |g| == 4 && g[0].Some?
  {
    var pinAttr :-
      if xlate == XlateBankPin then
        if g[1].None? || g[2].None? then Failure(NoneArgument)
        else Success((Some(g[1].value * PinsPerBank + g[2].value), g[3]))
      else if xlate == XlateOffset then Success((g[1], g[2]))
      else Failure(UnknownXlateType(xlate));
    var phandle := g[0].value;
    if phandle !in chips then Failure(UnknownPhandle(phandle))
    else Success(Some(Locator(chips[phandle], pinAttr.0, pinAttr.1)))
  }

  /**
   * Decoding of a specifier's cells under scheme `xlate`: only the first
   * 4-cell group counts; no cells at all yields Python `None`.
   */
  function DecodeSpecifier(chips: map<nat, int>, xlate: string, values: seq<nat>): (r: Result<Option<Locator>, TreeError>)
    ensures |values| == 0 ==> r == Success(None)
    ensures |values| > 0 && xlate != XlateOffset && xlate != XlateBankPin ==> r == Failure(UnknownXlateType(xlate))
    ensures |values| > 0 && xlate == XlateOffset ==>
      r == if values[0] in chips then Success(Some(Locator(chips[values[0]], CellAt(values, 1), CellAt(values, 2))))
           else Failure(UnknownPhandle(values[0]))
    ensures |values| > 0 && xlate == XlateBankPin ==>
      r == if |values| < 3 then Failure(NoneArgument)
           else if values[0] !in chips then Failure(UnknownPhandle(values[0]))
           else Success(Some(Locator(chips[values[0]], Some(values[1] * 32 + values[2]), CellAt(values, 3))))
  {
    var groups := SplitEach(values, 4);
    if |groups| == 0 then Success(None)
    else
      FirstGroup(values);
      DecodeGroup(chips, xlate, groups[0])
  }

  lemma {:induction false} FirstGroup(values: seq<nat>)
    requires |values| > 0
    ensures forall j :: 0 <= j < 4 ==> SplitEach(values, 4)[0][j] == CellAt(values, j)
  {
    forall j | 0 <= j < 4
      ensures SplitEach(values, 4)[0][j] == CellAt(values, j)
    {
      SplitEachIndex(values, 4, 0, j);
    }
  }

  /** Cells past the first group never influence the decoded locator. */
  lemma {:induction false} DecodeSpecifierFirstGroupOnly(chips: map<nat, int>, xlate: string, a: seq<nat>, b: seq<nat>)
    requires |a| >= 4 && |b| >= 4 && a[..4] == b[..4]
    ensures DecodeSpecifier(chips, xlate, a) == DecodeSpecifier(chips, xlate, b)
  {
    assert a[0] == b[0] && a[1] == b[1] && a[2] == b[2] && a[3] == b[3];
  }

  /** The scheme named by the node, `offset` when `gpio-xlate-type` is absent. */
  function XlateType(t: Tree, node: string): (r: Result<string, TreeError>)
    ensures !HasProp(t, node, "gpio-xlate-type") ==> r == Success(XlateOffset)
  {
    if HasProp(t, node, "gpio-xlate-type") then GetPropStr(t, node, "gpio-xlate-type")
    else Success(XlateOffset)
  }

  /** `of_get_prop_gpio(of_gpiochips, node, prop)`. */
  function GetPropGpio(chips: map<nat, int>, t: Tree, node: string, prop: string): (r: Result<Option<Locator>, TreeError>)
    ensures r.Success? ==> XlateType(t, node).Success? && GetPropCells(t, node, prop).Success?
    ensures r.Success? ==> r == DecodeSpecifier(chips, XlateType(t, node).value, GetPropCells(t, node, prop).value)
  {
    var xlate :- XlateType(t, node);
    var values :- GetPropCells(t, node, prop);
    DecodeSpecifier(chips, xlate, values)
  }

  // ---------------------------------------------------------------------------
  // Controller listings.

  const ChipPrefix: string := "gpiochip"
  const ClassDir: string := "/sys/class/gpio"
  const BusDir: string := "/sys/bus/gpio/devices/"

  /**
   * An entry of `/sys/class/gpio`: its name, the bytes of
   * `device/of_node/phandle` when that file exists, and the integer in its
   * `base` file (`None` when the file cannot be read or is not an integer).
   */
  datatype ClassEntry = ClassEntry(name: string, phandle: Option<seq<byte>>, base: Option<int>)

  /** An entry of `/sys/bus/gpio/devices`: its name and the bytes of `of_node/phandle` if present. */
  datatype BusEntry = BusEntry(name: string, phandle: Option<seq<byte>>)

  datatype RegistryError =
    | NoListing(dir: string)            // os.listdir on a missing directory
    | BadPhandle(entry: string, cause: CellError)
    | BadBase(entry: string)
    | BadChipNumber(entry: string)

  predicate ClassEntryListed(e: ClassEntry) {
    StartsWith(e.name, ChipPrefix) && e.phandle.Some?
  }

  /** A listed entry whose phandle reads; its `base` file may still be unreadable. */
  predicate ClassEntryDecodes(e: ClassEntry) {
    ClassEntryListed(e) ==> Bin2UlongSingle(e.phandle.value).Success? && e.base.Some?
  }

  /** `of_find_gpiochips()`: phandle to legacy base, a later entry overriding an earlier one. */
  function FindGpiochips(entries: seq<ClassEntry>): (r: Result<map<nat, int>, RegistryError>)
    ensures r.Success? <==> forall i :: 0 <= i < |entries| ==> ClassEntryDecodes(entries[i])
    ensures r.Success? ==> forall i :: 0 <= i < |entries| && ClassEntryListed(entries[i]) ==>
      Bin2UlongSingle(entries[i].phandle.value).Success? && entries[i].base.Some? &&
      Bin2UlongSingle(entries[i].phandle.value).value in r.value
    decreases |entries|
  {
    if |entries| == 0 then Success(map[])
    else
      var e := entries[|entries| - 1];
      var earlier :- FindGpiochips(entries[..|entries| - 1]);
      if !ClassEntryListed(e) then Success(earlier)
      else
        match Bin2UlongSingle(e.phandle.value)
        case Failure(c) => Failure(BadPhandle(e.name, c))
        case Success(p) =>
          if e.base.None? then Failure(BadBase(e.name))
          else Success(earlier[p := e.base.value])
  }

  /**
   * `of_find_gpiochips()` from the directory on: the listing of
   * `/sys/class/gpio` (`None` when the directory is missing, where
   * `os.listdir` raises), then the loop over its entries.
   */
  function ScanClassDir(listing: Option<seq<ClassEntry>>): (r: Result<map<nat, int>, RegistryError>)
    ensures r.Success? <==> listing.Some? && forall i :: 0 <= i < |listing.value| ==> ClassEntryDecodes(listing.value[i])
    ensures listing.None? ==> r == Failure(NoListing(ClassDir))
    ensures r.Success? ==> r == FindGpiochips(listing.value)
  {
    match listing
    case None => Failure(NoListing(ClassDir))
    case Some(entries) => FindGpiochips(entries)
  }

  /** Entry `i` is the last listed entry with phandle `p`. */
  predicate LastClassEntry(entries: seq<ClassEntry>, i: nat, p: nat) {
    i < |entries| && ClassEntryListed(entries[i]) && Bin2UlongSingle(entries[i].phandle.value) == Success(p) &&
    forall j :: i < j < |entries| && ClassEntryListed(entries[j]) ==> Bin2UlongSingle(entries[j].phandle.value) != Success(p)
  }

  /** A repeated phandle maps to the base of its last listed entry, as a later dict assignment wins. */
  lemma {:induction false} FindGpiochipsLastWins(entries: seq<ClassEntry>, i: nat, p: nat)
    requires FindGpiochips(entries).Success? && LastClassEntry(entries, i, p)
    ensures p in FindGpiochips(entries).value && FindGpiochips(entries).value[p] == entries[i].base.value
    decreases |entries|
  {
    var n := |entries|;
    var front := entries[..n - 1];
    var e := entries[n - 1];
    FindGpiochipsStep(entries);
    assert ClassEntryDecodes(e);
    if i < n - 1 {
      if ClassEntryListed(e) {
        assert Bin2UlongSingle(e.phandle.value) != Success(p);
      }
      assert LastClassEntry(front, i, p) by {
        forall j | i < j < |front| && ClassEntryListed(front[j])
          ensures Bin2UlongSingle(front[j].phandle.value) != Success(p)
        {
          assert front[j] == entries[j];
        }
      }
      FindGpiochipsLastWins(front, i, p);
    }
  }

  /** Every key comes from an entry: the last listed entry with that phandle, whose base it maps to. */
  lemma {:induction false} FindGpiochipsKeyOrigin(entries: seq<ClassEntry>, p: nat) returns (i: nat)
    requires FindGpiochips(entries).Success? && p in FindGpiochips(entries).value
    ensures LastClassEntry(entries, i, p) && Some(FindGpiochips(entries).value[p]) == entries[i].base
    decreases |entries|
  {
    var n := |entries|;
    var front := entries[..n - 1];
    var e := entries[n - 1];
    FindGpiochipsStep(entries);
    if ClassEntryListed(e) && Bin2UlongSingle(e.phandle.value) == Success(p) {
      i := n - 1;
    } else {
      i := FindGpiochipsKeyOrigin(front, p);
      forall j | i < j < n && ClassEntryListed(entries[j])
        ensures Bin2UlongSingle(entries[j].phandle.value) != Success(p)
      {
        if j < n - 1 {
          assert entries[j] == front[j];
        }
      }
    }
  }

  /** A successful run is the run on all but the last entry, updated by the last entry if it is listed. */
  lemma {:induction false} FindGpiochipsStep(entries: seq<ClassEntry>)
    requires |entries| > 0 && FindGpiochips(entries).Success?
    ensures var e := entries[|entries| - 1];
      var earlier := FindGpiochips(entries[..|entries| - 1]);
      earlier.Success? &&
      FindGpiochips(entries).value ==
        if ClassEntryListed(e) then earlier.value[Bin2UlongSingle(e.phandle.value).value := e.base.value]
        else earlier.value
  {
  }

  predicate BusEntryListed(e: BusEntry) {
    StartsWith(e.name, ChipPrefix) && e.phandle.Some?
  }

  /** The device number in an entry name: `int(entry[len("gpiochip"):])`. */
  function ChipNumberOfName(name: string): (r: Option<nat>)
    requires StartsWith(name, ChipPrefix)
    ensures r.Some? <==> |name| > |ChipPrefix| && AllDigits(name[|ChipPrefix|..])
  {
    ParseDecimal(name[|ChipPrefix|..])
  }

  /** The entry of device `n` is named `gpiochip<n>` and yields `n` back. */
  lemma {:induction false} ChipNumberOfNameRoundTrip(n: nat)
    ensures StartsWith(ChipPrefix + NatToString(n), ChipPrefix)
    ensures ChipNumberOfName(ChipPrefix + NatToString(n)) == Some(n)
  {
    assert (ChipPrefix + NatToString(n))[|ChipPrefix|..] == NatToString(n);
    ParseDecimalOfNatToString(n);
  }

  /** A listed entry whose phandle reads and whose name ends in a device number. */
  predicate BusEntryDecodes(e: BusEntry) {
    BusEntryListed(e) ==> Bin2UlongSingle(e.phandle.value).Success? && ChipNumberOfName(e.name).Some?
  }

  /** `get_phandle_map()`: phandle to `/dev/gpiochipN` number, a later entry overriding an earlier one. */
  function GetPhandleMap(entries: seq<BusEntry>): (r: Result<map<nat, nat>, RegistryError>)
    ensures r.Success? <==> forall i :: 0 <= i < |entries| ==> BusEntryDecodes(entries[i])
    ensures r.Success? ==> forall i :: 0 <= i < |entries| && BusEntryListed(entries[i]) ==>
      Bin2UlongSingle(entries[i].phandle.value).Success? && ChipNumberOfName(entries[i].name).Some? &&
      Bin2UlongSingle(entries[i].phandle.value).value in r.value
    decreases |entries|
  {
    if |entries| == 0 then Success(map[])
    else
      var e := entries[|entries| - 1];
      var earlier :- GetPhandleMap(entries[..|entries| - 1]);
      if !BusEntryListed(e) then Success(earlier)
      else
        match Bin2UlongSingle(e.phandle.value)
        case Failure(c) => Failure(BadPhandle(e.name, c))
        case Success(p) =>
          match ChipNumberOfName(e.name)
          case None => Failure(BadChipNumber(e.name))
          case Some(n) => Success(earlier[p := n])
  }

  /**
   * `get_phandle_map()` from the directory on: the listing of
   * `/sys/bus/gpio/devices/` (`None` when the directory is missing, where
   * `os.listdir` raises), then the loop over its entries.
   */
  function ScanBusDir(listing: Option<seq<BusEntry>>): (r: Result<map<nat, nat>, RegistryError>)
    ensures r.Success? <==> listing.Some? && forall i :: 0 <= i < |listing.value| ==> BusEntryDecodes(listing.value[i])
    ensures listing.None? ==> r == Failure(NoListing(BusDir))
    ensures r.Success? ==> r == GetPhandleMap(listing.value)
  {
    match listing
    case None => Failure(NoListing(BusDir))
    case Some(entries) => GetPhandleMap(entries)
  }

  /** Entry `i` is the last listed entry with phandle `p`. */
  predicate LastBusEntry(entries: seq<BusEntry>, i: nat, p: nat) {
    i < |entries| && BusEntryListed(entries[i]) && Bin2UlongSingle(entries[i].phandle.value) == Success(p) &&
    forall j :: i < j < |entries| && BusEntryListed(entries[j]) ==> Bin2UlongSingle(entries[j].phandle.value) != Success(p)
  }

  /** A repeated phandle maps to the device number of its last listed entry. */
  lemma {:induction false} GetPhandleMapLastWins(entries: seq<BusEntry>, i: nat, p: nat)
    requires GetPhandleMap(entries).Success? && LastBusEntry(entries, i, p)
    ensures p in GetPhandleMap(entries).value && Some(GetPhandleMap(entries).value[p]) == ChipNumberOfName(entries[i].name)
    decreases |entries|
  {
    var n := |entries|;
    var front := entries[..n - 1];
    var e := entries[n - 1];
    GetPhandleMapStep(entries);
    assert BusEntryDecodes(e);
    if i < n - 1 {
      if BusEntryListed(e) {
        assert Bin2UlongSingle(e.phandle.value) != Success(p);
      }
      assert LastBusEntry(front, i, p) by {
        forall j | i < j < |front| && BusEntryListed(front[j])
          ensures Bin2UlongSingle(front[j].phandle.value) != Success(p)
        {
          assert front[j] == entries[j];
        }
      }
      GetPhandleMapLastWins(front, i, p);
    }
  }

  /** Every key comes from an entry: the last listed entry with that phandle, whose device number it maps to. */
  lemma {:induction false} GetPhandleMapKeyOrigin(entries: seq<BusEntry>, p: nat) returns (i: nat)
    requires GetPhandleMap(entries).Success? && p in GetPhandleMap(entries).value
    ensures LastBusEntry(entries, i, p) && Some(GetPhandleMap(entries).value[p]) == ChipNumberOfName(entries[i].name)
    decreases |entries|
  {
    var n := |entries|;
    var front := entries[..n - 1];
    var e := entries[n - 1];
    GetPhandleMapStep(entries);
    if BusEntryListed(e) && Bin2UlongSingle(e.phandle.value) == Success(p) {
      i := n - 1;
    } else {
      i := GetPhandleMapKeyOrigin(front, p);
      forall j | i < j < n && BusEntryListed(entries[j])
        ensures Bin2UlongSingle(entries[j].phandle.value) != Success(p)
      {
        if j < n - 1 {
          assert entries[j] == front[j];
        }
      }
    }
  }

  /** A successful run is the run on all but the last entry, updated by the last entry if it is listed. */
  lemma {:induction false} GetPhandleMapStep(entries: seq<BusEntry>)
    requires |entries| > 0 && GetPhandleMap(entries).Success?
    ensures var e := entries[|entries| - 1];
      var earlier := GetPhandleMap(entries[..|entries| - 1]);
      earlier.Success? &&
      GetPhandleMap(entries).value ==
        if BusEntryListed(e) then earlier.value[Bin2UlongSingle(e.phandle.value).value := ChipNumberOfName(e.name).value]
        else earlier.value
  {
  }
}

=== FILE: edges.dfy ===
/**
 * The interrupt-edge enumeration and its configuration names.
 *
 * `EGpioEdge` is an 8-bit enumeration; its named values are RISING (0),
 * FALLING (1), BOTH (2) and AUTO (3). Any other byte may still reach the
 * printer, which renders it as "<unknown (n)>".
 */
module Edges {
  import opened Strings

  datatype Edge = Rising | Falling | Both | Auto

  const RisingName: string := "rising"
  const FallingName: string := "falling"
  const BothName: string := "both"
  const AutoName: string := "auto"

  /** The byte the enumeration stores for each edge. */
  function EdgeCode(e: Edge): (c: nat)
    ensures c < 4
  {
    match e
    case Rising => 0
    case Falling => 1
    case Both => 2
    case Auto => 3
  }

  /**
   * `EnumerateGpioEdge(s, edge)`: the three edge names set the edge; any other
   * text, "auto" included, leaves the caller's value as it was.
   */
  function EnumerateGpioEdge(s: string, prior: Edge): (e: Edge)
    ensures e == Rising <==> s == RisingName || (prior == Rising && s != FallingName && s != BothName)
    ensures e == Falling <==> s == FallingName || (prior == Falling && s != RisingName && s != BothName)
    ensures e == Both <==> s == BothName || (prior == Both && s != RisingName && s != FallingName)
    ensures e == Auto <==> prior == Auto && s != RisingName && s != FallingName && s != BothName
  {
    if s == RisingName then Rising
    else if s == FallingName then Falling
    else if s == BothName then Both
    else prior
  }

  /** `GpioEdgeToString` applied to the raw byte of the enumeration. */
  function GpioEdgeCodeToString(code: nat): (s: string)
    requires code < 256
    ensures |s| > 0
  {
    if code == 0 then RisingName
    else if code == 1 then FallingName
    else if code == 2 then BothName
    else if code == 3 then AutoName
    else "<unknown (" + NatToString(code) + ")>"
  }

  /**
   * `GpioEdgeToString(e)` for the named values. Parsing the text gives the
   * edge back for RISING, FALLING and BOTH; the printed "auto" is not a
   * recognised name, so it leaves the prior value.
   */
  function GpioEdgeToString(e: Edge): (s: string)
    ensures |s| > 0
    ensures e != Auto ==> forall prior :: EnumerateGpioEdge(s, prior) == e
    ensures e == Auto ==> forall prior :: EnumerateGpioEdge(s, prior) == prior
  {
    GpioEdgeCodeToString(EdgeCode(e))
  }

  /** Each named value prints as its configuration name. */
  lemma {:induction false} GpioEdgeToStringNames()
    ensures GpioEdgeToString(Rising) == "rising" && GpioEdgeToString(Falling) == "falling"
    ensures GpioEdgeToString(Both) == "both" && GpioEdgeToString(Auto) == "auto"
  {
  }

  /** An out-of-range byte prints as an "<unknown (n)>" text no parser accepts. */
  lemma {:induction false} UnknownCodeText(code: nat, prior: Edge)
    requires 4 <= code < 256
    ensures GpioEdgeCodeToString(code) == "<unknown (" + NatToString(code) + ")>"
    ensures EnumerateGpioEdge(GpioEdgeCodeToString(code), prior) == prior
  {
    var s := GpioEdgeCodeToString(code);
    assert s[0] == '<';
  }

  /** Different bytes print differently: the printer loses no information. */
  lemma {:induction false} GpioEdgeCodeToStringInjective(a: nat, b: nat)
    requires a < 256 && b < 256
    ensures GpioEdgeCodeToString(a) == GpioEdgeCodeToString(b) ==> a == b
  {
    var sa, sb := GpioEdgeCodeToString(a), GpioEdgeCodeToString(b);
    if sa == sb && a >= 4 && b >= 4 {
      var pre, post := "<unknown (", ")>";
      var na, nb := NatToString(a), NatToString(b);
      assert sa == pre + na + post && sb == pre + nb + post;
      assert na == sa[|pre|..|pre| + |na|];
      assert nb == sb[|pre|..|pre| + |nb|];
      NatToStringInjective(a, b);
    }
  }
}

=== FILE: file_utils.dfy ===
/**
 * Directory iteration in sorted order with early exit, the pattern filter the
 * configuration loader uses on it, and opening the first readable file of a
 * list. The directory listing and the "can this file be opened" answer come
 * from the environment and are parameters here.
 */
module FileUtils {
  import opened Wrappers
  import opened Strings
  import opened Sorting

  /** `TNoDirError`: the directory could not be listed. */
  datatype DirError = NoDir(dir: string)

  /** Calls `fn` on each name in turn and stops right after the first call that returns true. */
  function VisitUntil(names: seq<string>, fn: string -> bool): (visited: seq<string>)
    ensures |visited| <= |names| && visited == names[..|visited|]
    ensures forall i :: 0 <= i < |visited| - 1 ==> !fn(visited[i])
    ensures |visited| < |names| ==> |visited| > 0 && fn(visited[|visited| - 1])
    ensures |names| > 0 ==> |visited| > 0
  {
    if |names| == 0 then []
    else if fn(names[0]) then [names[0]]
    else [names[0]] + VisitUntil(names[1..], fn)
  }

  /**
   * `IterateDir(dirName, fn)`: the names `fn` was called on, for a directory
   * whose entries are `listing`; `None` stands for a directory that cannot
   * be read.
   */
  function IterateDir(dir: string, listing: Option<seq<string>>, fn: string -> bool): (r: Result<seq<string>, DirError>)
    ensures r.Failure? <==> listing.None?
    ensures r.Failure? ==> r.error == NoDir(dir)
    ensures r.Success? ==> |r.value| <= |listing.value| && multiset(r.value) <= multiset(listing.value)
  {
    match listing
    case None => Failure(NoDir(dir))
    case Some(names) =>
      var sorted := SortNames(names);
      var visited := VisitUntil(sorted, fn);
      assert sorted == visited + sorted[|visited|..];
      Success(visited)
  }

  /**
   * The names are visited in strictly ascending order, `fn` returned false on
   * all of them but the last, and every name left unvisited sorts after a
   * last name on which `fn` returned true.
   */
  lemma {:induction false} IterateDirVisits(dir: string, names: seq<string>, fn: string -> bool)
    requires Distinct(names)
    ensures NamesAscending(IterateDir(dir, Some(names), fn).value)
    ensures forall x :: x in IterateDir(dir, Some(names), fn).value ==> x in names
    ensures forall x :: x in names && x !in IterateDir(dir, Some(names), fn).value ==>
      StoppedBefore(IterateDir(dir, Some(names), fn).value, fn, x)
  {
    var sorted := SortNames(names);
    var v := VisitUntil(sorted, fn);
    SortNamesAscending(names);
    forall x | x in v
      ensures x in names
    {
      assert x in multiset(sorted);
    }
    forall x | x in names && x !in v
      ensures StoppedBefore(v, fn, x)
    {
      assert x in multiset(sorted);
      var k :| 0 <= k < |sorted| && sorted[k] == x;
      assert StrLess(sorted[|v| - 1], sorted[k]);
    }
  }

  /** The visit ended on a name accepted by `fn` that sorts before `x`. */
  predicate StoppedBefore(visited: seq<string>, fn: string -> bool, x: string) {
    |visited| > 0 && fn(visited[|visited| - 1]) && StrLess(visited[|visited| - 1], x)
  }

  /** The path the pattern iteration hands to its callback for entry `name`. */
  function EntryPath(dir: string, name: string): (p: string)
    ensures |p| > 0
  {
    dir + "/" + name
  }

  /** Entry `name` contains the pattern and `fn` returns true on its path. */
  predicate Accepts(dir: string, pattern: string, fn: string -> bool, name: string) {
    Contains(name, pattern) && fn(EntryPath(dir, name))
  }

  /** The callback `IterateDirByPattern` gives to `IterateDir`. */
  function PatternFilter(dir: string, pattern: string, fn: string -> bool): string -> bool {
    name => Accepts(dir, pattern, fn, name)
  }

  /** The paths, in order, of the visited names that contain `pattern`. */
  function MatchingPaths(dir: string, names: seq<string>, pattern: string): (paths: seq<string>)
    ensures |paths| <= |names|
  {
    if |names| == 0 then []
    else (if Contains(names[0], pattern) then [EntryPath(dir, names[0])] else []) + MatchingPaths(dir, names[1..], pattern)
  }

  /**
   * `IterateDirByPattern(dirName, pattern, fn)`: the path on which `fn`
   * returned true, or "" when it never did.
   */
  function IterateDirByPattern(dir: string, listing: Option<seq<string>>, pattern: string, fn: string -> bool): (r: Result<string, DirError>)
    ensures r.Failure? <==> listing.None?
    ensures r.Success? && r.value != "" ==> fn(r.value)
    ensures r.Success? && r.value != "" ==>
      exists name :: name in listing.value && Contains(name, pattern) && r.value == EntryPath(dir, name)
  {
    var visited :- IterateDir(dir, listing, PatternFilter(dir, pattern, fn));
    assert |visited| > 0 ==> visited[|visited| - 1] in multiset(visited);
    Success(StoppedAt(dir, visited, pattern, fn))
  }

  /** The path of the last visited name when it was accepted, else "". */
  function StoppedAt(dir: string, visited: seq<string>, pattern: string, fn: string -> bool): string {
    if |visited| > 0 && Accepts(dir, pattern, fn, visited[|visited| - 1]) then EntryPath(dir, visited[|visited| - 1])
    else ""
  }

  /** The result is "" exactly when no entry containing the pattern makes `fn` return true. */
  lemma {:induction false} IterateDirByPatternEmpty(dir: string, names: seq<string>, pattern: string, fn: string -> bool)
    requires Distinct(names)
    ensures IterateDirByPattern(dir, Some(names), pattern, fn).value == "" <==>
      forall x :: x in names ==> !Accepts(dir, pattern, fn, x)
  {
    var g := PatternFilter(dir, pattern, fn);
    var v := IterateDir(dir, Some(names), g).value;
    IterateDirVisits(dir, names, g);
    var r := IterateDirByPattern(dir, Some(names), pattern, fn).value;
    if r == "" {
      forall x | x in names
        ensures !Accepts(dir, pattern, fn, x)
      {
        if Accepts(dir, pattern, fn, x) {
          AcceptedIsLast(v, g, x);
        }
      }
    } else {
      assert v[|v| - 1] in v;
    }
  }

  /** Otherwise it is the path of the first such entry in sorted order. */
  lemma {:induction false} IterateDirByPatternFirst(dir: string, names: seq<string>, pattern: string, fn: string -> bool, x: string)
    requires Distinct(names) && x in names && Accepts(dir, pattern, fn, x)
    ensures exists y :: FirstAccepted(dir, names, pattern, fn, x, y)
  {
    var g := PatternFilter(dir, pattern, fn);
    var v := IterateDir(dir, Some(names), g).value;
    IterateDirVisits(dir, names, g);
    assert x !in v ==> StoppedBefore(v, g, x);
    AcceptedIsLast(v, g, x);
    var y := v[|v| - 1];
    assert y in v;
    assert IterateDirByPattern(dir, Some(names), pattern, fn) == Success(StoppedAt(dir, v, pattern, fn));
    assert FirstAccepted(dir, names, pattern, fn, x, y);
  }

  /** `y` is a listed entry accepted by `fn`, no later than `x`, and its path is the result. */
  predicate FirstAccepted(dir: string, names: seq<string>, pattern: string, fn: string -> bool, x: string, y: string) {
    y in names && Accepts(dir, pattern, fn, y) && StrLe(y, x) &&
    IterateDirByPattern(dir, Some(names), pattern, fn).value == EntryPath(dir, y)
  }

  /** If an accepted name was visited it is the last one; if it was not, the visit stopped earlier. */
  lemma {:induction false} AcceptedIsLast(v: seq<string>, g: string -> bool, x: string)
    requires forall i :: 0 <= i < |v| - 1 ==> !g(v[i])
    requires x !in v ==> StoppedBefore(v, g, x)
    requires g(x)
    ensures |v| > 0 && g(v[|v| - 1]) && StrLe(v[|v| - 1], x)
  {
    if x in v {
      var i :| 0 <= i < |v| && v[i] == x;
      assert i == |v| - 1;
      StrLessIrreflexive(x);
    } else {
      StrLessAsymmetric(v[|v| - 1], x);
    }
  }

  /** Paths of the entries that contain `pattern` are handed over in sorted order, and each only once. */
  function PatternCalls(dir: string, names: seq<string>, pattern: string, fn: string -> bool): seq<string> {
    MatchingPaths(dir, VisitUntil(SortNames(names), PatternFilter(dir, pattern, fn)), pattern)
  }

  lemma {:induction false} VisitUntilNever(names: seq<string>, fn: string -> bool)
    requires forall x :: x in names ==> !fn(x)
    ensures VisitUntil(names, fn) == names
    decreases |names|
  {
    if |names| > 0 {
      VisitUntilNever(names[1..], fn);
    }
  }

  /**
   * A callback that never stops the iteration sees the path of every entry
   * containing the pattern, in sorted order: how the loader reads a whole
   * `conf.d` directory.
   */
  lemma {:induction false} PatternCallsAll(dir: string, names: seq<string>, pattern: string, fn: string -> bool)
    requires forall p :: !fn(p)
    ensures PatternCalls(dir, names, pattern, fn) == MatchingPaths(dir, SortNames(names), pattern)
    ensures IterateDirByPattern(dir, Some(names), pattern, fn) == Success("")
  {
    var g := PatternFilter(dir, pattern, fn);
    forall x | x in SortNames(names)
      ensures !g(x)
    {
      assert !fn(EntryPath(dir, x));
    }
    VisitUntilNever(SortNames(names), g);
  }

  /**
   * `TryOpen(fnames, file)`: tries the names in order and reports the first
   * one that opens; `openable` is the environment's answer for each name.
   */
  method TryOpen(fnames: seq<string>, openable: string -> bool) returns (ok: bool, index: nat)
    ensures ok ==> index < |fnames| && openable(fnames[index])
    ensures ok ==> forall j :: 0 <= j < index ==> !openable(fnames[j])
    ensures !ok <==> forall j :: 0 <= j < |fnames| ==> !openable(fnames[j])
  {
    index := 0;
    while index < |fnames|
      invariant index <= |fnames|
      invariant forall j :: 0 <= j < index ==> !openable(fnames[j])
    {
      if openable(fnames[index]) {
        return true, index;
      }
      index := index + 1;
    }
    return false, 0;
  }
}

=== FILE: gpio_config.dfy ===
/**
 * The daemon's configuration: per-line settings grouped into chips by device
 * path, built from parsed JSON documents and merged across the main file and
 * the files of its `.d` directory.
 *
 * JSON parsing, schema files and the directory listing are inputs: a parsed
 * document is a `JsonConfig`, the files are a map from path to document, and
 * schema validation is reduced to the top-level `required` keys.
 */
module GpioConfig {
  import opened Wrappers
  import opened Edges
  import opened FileUtils
  import opened Sorting
  import Sysfs

  datatype Direction = Input | Output

  const DefaultDecimalPlaces: int := 3
  const DefaultDebounceUs: nat := 10000

  /** One configured line; `debounceUs` is the debounce timeout in microseconds. */
  datatype LineConfig = LineConfig(
    offset: Sysfs.u32,
    isOpenDrain: bool,
    isOpenSource: bool,
    isActiveLow: bool,
    name: string,
    direction: Direction,
    edge: Edge,
    kind: string,
    decimalsTotal: int,
    decimalsCurrent: int,
    initialState: bool,
    debounceUs: nat)

  datatype ChipConfig = ChipConfig(path: string, lines: seq<LineConfig>)

  datatype DriverConfig = DriverConfig(deviceName: string, chips: seq<ChipConfig>)

  const EmptyConfig: DriverConfig := DriverConfig("", [])

  datatype ConfigError =
    | DuplicateName(name: string, path: string)
    | DuplicateOffset(offset: Sysfs.u32, path: string)
    | MissingRequired(key: string)
    | Unreadable(file: string)

  // ---------------------------------------------------------------------------
  // Lines of a chip, looked up by path.

  /** The lines of the first chip with device path `path`, or none. */
  function LinesAt(chips: seq<ChipConfig>, path: string): seq<LineConfig> {
    if |chips| == 0 then []
    else if chips[0].path == path then chips[0].lines
    else LinesAt(chips[1..], path)
  }

  /** The index of the first chip with device path `path`. */
  function FindChip(chips: seq<ChipConfig>, path: string): (r: Option<nat>)
    ensures r.Some? ==> r.value < |chips| && chips[r.value].path == path && LinesAt(chips, path) == chips[r.value].lines
    ensures r.Some? ==> forall j :: 0 <= j < r.value ==> chips[j].path != path
    ensures r.None? <==> forall j :: 0 <= j < |chips| ==> chips[j].path != path
    ensures r.None? ==> LinesAt(chips, path) == []
  {
    if |chips| == 0 then None
    else if chips[0].path == path then Some(0)
    else
      match FindChip(chips[1..], path)
      case None => None
      case Some(i) => Some(i + 1)
  }

  function Paths(chips: seq<ChipConfig>): (ps: seq<string>)
    ensures |ps| == |chips| && forall i :: 0 <= i < |chips| ==> ps[i] == chips[i].path
  {
    seq(|chips|, i requires 0 <= i < |chips| => chips[i].path)
  }

  predicate HasName(lines: seq<LineConfig>, name: string) {
    exists i :: 0 <= i < |lines| && lines[i].name == name
  }

  predicate HasOffset(lines: seq<LineConfig>, offset: Sysfs.u32) {
    exists i :: 0 <= i < |lines| && lines[i].offset == offset
  }

  /** Names and offsets are each pairwise distinct. */
  predicate LinesDistinct(lines: seq<LineConfig>) {
    forall i, j :: 0 <= i < j < |lines| ==> lines[i].name != lines[j].name && lines[i].offset != lines[j].offset
  }

  /** The invariant the loader keeps: distinct chip paths, and distinct names and offsets within a chip. */
  predicate WellFormed(cfg: DriverConfig) {
    Distinct(Paths(cfg.chips)) && forall i :: 0 <= i < |cfg.chips| ==> LinesDistinct(cfg.chips[i].lines)
  }

  // ---------------------------------------------------------------------------
  // AppendLine.

  /**
   * `AppendLine(cfg, path, line)`: the chip is looked up by path and added at
   * the end when it is new; a name already used on that chip is rejected,
   * then an offset already used; otherwise the line goes at the end of the
   * chip's lines.
   */
  function AppendLine(cfg: DriverConfig, path: string, line: LineConfig): (r: Result<DriverConfig, ConfigError>)
    ensures r.Failure? <==> HasName(LinesAt(cfg.chips, path), line.name) || HasOffset(LinesAt(cfg.chips, path), line.offset)
    ensures r.Failure? && HasName(LinesAt(cfg.chips, path), line.name) ==> r.error == DuplicateName(line.name, path)
    ensures r.Failure? && !HasName(LinesAt(cfg.chips, path), line.name) ==> r.error == DuplicateOffset(line.offset, path)
    ensures r.Success? ==> r.value.deviceName == cfg.deviceName
  {
    var k := FindChip(cfg.chips, path);
    var chips := if k.None? then cfg.chips + [ChipConfig(path, [])] else cfg.chips;
    var i := if k.None? then |cfg.chips| else k.value;
    var lines := chips[i].lines;
    if HasName(lines, line.name) then Failure(DuplicateName(line.name, path))
    else if HasOffset(lines, line.offset) then Failure(DuplicateOffset(line.offset, path))
    else Success(cfg.(chips := chips[i := ChipConfig(path, lines + [line])]))
  }

  lemma {:induction false} LinesAtAppendChip(chips: seq<ChipConfig>, c: ChipConfig, q: string)
    requires FindChip(chips, c.path).None?
    ensures LinesAt(chips + [c], q) == if q == c.path then c.lines else LinesAt(chips, q)
    decreases |chips|
  {
    if |chips| > 0 {
      assert (chips + [c])[1..] == chips[1..] + [c];
      if chips[0].path != q {
        LinesAtAppendChip(chips[1..], c, q);
      }
    }
  }

  lemma {:induction false} LinesAtUpdate(chips: seq<ChipConfig>, i: nat, c: ChipConfig, q: string)
    requires FindChip(chips, c.path) == Some(i)
    ensures LinesAt(chips[i := c], q) == if q == c.path then c.lines else LinesAt(chips, q)
    decreases |chips|
  {
    if i > 0 && chips[0].path != q {
      assert chips[i := c][1..] == chips[1..][i - 1 := c];
      LinesAtUpdate(chips[1..], i - 1, c, q);
    }
  }

  /**
   * A successful append adds the line at the end of its chip's lines, adds
   * the chip at the end of the chip list when its path is new, and leaves
   * every other chip's lines as they were.
   */
  lemma {:induction false} AppendLineEffect(cfg: DriverConfig, path: string, line: LineConfig, q: string)
    requires AppendLine(cfg, path, line).Success?
    ensures LinesAt(AppendLine(cfg, path, line).value.chips, q) ==
      LinesAt(cfg.chips, q) + (if q == path then [line] else [])
    ensures Paths(AppendLine(cfg, path, line).value.chips) ==
      if path in Paths(cfg.chips) then Paths(cfg.chips) else Paths(cfg.chips) + [path]
  {
    if FindChip(cfg.chips, path).None? {
      AppendLineNewChip(cfg, path, line, q);
    } else {
      AppendLineKnownChip(cfg, path, line, q);
    }
  }

  lemma {:induction false} AppendLineNewChip(cfg: DriverConfig, path: string, line: LineConfig, q: string)
    requires FindChip(cfg.chips, path).None? && AppendLine(cfg, path, line).Success?
    ensures LinesAt(AppendLine(cfg, path, line).value.chips, q) == LinesAt(cfg.chips, q) + (if q == path then [line] else [])
    ensures Paths(AppendLine(cfg, path, line).value.chips) == Paths(cfg.chips) + [path]
    ensures path !in Paths(cfg.chips)
  {
    var c := ChipConfig(path, [line]);
    AppendLineNewValue(cfg, path, line);
    LinesAtAppendChip(cfg.chips, c, q);
    assert Paths(cfg.chips + [c]) == Paths(cfg.chips) + [path];
  }

  /** A line on a new path adds a chip holding just that line at the end. */
  lemma {:induction false} AppendLineNewValue(cfg: DriverConfig, path: string, line: LineConfig)
    requires FindChip(cfg.chips, path).None? && AppendLine(cfg, path, line).Success?
    ensures AppendLine(cfg, path, line).value.chips == cfg.chips + [ChipConfig(path, [line])]
  {
    var chips := cfg.chips + [ChipConfig(path, [])];
    assert chips[|cfg.chips|].lines + [line] == [line];
    assert chips[|cfg.chips| := ChipConfig(path, [line])] == cfg.chips + [ChipConfig(path, [line])];
  }

  lemma {:induction false} AppendLineKnownChip(cfg: DriverConfig, path: string, line: LineConfig, q: string)
    requires FindChip(cfg.chips, path).Some? && AppendLine(cfg, path, line).Success?
    ensures LinesAt(AppendLine(cfg, path, line).value.chips, q) == LinesAt(cfg.chips, q) + (if q == path then [line] else [])
    ensures Paths(AppendLine(cfg, path, line).value.chips) == Paths(cfg.chips)
    ensures path in Paths(cfg.chips)
  {
    var k := FindChip(cfg.chips, path);
    LinesAtUpdate(cfg.chips, k.value, ChipConfig(path, LinesAt(cfg.chips, path) + [line]), q);
    assert Paths(cfg.chips)[k.value] == path;
  }

  lemma {:induction false} FindChipAppended(chips: seq<ChipConfig>, c: ChipConfig)
    requires FindChip(chips, c.path).None?
    ensures FindChip(chips + [c], c.path) == Some(|chips|)
    decreases |chips|
  {
    if |chips| > 0 {
      assert (chips + [c])[0] == chips[0] && (chips + [c])[1..] == chips[1..] + [c];
      FindChipAppended(chips[1..], c);
    } else {
      assert chips + [c] == [c];
    }
  }

  /** Appending keeps chip paths distinct and the names and offsets within every chip distinct. */
  lemma {:induction false} AppendLineWellFormed(cfg: DriverConfig, path: string, line: LineConfig)
    requires WellFormed(cfg) && AppendLine(cfg, path, line).Success?
    ensures WellFormed(AppendLine(cfg, path, line).value)
  {
    var r := AppendLine(cfg, path, line).value;
    var k := FindChip(cfg.chips, path);
    var old_lines := LinesAt(cfg.chips, path);
    var lines := old_lines + [line];
    assert LinesDistinct(lines) by {
      forall i, j | 0 <= i < j < |lines|
        ensures lines[i].name != lines[j].name && lines[i].offset != lines[j].offset
      {
        if j == |old_lines| {
          assert lines[i] == old_lines[i];
        } else {
          if k.Some? {
            assert LinesDistinct(cfg.chips[k.value].lines);
          }
        }
      }
    }
    AppendLineEffect(cfg, path, line, path);
    if k.None? {
      assert Paths(r.chips) == Paths(cfg.chips) + [path];
      forall i, j | 0 <= i < j < |Paths(r.chips)|
        ensures Paths(r.chips)[i] != Paths(r.chips)[j]
      {
        if j == |cfg.chips| {
          assert Paths(cfg.chips)[i] == cfg.chips[i].path;
        } else {
          assert Paths(r.chips)[i] == Paths(cfg.chips)[i] && Paths(r.chips)[j] == Paths(cfg.chips)[j];
        }
      }
    } else {
      assert Paths(r.chips) == Paths(cfg.chips) by {
        assert path in Paths(cfg.chips) by {
          assert Paths(cfg.chips)[k.value] == path;
        }
      }
    }
  }

  /** Within a well-formed configuration every chip's lines are distinct. */
  lemma {:induction false} WellFormedLinesAt(cfg: DriverConfig, q: string)
    requires WellFormed(cfg)
    ensures LinesDistinct(LinesAt(cfg.chips, q))
  {
    var k := FindChip(cfg.chips, q);
  }

  // ---------------------------------------------------------------------------
  // Merging.

  /** A line together with the device path of its chip. */
  type Entry = (string, LineConfig)

  /** The lines of `entries` that belong to path `q`, in order. */
  function LinesFor(entries: seq<Entry>, q: string): seq<LineConfig> {
    if |entries| == 0 then []
    else (if entries[0].0 == q then [entries[0].1] else []) + LinesFor(entries[1..], q)
  }

  /** `AppendLine` for each entry in turn; the first failure aborts. */
  function AppendAll(cfg: DriverConfig, entries: seq<Entry>): (r: Result<DriverConfig, ConfigError>)
    ensures r.Success? ==> r.value.deviceName == cfg.deviceName
    decreases |entries|
  {
    if |entries| == 0 then Success(cfg)
    else
      var next :- AppendLine(cfg, entries[0].0, entries[0].1);
      AppendAll(next, entries[1..])
  }

  /** After a successful merge each path holds its old lines followed by the new ones, in order. */
  lemma {:induction false} AppendAllLines(cfg: DriverConfig, entries: seq<Entry>, q: string)
    requires AppendAll(cfg, entries).Success?
    ensures LinesAt(AppendAll(cfg, entries).value.chips, q) == LinesAt(cfg.chips, q) + LinesFor(entries, q)
    decreases |entries|
  {
    if |entries| > 0 {
      var next := AppendLine(cfg, entries[0].0, entries[0].1).value;
      assert AppendAll(cfg, entries) == AppendAll(next, entries[1..]);
      AppendAllLines(next, entries[1..], q);
      AppendAllStep(cfg, entries, q);
    }
  }

  lemma {:induction false} AppendAllWellFormed(cfg: DriverConfig, entries: seq<Entry>)
    requires WellFormed(cfg) && AppendAll(cfg, entries).Success?
    ensures WellFormed(AppendAll(cfg, entries).value)
    decreases |entries|
  {
    if |entries| > 0 {
      AppendLineWellFormed(cfg, entries[0].0, entries[0].1);
      AppendAllWellFormed(AppendLine(cfg, entries[0].0, entries[0].1).value, entries[1..]);
    }
  }

  /** Chip paths in first-appearance order: the known ones, then each new path when first met. */
  function AddPaths(ps: seq<string>, entries: seq<Entry>): seq<string>
    decreases |entries|
  {
    if |entries| == 0 then ps
    else AddPaths(if entries[0].0 in ps then ps else ps + [entries[0].0], entries[1..])
  }

  lemma {:induction false} AppendAllPaths(cfg: DriverConfig, entries: seq<Entry>)
    requires AppendAll(cfg, entries).Success?
    ensures Paths(AppendAll(cfg, entries).value.chips) == AddPaths(Paths(cfg.chips), entries)
    decreases |entries|
  {
    if |entries| > 0 {
      AppendLineEffect(cfg, entries[0].0, entries[0].1, entries[0].0);
      AppendAllPaths(AppendLine(cfg, entries[0].0, entries[0].1).value, entries[1..]);
    }
  }

  /** A line that repeats an earlier name or offset breaks distinctness of any sequence that ends with it. */
  lemma {:induction false} ClashNotDistinct(lines: seq<LineConfig>, line: LineConfig, tail: seq<LineConfig>)
    requires HasName(lines, line.name) || HasOffset(lines, line.offset)
    ensures !LinesDistinct(lines + [line] + tail)
  {
    var all := lines + [line] + tail;
    assert all[|lines|] == line;
    if HasName(lines, line.name) {
      var i :| 0 <= i < |lines| && lines[i].name == line.name;
      assert all[i] == lines[i];
    } else {
      var i :| 0 <= i < |lines| && lines[i].offset == line.offset;
      assert all[i] == lines[i];
    }
  }

  /** One successful append shifts the first entry's line from the entries into the configuration. */
  lemma {:induction false} AppendAllStep(cfg: DriverConfig, entries: seq<Entry>, q: string)
    requires |entries| > 0 && AppendLine(cfg, entries[0].0, entries[0].1).Success?
    ensures LinesAt(AppendLine(cfg, entries[0].0, entries[0].1).value.chips, q) + LinesFor(entries[1..], q) ==
            LinesAt(cfg.chips, q) + LinesFor(entries, q)
  {
    var path, line := entries[0].0, entries[0].1;
    AppendLineEffect(cfg, path, line, q);
    var a, x, y := LinesAt(cfg.chips, q), (if q == path then [line] else []), LinesFor(entries[1..], q);
    assert LinesAt(AppendLine(cfg, path, line).value.chips, q) == a + x;
    assert LinesFor(entries, q) == x + y;
    ConcatAssoc(a, x, y);
  }

  /** Every path of a configuration and its pending entries has distinct lines. */
  ghost predicate AllDistinct(cfg: DriverConfig, entries: seq<Entry>) {
    forall q :: LinesDistinct(LinesAt(cfg.chips, q) + LinesFor(entries, q))
  }

  /**
   * Merging into a well-formed configuration succeeds exactly when, for
   * every path, the old lines followed by the new ones have distinct names
   * and distinct offsets.
   */
  lemma {:induction false} AppendAllSucceeds(cfg: DriverConfig, entries: seq<Entry>)
    requires WellFormed(cfg)
    ensures AppendAll(cfg, entries).Success? <==> AllDistinct(cfg, entries)
    decreases |entries|
  {
    if |entries| == 0 {
      forall q
        ensures LinesDistinct(LinesAt(cfg.chips, q) + LinesFor(entries, q))
      {
        WellFormedLinesAt(cfg, q);
        assert LinesAt(cfg.chips, q) + [] == LinesAt(cfg.chips, q);
      }
    } else {
      var a := AppendLine(cfg, entries[0].0, entries[0].1);
      if a.Success? {
        AppendLineWellFormed(cfg, entries[0].0, entries[0].1);
        AppendAllSucceeds(a.value, entries[1..]);
        assert AppendAll(cfg, entries) == AppendAll(a.value, entries[1..]);
        forall q
          ensures LinesAt(a.value.chips, q) + LinesFor(entries[1..], q) == LinesAt(cfg.chips, q) + LinesFor(entries, q)
        {
          AppendAllStep(cfg, entries, q);
        }
      } else {
        var p0 := entries[0].0;
        ClashNotDistinct(LinesAt(cfg.chips, p0), entries[0].1, LinesFor(entries[1..], p0));
        assert LinesFor(entries, p0) == [entries[0].1] + LinesFor(entries[1..], p0);
        assert LinesAt(cfg.chips, p0) + [entries[0].1] + LinesFor(entries[1..], p0) == LinesAt(cfg.chips, p0) + LinesFor(entries, p0);
      }
    }
  }

  /** The lines of one chip as entries. */
  function Tag(p: string, lines: seq<LineConfig>): (es: seq<Entry>)
    ensures |es| == |lines| && forall i :: 0 <= i < |lines| ==> es[i] == (p, lines[i])
  {
    if |lines| == 0 then [] else [(p, lines[0])] + Tag(p, lines[1..])
  }

  /** The lines of a configuration as entries, chip after chip. */
  function Entries(chips: seq<ChipConfig>): seq<Entry> {
    if |chips| == 0 then [] else Tag(chips[0].path, chips[0].lines) + Entries(chips[1..])
  }

  lemma {:induction false} LinesForConcat(a: seq<Entry>, b: seq<Entry>, q: string)
    ensures LinesFor(a + b, q) == LinesFor(a, q) + LinesFor(b, q)
    decreases |a|
  {
    if |a| > 0 {
      var h := if a[0].0 == q then [a[0].1] else [];
      assert (a + b)[0] == a[0] && (a + b)[1..] == a[1..] + b;
      assert LinesFor(a + b, q) == h + LinesFor(a[1..] + b, q);
      assert LinesFor(a, q) == h + LinesFor(a[1..], q);
      LinesForConcat(a[1..], b, q);
      assert h + (LinesFor(a[1..], q) + LinesFor(b, q)) == (h + LinesFor(a[1..], q)) + LinesFor(b, q);
    } else {
      assert a + b == b;
    }
  }

  lemma {:induction false} LinesForTag(p: string, lines: seq<LineConfig>, q: string)
    ensures LinesFor(Tag(p, lines), q) == if p == q then lines else []
    decreases |lines|
  {
    if |lines| > 0 {
      assert Tag(p, lines)[1..] == Tag(p, lines[1..]);
      LinesForTag(p, lines[1..], q);
      if p == q {
        assert lines == [lines[0]] + lines[1..];
      }
    }
  }

  lemma {:induction false} DistinctTail(xs: seq<string>)
    requires |xs| > 0 && Distinct(xs)
    ensures Distinct(xs[1..]) && xs[0] !in xs[1..]
  {
    forall i, j | 0 <= i < j < |xs[1..]|
      ensures xs[1..][i] != xs[1..][j]
    {
      assert xs[1..][i] == xs[i + 1] && xs[1..][j] == xs[j + 1];
    }
  }

  /** Listing a configuration with distinct chip paths as entries loses no line and reorders none within a chip. */
  lemma {:induction false} EntriesLinesFor(chips: seq<ChipConfig>, q: string)
    requires Distinct(Paths(chips))
    ensures LinesFor(Entries(chips), q) == LinesAt(chips, q)
    decreases |chips|
  {
    if |chips| > 0 {
      var rest := chips[1..];
      LinesForConcat(Tag(chips[0].path, chips[0].lines), Entries(rest), q);
      LinesForTag(chips[0].path, chips[0].lines, q);
      DistinctTail(Paths(chips));
      assert Paths(chips)[1..] == Paths(rest);
      EntriesLinesFor(rest, q);
      if chips[0].path == q {
        assert FindChip(rest, q).None?;
        assert chips[0].lines + [] == chips[0].lines;
      }
    }
  }

  /** `Append(src, dst)`: `dst` takes `src`'s device name, then every line of `src`, chip by chip. */
  function Append(src: DriverConfig, dst: DriverConfig): (r: Result<DriverConfig, ConfigError>)
    ensures r.Success? ==> r.value.deviceName == src.deviceName
  {
    AppendAll(dst.(deviceName := src.deviceName), Entries(src.chips))
  }

  /** Each path of a successful merge holds `dst`'s lines followed by `src`'s. */
  lemma {:induction false} AppendMerges(src: DriverConfig, dst: DriverConfig, q: string)
    requires WellFormed(src) && Append(src, dst).Success?
    ensures LinesAt(Append(src, dst).value.chips, q) == LinesAt(dst.chips, q) + LinesAt(src.chips, q)
  {
    AppendAllLines(dst.(deviceName := src.deviceName), Entries(src.chips), q);
    EntriesLinesFor(src.chips, q);
  }

  // ---------------------------------------------------------------------------
  // Schema requirements.

  const DeviceNameKey: string := "device_name"
  const ChannelsKey: string := "channels"

  /** `RemoveDeviceNameRequirement`: the schema's `required` list without "device_name". */
  function RemoveDeviceNameRequirement(required: seq<string>): (r: seq<string>)
    ensures DeviceNameKey !in r
    ensures forall k :: k in r <==> k in required && k != DeviceNameKey
  {
    if |required| == 0 then []
    else (if required[0] == DeviceNameKey then [] else [required[0]]) + RemoveDeviceNameRequirement(required[1..])
  }

  /** The other entries keep their order and multiplicity: removal works piecewise on a concatenation. */
  lemma {:induction false} RemoveDistributes(a: seq<string>, b: seq<string>)
    ensures RemoveDeviceNameRequirement(a + b) == RemoveDeviceNameRequirement(a) + RemoveDeviceNameRequirement(b)
    decreases |a|
  {
    if |a| > 0 {
      var h := if a[0] == DeviceNameKey then [] else [a[0]];
      assert (a + b)[0] == a[0] && (a + b)[1..] == a[1..] + b;
      assert RemoveDeviceNameRequirement(a + b) == h + RemoveDeviceNameRequirement(a[1..] + b);
      assert RemoveDeviceNameRequirement(a) == h + RemoveDeviceNameRequirement(a[1..]);
      RemoveDistributes(a[1..], b);
      assert h + (RemoveDeviceNameRequirement(a[1..]) + RemoveDeviceNameRequirement(b)) ==
             (h + RemoveDeviceNameRequirement(a[1..])) + RemoveDeviceNameRequirement(b);
    } else {
      assert a + b == b;
    }
  }

  lemma {:induction false} RemoveKeepsOthers(required: seq<string>)
    requires DeviceNameKey !in required
    ensures RemoveDeviceNameRequirement(required) == required
    decreases |required|
  {
    if |required| > 0 {
      RemoveKeepsOthers(required[1..]);
      assert required == [required[0]] + required[1..];
    }
  }

  // ---------------------------------------------------------------------------
  // JSON documents.

  /** A channel's `gpio`: a legacy sysfs number, or a chip path and an offset. */
  datatype GpioRef = SysfsNumber(number: Sysfs.u32) | ChipOffset(chip: string, offset: Sysfs.u32)

  /** One element of `channels`; an absent optional key is `None`. */
  datatype JsonChannel = JsonChannel(
    gpio: GpioRef,
    name: string,
    inverted: Option<bool>,
    openDrain: Option<bool>,
    openSource: Option<bool>,
    kind: Option<string>,
    decimalsCurrent: Option<int>,
    decimalsTotal: Option<int>,
    initialState: Option<bool>,
    direction: Option<string>,
    edge: Option<string>)

  datatype JsonConfig = JsonConfig(deviceName: Option<string>, channels: seq<JsonChannel>)

  /** The top-level keys a document carries. */
  function Members(root: JsonConfig): set<string> {
    {ChannelsKey} + if root.deviceName.Some? then {DeviceNameKey} else {}
  }

  /** The `required` part of schema validation. */
  function Validate(root: JsonConfig, required: seq<string>): (r: Result<JsonConfig, ConfigError>)
    ensures r.Success? <==> forall i :: 0 <= i < |required| ==> required[i] in Members(root)
    ensures r.Success? ==> r.value == root
    ensures r.Failure? ==> r.error.MissingRequired? && r.error.key in required && r.error.key !in Members(root)
  {
    if |required| == 0 then Success(root)
    else if required[0] !in Members(root) then Failure(MissingRequired(required[0]))
    else
      var r := Validate(root, required[1..]);
      assert forall i :: 1 <= i < |required| ==> required[i] == required[1..][i - 1];
      r
  }

  /** Without the "device_name" requirement a document need not carry a device name. */
  lemma {:induction false} ValidateWithoutDeviceName(root: JsonConfig, required: seq<string>)
    requires Validate(root.(deviceName := Some("")), required).Success?
    ensures Validate(root.(deviceName := None), RemoveDeviceNameRequirement(required)).Success?
  {
    var r := RemoveDeviceNameRequirement(required);
    forall i | 0 <= i < |r|
      ensures r[i] in Members(root.(deviceName := None))
    {
      assert r[i] in required;
      var j :| 0 <= j < |required| && required[j] == r[i];
    }
  }

  const InputDirection: string := "input"

  /** The line settings a channel describes; keys the channel lacks keep their defaults. */
  function ChannelLine(ch: JsonChannel, offset: Sysfs.u32): (l: LineConfig)
    ensures l.offset == offset && l.name == ch.name && l.debounceUs == DefaultDebounceUs
    ensures l.direction == Input <==> ch.direction == Some(InputDirection)
    ensures l.isActiveLow <==> ch.inverted == Some(true)
    ensures l.isOpenDrain <==> ch.openDrain == Some(true)
    ensures l.isOpenSource <==> ch.openSource == Some(true)
    ensures l.initialState <==> ch.initialState == Some(true)
    ensures ch.kind.Some? ==> l.kind == ch.kind.value
    ensures ch.kind.None? ==> l.kind == ""
    ensures l.decimalsTotal == if ch.decimalsTotal.Some? then ch.decimalsTotal.value else DefaultDecimalPlaces
    ensures l.decimalsCurrent == if ch.decimalsCurrent.Some? then ch.decimalsCurrent.value else DefaultDecimalPlaces
    ensures ch.edge.None? ==> l.edge == Auto
    ensures l.edge == Rising <==> ch.edge == Some(RisingName)
    ensures l.edge == Falling <==> ch.edge == Some(FallingName)
    ensures l.edge == Both <==> ch.edge == Some(BothName)
  {
    LineConfig(
      offset,
      ch.openDrain.GetOr(false),
      ch.openSource.GetOr(false),
      ch.inverted.GetOr(false),
      ch.name,
      if ch.direction == Some(InputDirection) then Input else Output,
      if ch.edge.Some? then EnumerateGpioEdge(ch.edge.value, Auto) else Auto,
      ch.kind.GetOr(""),
      ch.decimalsTotal.GetOr(DefaultDecimalPlaces),
      ch.decimalsCurrent.GetOr(DefaultDecimalPlaces),
      ch.initialState.GetOr(false),
      DefaultDebounceUs)
  }

  /**
   * Where a channel's line goes: a sysfs number is translated to a chip and
   * an offset through the chip ranges, and a channel whose number lies in no
   * range is skipped.
   */
  function ChannelEntry(ch: JsonChannel, ranges: seq<Sysfs.Range>): (e: Option<Entry>)
    ensures e.None? <==> ch.gpio.SysfsNumber? && forall i :: 0 <= i < |ranges| ==> !Sysfs.InRange(ranges[i], ch.gpio.number)
    ensures ch.gpio.ChipOffset? ==> e == Some((ch.gpio.chip, ChannelLine(ch, ch.gpio.offset)))
    ensures ch.gpio.SysfsNumber? && e.Some? ==>
      exists i :: 0 <= i < |ranges| && SysfsEntry(ch, ranges[i], e.value)
  {
    match ch.gpio
    case ChipOffset(chip, offset) => Some((chip, ChannelLine(ch, offset)))
    case SysfsNumber(n) =>
      match Sysfs.FromSysfsGpioChecked(ranges, n)
      case Failure(_) => None
      case Success(found) =>
        var i :| 0 <= i < |ranges| && Sysfs.InRange(ranges[i], n) && found == (ranges[i].chip, n - ranges[i].begin);
        var e := (Sysfs.GpioChipNumberToPath(found.0), ChannelLine(ch, found.1));
        assert SysfsEntry(ch, ranges[i], e);
        Some(e)
  }

  /** `e` is the line of sysfs channel `ch` placed on the chip of `range`, which holds its number. */
  predicate SysfsEntry(ch: JsonChannel, range: Sysfs.Range, e: Entry)
    requires ch.gpio.SysfsNumber?
  {
    Sysfs.InRange(range, ch.gpio.number) && e.0 == Sysfs.GpioChipNumberToPath(range.chip) &&
    e.1 == ChannelLine(ch, ch.gpio.number - range.begin)
  }

  function ChannelEntries(channels: seq<JsonChannel>, ranges: seq<Sysfs.Range>): (es: seq<Entry>)
    ensures |es| <= |channels|
  {
    if |channels| == 0 then []
    else
      (match ChannelEntry(channels[0], ranges) case None => [] case Some(e) => [e]) + ChannelEntries(channels[1..], ranges)
  }

  /**
   * The placement as `LoadFromJSON` writes it, through the as-written
   * `FromSysfsGpio`: a sysfs number is skipped only when the lower-bound
   * lookup finds no non-empty range, and is otherwise placed on the found
   * chip at the 32-bit difference from that range's begin.
   */
  function ChannelEntryAsWritten(ch: JsonChannel, ranges: seq<Sysfs.Range>): (e: Option<Entry>)
    ensures e.None? <==> ch.gpio.SysfsNumber? && Sysfs.FindByGpio(ranges, ch.gpio.number).None?
    ensures ch.gpio.ChipOffset? ==> e == Some((ch.gpio.chip, ChannelLine(ch, ch.gpio.offset)))
    ensures ch.gpio.SysfsNumber? && e.Some? ==>
      var found := Sysfs.FindByGpio(ranges, ch.gpio.number).value;
      e.value == (Sysfs.GpioChipNumberToPath(found.chip), ChannelLine(ch, Sysfs.Sub32(ch.gpio.number, found.begin)))
  {
    match ch.gpio
    case ChipOffset(chip, offset) => Some((chip, ChannelLine(ch, offset)))
    case SysfsNumber(n) =>
      match Sysfs.FromSysfsGpio(ranges, n)
      case Failure(_) => None
      case Success(found) => Some((Sysfs.GpioChipNumberToPath(found.0), ChannelLine(ch, found.1)))
  }

  /** A sysfs number that lies inside some range of the chip set. */
  predicate NumberCovered(ch: JsonChannel, ranges: seq<Sysfs.Range>) {
    ch.gpio.SysfsNumber? ==> exists i :: 0 <= i < |ranges| && Sysfs.InRange(ranges[i], ch.gpio.number)
  }

  /** On an ordered chip set the two placements agree for every number inside some range. */
  lemma {:induction false} ChannelEntryAgrees(ch: JsonChannel, ranges: seq<Sysfs.Range>)
    requires Sysfs.Ordered(ranges) && NumberCovered(ch, ranges)
    ensures ChannelEntryAsWritten(ch, ranges) == ChannelEntry(ch, ranges)
  {
    if ch.gpio.SysfsNumber? {
      var k :| 0 <= k < |ranges| && Sysfs.InRange(ranges[k], ch.gpio.number);
      Sysfs.FromSysfsGpioInRange(ranges, ch.gpio.number, k);
    }
  }

  /** A number between two ranges is loaded by the code as written and skipped by the intended lookup. */
  lemma {:induction false} ChannelEntryGap(ch: JsonChannel)
    requires ch.gpio == SysfsNumber(40)
    ensures ChannelEntryAsWritten(ch, Sysfs.GapRanges) ==
      Some((Sysfs.GpioChipNumberToPath(1), ChannelLine(ch, Sysfs.U32Limit - 24)))
    ensures ChannelEntry(ch, Sysfs.GapRanges).None?
  {
    Sysfs.FromSysfsGpioAcceptsGap();
  }

  /** The entries of a document as the code writes them. */
  function ChannelEntriesAsWritten(channels: seq<JsonChannel>, ranges: seq<Sysfs.Range>): (es: seq<Entry>)
    ensures |es| <= |channels|
  {
    if |channels| == 0 then []
    else
      (match ChannelEntryAsWritten(channels[0], ranges) case None => [] case Some(e) => [e]) +
      ChannelEntriesAsWritten(channels[1..], ranges)
  }

  /** When every sysfs number of a document lies inside a range, its entries are the source's. */
  lemma {:induction false} ChannelEntriesAgree(channels: seq<JsonChannel>, ranges: seq<Sysfs.Range>)
    requires Sysfs.Ordered(ranges) && forall i :: 0 <= i < |channels| ==> NumberCovered(channels[i], ranges)
    ensures ChannelEntriesAsWritten(channels, ranges) == ChannelEntries(channels, ranges)
    decreases |channels|
  {
    if |channels| > 0 {
      ChannelEntryAgrees(channels[0], ranges);
      assert forall i :: 0 <= i < |channels[1..]| ==> channels[1..][i] == channels[i + 1];
      ChannelEntriesAgree(channels[1..], ranges);
    }
  }

  /** `LoadFromJSON(root, schema)`: validation, then every kept channel appended in document order. */
  function LoadFromJson(root: JsonConfig, required: seq<string>, ranges: seq<Sysfs.Range>): (r: Result<DriverConfig, ConfigError>)
    ensures r.Success? ==> r.value.deviceName == root.deviceName.GetOr("")
  {
    var _ :- Validate(root, required);
    AppendAll(DriverConfig(root.deviceName.GetOr(""), []), ChannelEntries(root.channels, ranges))
  }

  /** A document loads exactly when it validates and no chip gets a name or an offset twice. */
  lemma {:induction false} LoadFromJsonSucceeds(root: JsonConfig, required: seq<string>, ranges: seq<Sysfs.Range>)
    ensures LoadFromJson(root, required, ranges).Success? <==>
      Validate(root, required).Success? && AllDistinct(DriverConfig(root.deviceName.GetOr(""), []), ChannelEntries(root.channels, ranges))
  {
    var start := DriverConfig(root.deviceName.GetOr(""), []);
    assert WellFormed(start);
    AppendAllSucceeds(start, ChannelEntries(root.channels, ranges));
    if Validate(root, required).Success? {
      assert LoadFromJson(root, required, ranges) == AppendAll(start, ChannelEntries(root.channels, ranges));
    }
  }

  /** A loaded document is well-formed and holds, per chip path, the lines of that path in document order. */
  lemma {:induction false} LoadFromJsonLines(root: JsonConfig, required: seq<string>, ranges: seq<Sysfs.Range>, q: string)
    requires LoadFromJson(root, required, ranges).Success?
    ensures WellFormed(LoadFromJson(root, required, ranges).value)
    ensures LinesAt(LoadFromJson(root, required, ranges).value.chips, q) == LinesFor(ChannelEntries(root.channels, ranges), q)
  {
    var start := DriverConfig(root.deviceName.GetOr(""), []);
    var es := ChannelEntries(root.channels, ranges);
    assert LoadFromJson(root, required, ranges) == AppendAll(start, es);
    assert WellFormed(start);
    AppendAllWellFormed(start, es);
    AppendAllLines(start, es, q);
  }

  // ---------------------------------------------------------------------------
  // Loading the files.

  const ConfPattern: string := ".conf"
  const ConfDirSuffix: string := ".d"

  /** Reading and parsing a file; a missing or malformed file is `Unreadable`. */
  function Parse(files: map<string, JsonConfig>, path: string): (r: Result<JsonConfig, ConfigError>)
    ensures r.Success? <==> path in files
  {
    if path in files then Success(files[path]) else Failure(Unreadable(path))
  }

  /** The `.conf` files of directory `dir` in the order they are loaded; an unreadable directory has none. */
  function ConfDFiles(dir: string, listing: Option<seq<string>>): seq<string> {
    match listing
    case None => []
    case Some(names) => PatternCalls(dir, names, ConfPattern, _ => false)
  }

  /** The `.conf` files are the directory's entries containing ".conf", in sorted order. */
  lemma {:induction false} ConfDFilesSorted(dir: string, names: seq<string>)
    ensures ConfDFiles(dir, Some(names)) == MatchingPaths(dir, SortNames(names), ConfPattern)
  {
    PatternCallsAll(dir, names, ConfPattern, _ => false);
  }

  /** Loads each file in turn and appends it to `cfg`. */
  function LoadAll(files: map<string, JsonConfig>, paths: seq<string>, required: seq<string>, ranges: seq<Sysfs.Range>, cfg: DriverConfig): (r: Result<DriverConfig, ConfigError>)
    ensures r.Success? ==> forall i :: 0 <= i < |paths| ==> paths[i] in files
    decreases |paths|
  {
    if |paths| == 0 then Success(cfg)
    else
      var root :- Parse(files, paths[0]);
      var part :- LoadFromJson(root, required, ranges);
      var next :- Append(part, cfg);
      var r := LoadAll(files, paths[1..], required, ranges, next);
      assert r.Success? ==> forall i :: 1 <= i < |paths| ==> paths[i] == paths[1..][i - 1];
      r
  }

  /**
   * `LoadConfig(mainConfigFile, optionalConfigFile, schema)`: a non-empty
   * optional file is loaded on its own; otherwise the `.conf` files of the
   * main file's `.d` directory are loaded in sorted order, without the
   * device-name requirement, and then the main file.
   */
  function LoadConfig(files: map<string, JsonConfig>, listing: Option<seq<string>>, mainFile: string, optionalFile: string,
                      required: seq<string>, ranges: seq<Sysfs.Range>): (r: Result<DriverConfig, ConfigError>)
    ensures optionalFile != "" ==>
      (r.Success? <==> optionalFile in files && LoadFromJson(files[optionalFile], required, ranges).Success?)
    ensures r.Success? ==> var source := if optionalFile != "" then optionalFile else mainFile;
      source in files && r.value.deviceName == files[source].deviceName.GetOr("")
    ensures optionalFile == "" && r.Success? ==>
      forall i :: 0 <= i < |ConfDFiles(mainFile + ConfDirSuffix, listing)| ==> ConfDFiles(mainFile + ConfDirSuffix, listing)[i] in files
  {
    if optionalFile != "" then
      var root :- Parse(files, optionalFile);
      LoadFromJson(root, required, ranges)
    else
      var confd := ConfDFiles(mainFile + ConfDirSuffix, listing);
      var cfg :- LoadAll(files, confd, RemoveDeviceNameRequirement(required), ranges, EmptyConfig);
      var root :- Parse(files, mainFile);
      var main :- LoadFromJson(root, required, ranges);
      Append(main, cfg)
  }

  /** A non-empty optional file is loaded alone: the main file and the `.d` directory play no part. */
  lemma {:induction false} LoadConfigOptional(files: map<string, JsonConfig>, listing: Option<seq<string>>, mainFile: string, optionalFile: string,
                           required: seq<string>, ranges: seq<Sysfs.Range>, listing2: Option<seq<string>>, mainFile2: string)
    requires optionalFile != ""
    ensures LoadConfig(files, listing, mainFile, optionalFile, required, ranges) ==
            LoadConfig(files, listing2, mainFile2, optionalFile, required, ranges)
    ensures LoadConfig(files, listing, mainFile, optionalFile, required, ranges).Success? <==>
            optionalFile in files && LoadFromJson(files[optionalFile], required, ranges).Success?
  {
  }

  /** The lines file `path` contributes to path `q`. */
  function FileLinesFor(files: map<string, JsonConfig>, path: string, ranges: seq<Sysfs.Range>, q: string): seq<LineConfig> {
    if path in files then LinesFor(ChannelEntries(files[path].channels, ranges), q) else []
  }

  /** The lines each file contributes to path `q`, file after file. */
  function FilesLinesFor(files: map<string, JsonConfig>, paths: seq<string>, ranges: seq<Sysfs.Range>, q: string): seq<LineConfig> {
    if |paths| == 0 then []
    else FileLinesFor(files, paths[0], ranges, q) + FilesLinesFor(files, paths[1..], ranges, q)
  }

  /** One step of `LoadAll`: the first file loads and is appended, and the rest follows. */
  lemma {:induction false} LoadAllStep(files: map<string, JsonConfig>, paths: seq<string>, required: seq<string>,
                    ranges: seq<Sysfs.Range>, cfg: DriverConfig)
    requires |paths| > 0 && LoadAll(files, paths, required, ranges, cfg).Success?
    ensures paths[0] in files && LoadFromJson(files[paths[0]], required, ranges).Success?
    ensures Append(LoadFromJson(files[paths[0]], required, ranges).value, cfg).Success?
    ensures LoadAll(files, paths, required, ranges, cfg) ==
            LoadAll(files, paths[1..], required, ranges, Append(LoadFromJson(files[paths[0]], required, ranges).value, cfg).value)
  {
  }

  /** The configuration after the first file: its lines follow those of `cfg`, and the rest of the files load on top of it. */
  lemma {:induction false} LoadAllHead(files: map<string, JsonConfig>, paths: seq<string>, required: seq<string>,
                    ranges: seq<Sysfs.Range>, cfg: DriverConfig, q: string) returns (next: DriverConfig)
    requires |paths| > 0 && LoadAll(files, paths, required, ranges, cfg).Success?
    ensures LoadAll(files, paths, required, ranges, cfg) == LoadAll(files, paths[1..], required, ranges, next)
    ensures LinesAt(next.chips, q) == LinesAt(cfg.chips, q) + FileLinesFor(files, paths[0], ranges, q)
  {
    LoadAllStep(files, paths, required, ranges, cfg);
    var root := files[paths[0]];
    var part := LoadFromJson(root, required, ranges).value;
    next := Append(part, cfg).value;
    LoadFromJsonLines(root, required, ranges, q);
    AppendMerges(part, cfg, q);
  }

  lemma {:induction false} LoadAllLines(files: map<string, JsonConfig>, paths: seq<string>, required: seq<string>,
                                        ranges: seq<Sysfs.Range>, cfg: DriverConfig, q: string)
    requires LoadAll(files, paths, required, ranges, cfg).Success?
    ensures LinesAt(LoadAll(files, paths, required, ranges, cfg).value.chips, q) ==
            LinesAt(cfg.chips, q) + FilesLinesFor(files, paths, ranges, q)
    decreases |paths|
  {
    if |paths| > 0 {
      var next := LoadAllHead(files, paths, required, ranges, cfg, q);
      LoadAllLines(files, paths[1..], required, ranges, next, q);
      var a, x, y := LinesAt(cfg.chips, q), FileLinesFor(files, paths[0], ranges, q), FilesLinesFor(files, paths[1..], ranges, q);
      assert FilesLinesFor(files, paths, ranges, q) == x + y;
      ConcatAssoc(a, x, y);
    }
  }

  /** Without an optional file the result is the main file's configuration appended to the `.conf` files' one. */
  lemma {:induction false} LoadConfigSplit(files: map<string, JsonConfig>, listing: Option<seq<string>>, mainFile: string,
                        required: seq<string>, ranges: seq<Sysfs.Range>)
    requires LoadConfig(files, listing, mainFile, "", required, ranges).Success?
    ensures LoadAll(files, ConfDFiles(mainFile + ConfDirSuffix, listing), RemoveDeviceNameRequirement(required), ranges, EmptyConfig).Success?
    ensures mainFile in files && LoadFromJson(files[mainFile], required, ranges).Success?
    ensures LoadConfig(files, listing, mainFile, "", required, ranges) ==
            Append(LoadFromJson(files[mainFile], required, ranges).value,
                   LoadAll(files, ConfDFiles(mainFile + ConfDirSuffix, listing), RemoveDeviceNameRequirement(required), ranges, EmptyConfig).value)
  {
  }

  /**
   * Without an optional file, every chip path holds the lines of the `.conf`
   * files in sorted file order, then the main file's lines, and the device
   * name is the main file's.
   */
  lemma {:induction false} LoadConfigMerged(files: map<string, JsonConfig>, listing: Option<seq<string>>, mainFile: string,
                         required: seq<string>, ranges: seq<Sysfs.Range>, q: string)
    requires LoadConfig(files, listing, mainFile, "", required, ranges).Success?
    ensures mainFile in files
    ensures LoadConfig(files, listing, mainFile, "", required, ranges).value.deviceName == files[mainFile].deviceName.GetOr("")
    ensures LinesAt(LoadConfig(files, listing, mainFile, "", required, ranges).value.chips, q) ==
            FilesLinesFor(files, ConfDFiles(mainFile + ConfDirSuffix, listing), ranges, q) +
            LinesFor(ChannelEntries(files[mainFile].channels, ranges), q)
  {
    LoadConfigSplit(files, listing, mainFile, required, ranges);
    MainAfterConfD(files, ConfDFiles(mainFile + ConfDirSuffix, listing), mainFile, required, ranges, q);
  }

  lemma {:induction false} MainAfterConfD(files: map<string, JsonConfig>, confd: seq<string>, mainFile: string,
                       required: seq<string>, ranges: seq<Sysfs.Range>, q: string)
    requires LoadAll(files, confd, RemoveDeviceNameRequirement(required), ranges, EmptyConfig).Success?
    requires mainFile in files && LoadFromJson(files[mainFile], required, ranges).Success?
    requires Append(LoadFromJson(files[mainFile], required, ranges).value,
                    LoadAll(files, confd, RemoveDeviceNameRequirement(required), ranges, EmptyConfig).value).Success?
    ensures LinesAt(Append(LoadFromJson(files[mainFile], required, ranges).value,
                           LoadAll(files, confd, RemoveDeviceNameRequirement(required), ranges, EmptyConfig).value).value.chips, q) ==
            FilesLinesFor(files, confd, ranges, q) + LinesFor(ChannelEntries(files[mainFile].channels, ranges), q)
  {
    var noDev := RemoveDeviceNameRequirement(required);
    var cfg := LoadAll(files, confd, noDev, ranges, EmptyConfig).value;
    LoadAllLines(files, confd, noDev, ranges, EmptyConfig, q);
    assert LinesAt(EmptyConfig.chips, q) == [];
    assert LinesAt(cfg.chips, q) == FilesLinesFor(files, confd, ranges, q);
    var main := LoadFromJson(files[mainFile], required, ranges).value;
    LoadFromJsonLines(files[mainFile], required, ranges, q);
    assert WellFormed(main);
    AppendMerges(main, cfg, q);
  }
}

=== FILE: line.dfy ===
/**
 * One GPIO line as the daemon sees it (`TGpioLine`): the kernel's view of
 * the line (name, flag bits, consumer), the handle descriptors, the error
 * and re-initialisation state, the cached values, and the edge filter and
 * debounce rule applied to interrupts.
 *
 * The kernel's answers (line info, read and write results) are parameters.
 * Time points are microseconds on the steady clock.
 */
module Line {
  import opened Wrappers
  import opened Edges
  import Sysfs
  import GpioConfig
  import C = Counter

  /** `GPIOLINE_FLAG_*` bits of `gpioline_info.flags`. */
  const FlagKernel: bv32 := 1
  const FlagIsOut: bv32 := 2
  const FlagActiveLow: bv32 := 4
  const FlagOpenDrain: bv32 := 8
  const FlagOpenSource: bv32 := 16

  /** The chip label on which an output that comes back needs re-initialisation. */
  const Mcp23017: string := "mcp23017"

  const DummyName: string := "Dummy gpio line"
  const DummyConsumer: string := "null"

  type u8 = x: int | 0 <= x < 256

  datatype InterruptSupport = Unknown | Yes | No
  datatype InterruptStatus = Skip | Handled

  /** The answer to `GPIO_GET_LINEINFO_IOCTL`: the line's name, flags and consumer, or the failing return value. */
  datatype InfoReply = InfoOk(name: string, flags: bv32, consumer: string) | InfoFailed(ret: int)

  datatype Line = Line(
    config: GpioConfig.LineConfig,
    chipLabel: string,
    offset: Sysfs.u32,
    name: string,
    flags: bv32,
    consumer: string,
    fd: int,
    timerFd: int,
    error: int,
    needReinit: bool,
    value: u8,
    unfiltered: u8,
    support: InterruptSupport,
    counter: Option<C.Counter>,
    lastInterrupt: int)

  // ---------------------------------------------------------------------------
  // Flag predicates.

  predicate IsUsed(l: Line) { l.flags & FlagKernel != 0 }
  predicate IsOutput(l: Line) { l.flags & FlagIsOut != 0 }
  predicate IsActiveLow(l: Line) { l.flags & FlagActiveLow != 0 }
  predicate IsOpenDrain(l: Line) { l.flags & FlagOpenDrain != 0 }
  predicate IsOpenSource(l: Line) { l.flags & FlagOpenSource != 0 }

  /** Bit `k` of `flags`. */
  predicate Bit(flags: bv32, k: nat)
    requires k < 32
  {
    (flags >> k) & 1 == 1
  }

  /** Each predicate reads exactly one bit: KERNEL is bit 0, IS_OUT bit 1, ACTIVE_LOW bit 2, OPEN_DRAIN bit 3, OPEN_SOURCE bit 4. */
  lemma {:induction false} FlagPredicatesAreBits(l: Line)
    ensures IsUsed(l) <==> Bit(l.flags, 0)
    ensures IsOutput(l) <==> Bit(l.flags, 1)
    ensures IsActiveLow(l) <==> Bit(l.flags, 2)
    ensures IsOpenDrain(l) <==> Bit(l.flags, 3)
    ensures IsOpenSource(l) <==> Bit(l.flags, 4)
  {
  }

  /** `TreatAsOutput`: sets IS_OUT and keeps every other bit. */
  function TreatAsOutput(l: Line): (r: Line)
    ensures IsOutput(r)
    ensures r.flags & !FlagIsOut == l.flags & !FlagIsOut
    ensures r == l.(flags := r.flags)
  {
    l.(flags := l.flags | FlagIsOut)
  }

  /** Treating a line as an output changes no other flag predicate. */
  lemma {:induction false} TreatAsOutputKeepsOthers(l: Line)
    ensures IsUsed(TreatAsOutput(l)) == IsUsed(l)
    ensures IsActiveLow(TreatAsOutput(l)) == IsActiveLow(l)
    ensures IsOpenDrain(TreatAsOutput(l)) == IsOpenDrain(l)
    ensures IsOpenSource(TreatAsOutput(l)) == IsOpenSource(l)
  {
    var f := l.flags;
    var g := TreatAsOutput(l).flags;
    assert g == f | FlagIsOut;
    assert g & FlagKernel == f & FlagKernel;
    assert g & FlagActiveLow == f & FlagActiveLow;
    assert g & FlagOpenDrain == f & FlagOpenDrain;
    assert g & FlagOpenSource == f & FlagOpenSource;
  }

  /** Doing it twice is doing it once. */
  lemma {:induction false} TreatAsOutputIdempotent(l: Line)
    ensures TreatAsOutput(TreatAsOutput(l)).flags == TreatAsOutput(l).flags
  {
    OrIdempotent(l.flags);
  }

  /** On a line the kernel already reports as an output it does nothing. */
  lemma {:induction false} TreatAsOutputOnOutput(l: Line)
    requires IsOutput(l)
    ensures TreatAsOutput(l).flags == l.flags
  {
    OrSetBit(l.flags);
  }

  lemma {:induction false} OrIdempotent(f: bv32)
    ensures (f | FlagIsOut) | FlagIsOut == f | FlagIsOut
  {
  }

  lemma {:induction false} OrSetBit(f: bv32)
    requires f & FlagIsOut != 0
    ensures f | FlagIsOut == f
  {
  }

  // ---------------------------------------------------------------------------
  // Construction.

  /** `UpdateInfo`: a failed query records its return value as the error and keeps the old line info. */
  function UpdateInfo(l: Line, reply: InfoReply): (r: Line)
    ensures reply.InfoOk? ==> r == l.(name := reply.name, flags := reply.flags, consumer := reply.consumer)
    ensures reply.InfoFailed? ==> r == l.(error := reply.ret)
  {
    match reply
    case InfoOk(name, flags, consumer) => l.(name := name, flags := flags, consumer := consumer)
    case InfoFailed(ret) => l.(error := ret)
  }

  /** The counter a line configuration asks for: none for an empty type. */
  function CounterFor(config: GpioConfig.LineConfig): (r: Result<Option<C.Counter>, C.CounterError>)
    ensures r.Success? <==> config.kind == "" || config.kind == C.WattMeter || config.kind == C.WaterMeter
    ensures r.Success? ==> (r.value.Some? <==> config.kind != "")
    ensures r.Success? && r.value.Some? ==> r.value.value.edge == config.edge && r.value.value.counts == 0
  {
    if config.kind == "" then Success(None)
    else
      var c :- C.NewCounter(config.kind, config.decimalsTotal, config.decimalsCurrent, config.edge);
      Success(Some(c))
  }

  /**
   * `TGpioLine(chip, config)`: not handled, no error, values 0, interrupt
   * support unknown, a counter exactly when the configuration names a meter
   * type (an unknown type is an error), then the kernel's line info.
   */
  function NewLine(config: GpioConfig.LineConfig, chipLabel: string, reply: InfoReply): (r: Result<Line, C.CounterError>)
    ensures r.Success? <==> config.kind == "" || config.kind == C.WattMeter || config.kind == C.WaterMeter
    ensures r.Success? ==> !IsHandled(r.value) && r.value.timerFd == -1
    ensures r.Success? ==> r.value.value == 0 && r.value.unfiltered == 0 && !r.value.needReinit
    ensures r.Success? ==> r.value.support == Unknown && r.value.offset == config.offset && r.value.config == config
    ensures r.Success? ==> (r.value.counter.Some? <==> config.kind != "")
    ensures r.Success? ==> r.value.error == if reply.InfoFailed? then reply.ret else 0
    ensures r.Success? && reply.InfoOk? ==> r.value.flags == reply.flags && r.value.name == reply.name
  {
    var counter :- CounterFor(config);
    Success(UpdateInfo(Line(config, chipLabel, config.offset, "", 0, "", -1, -1, 0, false, 0, 0, Unknown, counter, 0), reply))
  }

  /** `TGpioLine(config)`: a line built without a chip, with fixed info and no counter. */
  function NewDummyLine(config: GpioConfig.LineConfig): (r: Line)
    ensures r.name == DummyName && r.consumer == DummyConsumer && r.flags == 0
    ensures !IsHandled(r) && r.error == 0 && r.value == 0 && r.unfiltered == 0 && r.counter.None?
    ensures !IsUsed(r) && !IsOutput(r) && !IsActiveLow(r) && !IsOpenDrain(r) && !IsOpenSource(r)
  {
    Line(config, "", config.offset, DummyName, 0, DummyConsumer, -1, -1, 0, false, 0, 0, Unknown, None, 0)
  }

  /** `IsHandled`: the line holds a kernel handle. */
  predicate IsHandled(l: Line) {
    l.fd > -1
  }

  /** `SetFd`: takes the descriptor, then refreshes the line info. */
  function SetFd(l: Line, fd: int, reply: InfoReply): (r: Line)
    ensures r.fd == fd && (IsHandled(r) <==> fd >= 0)
    ensures r.value == l.value && r.counter == l.counter && r.config == l.config
  {
    UpdateInfo(l.(fd := fd), reply)
  }

  // ---------------------------------------------------------------------------
  // Interrupts and debouncing.

  /** `GetInterruptEdge`: the counter's edge, or BOTH for a line without a counter. */
  function GetInterruptEdge(l: Line): (e: Edge)
    ensures l.counter.None? ==> e == Both
    ensures l.counter.Some? ==> e == l.counter.value.edge
  {
    match l.counter
    case None => Both
    case Some(c) => C.GetInterruptEdge(c)
  }

  /**
   * `HandleInterrupt(edge, t)`: an event on the other edge than the line
   * listens to is skipped and changes nothing; any other event records `t`.
   */
  function HandleInterrupt(l: Line, e: Edge, t: int): (r: (InterruptStatus, Line))
    requires e != Both
    ensures r.0 == Skip <==> GetInterruptEdge(l) != Both && GetInterruptEdge(l) != e
    ensures r.0 == Skip ==> r.1 == l
    ensures r.0 == Handled ==> r.1 == l.(lastInterrupt := t)
  {
    var edge := GetInterruptEdge(l);
    if edge != Both && edge != e then (Skip, l)
    else (Handled, l.(lastInterrupt := t))
  }

  /**
   * `UpdateIfStable(now)`: once strictly more than the debounce timeout has
   * passed since the last interrupt, the unfiltered value becomes the value
   * and the counter counts one pulse with that interval; before that nothing
   * changes.
   */
  function UpdateIfStable(l: Line, now: int): (r: (bool, Line))
    ensures r.0 <==> now - l.lastInterrupt > l.config.debounceUs
    ensures !r.0 ==> r.1 == l
    ensures r.0 ==> r.1.value == l.unfiltered
    ensures r.0 ==> r.1 == l.(value := l.unfiltered, counter := r.1.counter)
    ensures r.0 ==> (r.1.counter.Some? <==> l.counter.Some?)
    ensures r.0 && l.counter.Some? ==>
      r.1.counter.value == l.counter.value.(counts := r.1.counter.value.counts, previousInterval := now - l.lastInterrupt)
    ensures r.0 && l.counter.Some? ==>
      r.1.counter.value.counts == (l.counter.value.counts + 1) % C.CountLimit
  {
    var elapsed := now - l.lastInterrupt;
    if elapsed > l.config.debounceUs then
      var counter := match l.counter
        case None => None
        case Some(c) => Some(C.HandleInterrupt(c, GetInterruptEdge(l), elapsed));
      (true, l.(value := l.unfiltered, counter := counter))
    else (false, l)
  }

  /** `SetCachedValueUnfiltered` after an interrupt: the raw level, not yet debounced. */
  function SetUnfiltered(l: Line, v: u8): (r: Line)
    ensures r.unfiltered == v && r == l.(unfiltered := v)
  {
    l.(unfiltered := v)
  }

  /** A rising event at `t` with raw level `v`, then a stability check at `now`. */
  function EventThenCheck(l: Line, v: u8, t: int, now: int): (bool, Line) {
    UpdateIfStable(SetUnfiltered(HandleInterrupt(l, Rising, t).1, v), now)
  }

  /**
   * On a line that listens to rising or both edges, a level held for just over
   * the debounce timeout is taken and counted once, and one checked a
   * microsecond before the timeout is not.
   */
  lemma {:induction false} DebounceBoundary(l: Line, v: u8, t: int)
    requires GetInterruptEdge(l) == Rising || GetInterruptEdge(l) == Both
    ensures EventThenCheck(l, v, t, t + l.config.debounceUs + 1).0
    ensures EventThenCheck(l, v, t, t + l.config.debounceUs + 1).1.value == v
    ensures l.counter.Some? ==>
      EventThenCheck(l, v, t, t + l.config.debounceUs + 1).1.counter.value.counts == (l.counter.value.counts + 1) % C.CountLimit
    ensures !EventThenCheck(l, v, t, t + l.config.debounceUs).0
    ensures EventThenCheck(l, v, t, t + l.config.debounceUs).1.value == l.value
    ensures EventThenCheck(l, v, t, t + l.config.debounceUs).1.counter == l.counter
  {
  }

  /** On a line that only counts falling edges a rising event is ignored: the last interrupt time stays. */
  lemma {:induction false} RisingSkippedOnFallingLine(l: Line, t: int)
    requires GetInterruptEdge(l) == Falling
    ensures HandleInterrupt(l, Rising, t) == (Skip, l)
  {
  }

  // ---------------------------------------------------------------------------
  // Writing and errors.

  /**
   * `SetValue(v)` on a handled output: with no error, the value is written
   * and cached, and a failed write (`writeErrno` non-zero) becomes the error;
   * with an error, nothing changes.
   */
  function SetValue(l: Line, v: u8, writeErrno: int): (r: Line)
    requires IsOutput(l) && IsHandled(l)
    ensures l.error != 0 ==> r == l
    ensures l.error == 0 ==> r.value == v
    ensures l.error == 0 ==> r.error == writeErrno
    ensures l.error == 0 ==> r == l.(value := v, error := writeErrno)
  {
    if l.error == 0 then
      var written := if writeErrno != 0 then l.(error := writeErrno) else l;
      written.(value := v)
    else l
  }

  function SetError(l: Line, err: int): (r: Line)
    ensures r.error == err && r == l.(error := err)
  {
    l.(error := err)
  }

  /** `ClearError`: no error afterwards; an output on an MCP23017 expander is flagged for re-initialisation. */
  function ClearError(l: Line): (r: Line)
    ensures r.error == 0
    ensures r.needReinit <==> l.needReinit || (IsOutput(l) && l.chipLabel == Mcp23017)
    ensures r == l.(error := 0, needReinit := r.needReinit)
  {
    var flagged := if IsOutput(l) && l.chipLabel == Mcp23017 then l.(needReinit := true) else l;
    flagged.(error := 0)
  }

  /** A write refused while in error goes through once the error is cleared and the write succeeds. */
  lemma {:induction false} SetValueAfterClear(l: Line, v: u8, err: int)
    requires IsOutput(l) && IsHandled(l) && err != 0
    ensures SetValue(SetError(l, err), v, 0).value == l.value
    ensures SetValue(ClearError(SetError(l, err)), v, 0).value == v
    ensures SetValue(ClearError(SetError(l, err)), v, 0).error == 0
  {
  }

  /**
   * `FdGet`: a failed read records `errno`; a successful read on a line in
   * error clears the error.
   */
  function FdGet(l: Line, readErrno: int): (r: Line)
    ensures readErrno != 0 ==> r == l.(error := readErrno)
    ensures readErrno == 0 ==> r.error == 0
    ensures readErrno == 0 && l.error == 0 ==> r == l
  {
    if readErrno != 0 then SetError(l, readErrno)
    else if l.error != 0 then ClearError(l)
    else l
  }
}

=== FILE: sorting.dfy ===
/**
 * The two stable insertion sorts the generator relies on: Python's
 * `sorted(names)` over child node names and `sorted(channels, key=order)`.
 */
module Sorting {
  import opened Strings

  predicate Distinct<T(==)>(s: seq<T>) {
    forall i, j :: 0 <= i < j < |s| ==> s[i] != s[j]
  }

  /** Concatenation regroups freely. */
  lemma {:induction false} ConcatAssoc<T>(a: seq<T>, x: seq<T>, y: seq<T>)
    ensures (a + x) + y == a + (x + y)
  {
  }

  /** A non-empty sequence is its front followed by its last element. */
  lemma {:induction false} SnocSplit<T>(xs: seq<T>)
    requires |xs| > 0
    ensures xs[..|xs| - 1] + [xs[|xs| - 1]] == xs
  {
  }

  lemma {:induction false} DistinctCounts<T>(s: seq<T>, v: T)
    requires Distinct(s)
    ensures multiset(s)[v] <= 1
    decreases |s|
  {
    if |s| > 0 {
      assert s == [s[0]] + s[1..];
      DistinctCounts(s[1..], v);
      if s[0] == v {
        assert v !in s[1..];
      }
    }
  }

  /** A permutation of a duplicate-free sequence is duplicate-free. */
  lemma {:induction false} DistinctPermutation<T>(s: seq<T>, r: seq<T>)
    requires Distinct(s) && multiset(r) == multiset(s)
    ensures Distinct(r)
  {
    forall i, j | 0 <= i < j < |r|
      ensures r[i] != r[j]
    {
      if r[i] == r[j] {
        assert r == r[..j] + r[j..];
        assert r[i] in multiset(r[..j]);
        assert r[j] in multiset(r[j..]);
        assert multiset(r)[r[i]] == multiset(r[..j])[r[i]] + multiset(r[j..])[r[i]];
        DistinctCounts(s, r[i]);
      }
    }
  }

  // ---------------------------------------------------------------------------
  // Names, in code-point order.

  predicate NamesSorted(s: seq<string>) {
    forall i, j :: 0 <= i < j < |s| ==> StrLe(s[i], s[j])
  }

  predicate NamesAscending(s: seq<string>) {
    forall i, j :: 0 <= i < j < |s| ==> StrLess(s[i], s[j])
  }

  function InsertName(x: string, s: seq<string>): (r: seq<string>)
    ensures multiset(r) == multiset(s) + multiset{x}
  {
    if |s| == 0 then [x]
    else if StrLess(s[0], x) then
      assert s == [s[0]] + s[1..];
      [s[0]] + InsertName(x, s[1..])
    else [x] + s
  }

  lemma {:induction false} InsertNameSorted(x: string, s: seq<string>)
    requires NamesSorted(s)
    ensures NamesSorted(InsertName(x, s))
    decreases |s|
  {
    if |s| > 0 {
      var r := InsertName(x, s);
      if StrLess(s[0], x) {
        InsertNameSorted(x, s[1..]);
        var tail := InsertName(x, s[1..]);
        forall k | 0 <= k < |tail|
          ensures StrLe(s[0], tail[k])
        {
          assert tail[k] in multiset(tail);
          if tail[k] == x {
            StrLessAsymmetric(s[0], x);
          } else {
            assert tail[k] in multiset(s[1..]);
            var m :| 0 <= m < |s[1..]| && s[1..][m] == tail[k];
            assert s[1 + m] == tail[k];
          }
        }
        assert r == [s[0]] + tail;
      } else {
        StrLessTotal(s[0], x);
        forall k | 0 <= k < |s|
          ensures StrLe(x, s[k])
        {
          if StrLess(s[k], x) {
            if x != s[0] {
              StrLessTransitive(s[k], x, s[0]);
            }
          }
        }
      }
    }
  }

  /** `sorted(names)`. */
  function SortNames(s: seq<string>): (r: seq<string>)
    ensures multiset(r) == multiset(s)
  {
    if |s| == 0 then []
    else
      assert s == [s[0]] + s[1..];
      InsertName(s[0], SortNames(s[1..]))
  }

  lemma {:induction false} SortNamesSorted(s: seq<string>)
    ensures NamesSorted(SortNames(s))
    decreases |s|
  {
    if |s| > 0 {
      SortNamesSorted(s[1..]);
      InsertNameSorted(s[0], SortNames(s[1..]));
    }
  }

  /** Sorting duplicate-free names yields a strictly ascending permutation of them. */
  lemma {:induction false} SortNamesAscending(s: seq<string>)
    requires Distinct(s)
    ensures NamesAscending(SortNames(s)) && multiset(SortNames(s)) == multiset(s)
  {
    var r := SortNames(s);
    SortNamesSorted(s);
    DistinctPermutation(s, r);
    forall i, j | 0 <= i < j < |r|
      ensures StrLess(r[i], r[j])
    {
      StrLessTotal(r[i], r[j]);
    }
  }

  // ---------------------------------------------------------------------------
  // Records, by an integer key, keeping equal keys in input order.

  predicate SortedByKey<T(==)>(s: seq<T>, key: T -> int) {
    forall i, j :: 0 <= i < j < |s| ==> key(s[i]) <= key(s[j])
  }

  /** The records of `s` whose key is `k`, in order. */
  function WithKey<T(==)>(s: seq<T>, key: T -> int, k: int): seq<T> {
    if |s| == 0 then []
    else (if key(s[0]) == k then [s[0]] else []) + WithKey(s[1..], key, k)
  }

  /** Places `x` in front of the first record whose key is not smaller. */
  function InsertByKey<T(==)>(x: T, s: seq<T>, key: T -> int): (r: seq<T>)
    ensures multiset(r) == multiset(s) + multiset{x}
  {
    if |s| == 0 then [x]
    else if key(s[0]) < key(x) then
      assert s == [s[0]] + s[1..];
      [s[0]] + InsertByKey(x, s[1..], key)
    else [x] + s
  }

  /** `sorted(s, key=key)`: Python's sort is stable. */
  function SortByKey<T(==)>(s: seq<T>, key: T -> int): (r: seq<T>)
    ensures multiset(r) == multiset(s)
  {
    if |s| == 0 then []
    else
      assert s == [s[0]] + s[1..];
      InsertByKey(s[0], SortByKey(s[1..], key), key)
  }

  /** A sorted sequence stays sorted behind a head whose key is no larger than any of its keys. */
  lemma {:induction false} ConsSortedByKey<T>(h: T, tail: seq<T>, key: T -> int)
    requires SortedByKey(tail, key)
    requires forall k :: 0 <= k < |tail| ==> key(h) <= key(tail[k])
    ensures SortedByKey([h] + tail, key)
  {
    var r := [h] + tail;
    forall i, j | 0 <= i < j < |r|
      ensures key(r[i]) <= key(r[j])
    {
      assert r[j] == tail[j - 1];
      if i > 0 {
        assert r[i] == tail[i - 1];
      }
    }
  }

  lemma {:induction false} InsertByKeySorted<T>(x: T, s: seq<T>, key: T -> int)
    requires SortedByKey(s, key)
    ensures SortedByKey(InsertByKey(x, s, key), key)
    decreases |s|
  {
    if |s| > 0 && key(s[0]) < key(x) {
      InsertByKeySorted(x, s[1..], key);
      var tail := InsertByKey(x, s[1..], key);
      forall k | 0 <= k < |tail|
        ensures key(s[0]) <= key(tail[k])
      {
        assert tail[k] in multiset(tail);
        if tail[k] != x {
          assert tail[k] in multiset(s[1..]);
          var m :| 0 <= m < |s[1..]| && s[1..][m] == tail[k];
          assert s[1 + m] == tail[k];
        }
      }
      assert SortedByKey(s[1..], key) by {
        forall i, j | 0 <= i < j < |s[1..]|
          ensures key(s[1..][i]) <= key(s[1..][j])
        {
          assert s[1..][i] == s[i + 1] && s[1..][j] == s[j + 1];
        }
      }
      ConsSortedByKey(s[0], tail, key);
    } else if |s| > 0 {
      ConsSortedByKey(x, s, key);
    }
  }

  /** Inserting `x` puts it among the records of its key exactly where it is inserted: in front of them all. */
  lemma {:induction false} InsertByKeyWithKey<T>(x: T, s: seq<T>, key: T -> int, k: int)
    ensures WithKey(InsertByKey(x, s, key), key, k) == (if key(x) == k then [x] else []) + WithKey(s, key, k)
    decreases |s|
  {
    if |s| > 0 && key(s[0]) < key(x) {
      InsertByKeyWithKey(x, s[1..], key, k);
      var tail := InsertByKey(x, s[1..], key);
      assert InsertByKey(x, s, key) == [s[0]] + tail;
      InsertBehindWithKey(x, s, tail, key, k);
    } else {
      InsertInFrontWithKey(x, s, key, k);
    }
  }

  /** `x` goes in front of `s`. */
  lemma {:induction false} InsertInFrontWithKey<T>(x: T, s: seq<T>, key: T -> int, k: int)
    requires |s| == 0 || key(x) <= key(s[0])
    ensures WithKey(InsertByKey(x, s, key), key, k) == (if key(x) == k then [x] else []) + WithKey(s, key, k)
  {
    var r := [x] + s;
    assert r == InsertByKey(x, s, key);
    assert r[0] == x && r[1..] == s;
  }

  /** `x` goes behind the first record, whose key is smaller and so not `x`'s key. */
  lemma {:induction false} InsertBehindWithKey<T>(x: T, s: seq<T>, tail: seq<T>, key: T -> int, k: int)
    requires |s| > 0 && key(s[0]) < key(x)
    requires WithKey(tail, key, k) == (if key(x) == k then [x] else []) + WithKey(s[1..], key, k)
    ensures WithKey([s[0]] + tail, key, k) == (if key(x) == k then [x] else []) + WithKey(s, key, k)
  {
    WithKeyCons(s[0], tail, key, k);
    assert s == [s[0]] + s[1..];
    WithKeyCons(s[0], s[1..], key, k);
    var rest := WithKey(s[1..], key, k);
    if key(s[0]) == k {
      assert key(x) != k;
      assert [] + rest == rest;
    } else {
      assert [] + WithKey(tail, key, k) == WithKey(tail, key, k);
      assert [] + rest == rest;
    }
  }

  lemma {:induction false} WithKeyCons<T>(h: T, t: seq<T>, key: T -> int, k: int)
    ensures WithKey([h] + t, key, k) == (if key(h) == k then [h] else []) + WithKey(t, key, k)
  {
    var r := [h] + t;
    assert r[0] == h && r[1..] == t;
  }

  /**
   * The sort is stable: sorted by key, a permutation of its input, and for
   * every key the records carrying it appear in their original order.
   */
  lemma {:induction false} SortByKeyStable<T>(s: seq<T>, key: T -> int)
    ensures SortedByKey(SortByKey(s, key), key)
    ensures multiset(SortByKey(s, key)) == multiset(s)
    ensures forall k :: WithKey(SortByKey(s, key), key, k) == WithKey(s, key, k)
    decreases |s|
  {
    if |s| > 0 {
      SortByKeyStable(s[1..], key);
      var rest := SortByKey(s[1..], key);
      InsertByKeySorted(s[0], rest, key);
      forall k
        ensures WithKey(SortByKey(s, key), key, k) == WithKey(s, key, k)
      {
        InsertByKeyWithKey(s[0], rest, key, k);
      }
    }
  }

  /** `a` precedes `b` by key, ties broken by ascending name. */
  predicate KeyNameBefore<T(==)>(a: T, b: T, key: T -> int, name: T -> string) {
    key(a) < key(b) || (key(a) == key(b) && StrLess(name(a), name(b)))
  }

  predicate KeyNameSorted<T(==)>(s: seq<T>, key: T -> int, name: T -> string) {
    forall i, j :: 0 <= i < j < |s| ==> KeyNameBefore(s[i], s[j], key, name)
  }

  predicate NamesAscendingBy<T(==)>(s: seq<T>, name: T -> string) {
    forall i, j :: 0 <= i < j < |s| ==> StrLess(name(s[i]), name(s[j]))
  }

  /** A key-and-name sorted sequence stays sorted behind a head that precedes each of its records. */
  lemma {:induction false} ConsKeyNameSorted<T>(h: T, tail: seq<T>, key: T -> int, name: T -> string)
    requires KeyNameSorted(tail, key, name)
    requires forall k :: 0 <= k < |tail| ==> KeyNameBefore(h, tail[k], key, name)
    ensures KeyNameSorted([h] + tail, key, name)
  {
    var r := [h] + tail;
    forall i, j | 0 <= i < j < |r|
      ensures KeyNameBefore(r[i], r[j], key, name)
    {
      assert r[j] == tail[j - 1];
      if i > 0 {
        assert r[i] == tail[i - 1];
      }
    }
  }

  lemma {:induction false} InsertByKeyNameSorted<T>(x: T, s: seq<T>, key: T -> int, name: T -> string)
    requires KeyNameSorted(s, key, name)
    requires forall k :: 0 <= k < |s| ==> StrLess(name(x), name(s[k]))
    ensures KeyNameSorted(InsertByKey(x, s, key), key, name)
    decreases |s|
  {
    if |s| > 0 {
      if key(s[0]) < key(x) {
        InsertByKeyNameSorted(x, s[1..], key, name);
        var tail := InsertByKey(x, s[1..], key);
        forall k | 0 <= k < |tail|
          ensures KeyNameBefore(s[0], tail[k], key, name)
        {
          assert tail[k] in multiset(tail);
          if tail[k] != x {
            assert tail[k] in multiset(s[1..]);
            var m :| 0 <= m < |s[1..]| && s[1..][m] == tail[k];
            assert s[1 + m] == tail[k];
          }
        }
        ConsKeyNameSorted(s[0], tail, key, name);
      } else {
        forall k | 0 <= k < |s|
          ensures KeyNameBefore(x, s[k], key, name)
        {
          if k > 0 {
            assert KeyNameBefore(s[0], s[k], key, name);
          }
        }
        ConsKeyNameSorted(x, s, key, name);
      }
    }
  }

  /**
   * Stable sorting of records whose names ascend leaves records of equal key
   * in ascending name order.
   */
  lemma {:induction false} SortByKeyTiesByName<T>(s: seq<T>, key: T -> int, name: T -> string)
    requires NamesAscendingBy(s, name)
    ensures KeyNameSorted(SortByKey(s, key), key, name)
    decreases |s|
  {
    if |s| > 0 {
      SortByKeyTiesByName(s[1..], key, name);
      var rest := SortByKey(s[1..], key);
      forall k | 0 <= k < |rest|
        ensures StrLess(name(s[0]), name(rest[k]))
      {
        assert rest[k] in multiset(rest);
        assert rest[k] in multiset(s[1..]);
        var m :| 0 <= m < |s[1..]| && s[1..][m] == rest[k];
        assert s[1 + m] == rest[k];
      }
      InsertByKeyNameSorted(s[0], rest, key, name);
    }
  }
}

=== FILE: strings.dfy ===
/**
 * Text helpers shared by the generator and the daemon: decimal rendering and
 * parsing of non-negative integers, prefix and substring search, and the
 * code-point lexicographic order that Python's `sorted` and `std::string`
 * comparison both use.
 */
module Strings {
  import opened Wrappers

  predicate IsDigit(c: char) {
    '0' <= c <= '9'
  }

  predicate AllDigits(s: string) {
    forall i :: 0 <= i < |s| ==> IsDigit(s[i])
  }

  function DigitChar(d: nat): (c: char)
    requires d < 10
    ensures IsDigit(c)
  {
    ('0' as int + d) as char
  }

  function DigitValue(c: char): (d: nat)
    requires IsDigit(c)
    ensures d < 10
  {
    c as int - '0' as int
  }

  /** Decimal rendering without sign or leading zeros (`std::to_string`, Python `str`). */
  function NatToString(n: nat): (s: string)
    ensures |s| > 0 && AllDigits(s)
    ensures |s| > 1 ==> s[0] != '0'
    decreases n
  {
    if n < 10 then [DigitChar(n)] else NatToString(n / 10) + [DigitChar(n % 10)]
  }

  /** The number a string of decimal digits denotes. */
  function DigitsValue(s: string): nat
    requires AllDigits(s)
  {
    if |s| == 0 then 0 else DigitsValue(s[..|s| - 1]) * 10 + DigitValue(s[|s| - 1])
  }

  lemma {:induction false} DigitsValueOfNatToString(n: nat)
    ensures DigitsValue(NatToString(n)) == n
    decreases n
  {
    if n >= 10 {
      var s := NatToString(n);
      assert s[..|s| - 1] == NatToString(n / 10);
      DigitsValueOfNatToString(n / 10);
    }
  }

  /** Distinct numbers render as distinct strings. */
  lemma {:induction false} NatToStringInjective(a: nat, b: nat)
    ensures NatToString(a) == NatToString(b) <==> a == b
  {
    DigitsValueOfNatToString(a);
    DigitsValueOfNatToString(b);
  }

  /**
   * Python `int(text)` restricted to plain digit strings: `None` where Python
   * raises `ValueError`.
   */
  function ParseDecimal(s: string): (r: Option<nat>)
    ensures r.Some? <==> |s| > 0 && AllDigits(s)
  {
    if |s| > 0 && AllDigits(s) then Some(DigitsValue(s)) else None
  }

  lemma {:induction false} ParseDecimalOfNatToString(n: nat)
    ensures ParseDecimal(NatToString(n)) == Some(n)
  {
    DigitsValueOfNatToString(n);
  }

  /** The longest prefix of `s` made of decimal digits (where `std::stoul` stops reading). */
  function LeadingDigits(s: string): (p: string)
    ensures |p| <= |s| && p == s[..|p|]
    ensures AllDigits(p)
    ensures |p| < |s| ==> !IsDigit(s[|p|])
  {
    if |s| == 0 || !IsDigit(s[0]) then [] else [s[0]] + LeadingDigits(s[1..])
  }

  predicate StartsWith(s: string, prefix: string) {
    |prefix| <= |s| && s[..|prefix|] == prefix
  }

  predicate OccursAt(s: string, pattern: string, i: nat) {
    i + |pattern| <= |s| && s[i..i + |pattern|] == pattern
  }

  /** `std::string::find(pattern, from)`: the first position at or after `from` where `pattern` occurs. */
  function FindFrom(s: string, pattern: string, from: nat): (r: Option<nat>)
    requires from <= |s|
    ensures r.Some? ==> from <= r.value && OccursAt(s, pattern, r.value)
    ensures r.Some? ==> forall k :: from <= k < r.value ==> !OccursAt(s, pattern, k)
    ensures r.None? ==> forall k :: from <= k ==> !OccursAt(s, pattern, k)
    decreases |s| - from
  {
    if OccursAt(s, pattern, from) then Some(from)
    else if from + |pattern| >= |s| then None
    else FindFrom(s, pattern, from + 1)
  }

  function Find(s: string, pattern: string): (r: Option<nat>)
    ensures r.Some? <==> exists k :: OccursAt(s, pattern, k)
    ensures r.Some? ==> OccursAt(s, pattern, r.value) && forall k :: 0 <= k < r.value ==> !OccursAt(s, pattern, k)
  {
    FindFrom(s, pattern, 0)
  }

  predicate Contains(s: string, pattern: string) {
    Find(s, pattern).Some?
  }

  /** A string starts with `prefix` exactly when `find(prefix) == 0`. */
  lemma {:induction false} FindZeroIsPrefix(s: string, prefix: string)
    ensures Find(s, prefix) == Some(0) <==> StartsWith(s, prefix)
  {
    if StartsWith(s, prefix) {
      assert OccursAt(s, prefix, 0);
    }
  }

  /** Code-point lexicographic order: a proper prefix sorts first. */
  predicate StrLess(a: string, b: string)
    decreases |a|
  {
    if |a| == 0 then |b| > 0
    else if |b| == 0 then false
    else if a[0] != b[0] then a[0] < b[0]
    else StrLess(a[1..], b[1..])
  }

  predicate StrLe(a: string, b: string) {
    !StrLess(b, a)
  }

  lemma {:induction false} StrLessIrreflexive(a: string)
    ensures !StrLess(a, a)
    decreases |a|
  {
    if |a| > 0 {
      StrLessIrreflexive(a[1..]);
    }
  }

  lemma {:induction false} StrLessTransitive(a: string, b: string, c: string)
    requires StrLess(a, b) && StrLess(b, c)
    ensures StrLess(a, c)
    decreases |a|
  {
    if |a| > 0 && |b| > 0 && |c| > 0 && a[0] == b[0] && b[0] == c[0] {
      StrLessTransitive(a[1..], b[1..], c[1..]);
    }
  }

  lemma {:induction false} StrLessTotal(a: string, b: string)
    ensures a == b || StrLess(a, b) || StrLess(b, a)
    decreases |a|
  {
    if |a| > 0 && |b| > 0 && a[0] == b[0] {
      StrLessTotal(a[1..], b[1..]);
      if a[1..] == b[1..] {
        assert a == [a[0]] + a[1..] && b == [b[0]] + b[1..];
      }
    }
  }

  lemma {:induction false} StrLessAsymmetric(a: string, b: string)
    requires StrLess(a, b)
    ensures !StrLess(b, a)
  {
    if StrLess(b, a) {
      StrLessTransitive(a, b, a);
      StrLessIrreflexive(a);
    }
  }
}

=== FILE: sysfs.dfy ===
/**
 * Chip paths and legacy sysfs GPIO numbers (`Utils` in the daemon).
 *
 * Every chip occupies the half-open range `[base, base + lineCount)` of
 * sysfs numbers, computed in 32-bit unsigned arithmetic. The ranges live in
 * an ordered set whose comparator orders ranges by position; lookups by
 * sysfs number and by chip number are lower-bound searches in that order.
 * The chip listing the mappings are built from is an injected value.
 */
module Sysfs {
  import opened Wrappers
  import opened Strings

  const U32Limit: nat := 0x1_0000_0000
  const U64Limit: nat := 0x1_0000_0000_0000_0000

  type u32 = x: int | 0 <= x < 0x1_0000_0000

  /** `uint32_t` addition and subtraction. */
  function Add32(a: u32, b: u32): u32 {
    (a + b) % U32Limit
  }

  function Sub32(a: u32, b: u32): u32 {
    (a - b) % U32Limit
  }

  const ChipPathPrefix: string := "/dev/gpiochip"
  const ChipNamePrefix: string := "gpiochip"

  datatype SysfsError =
    | PathTooShort(path: string)        // std::out_of_range from substr
    | NoDigits(path: string)            // std::invalid_argument from stoul
    | NumberTooLarge(path: string)      // std::out_of_range from stoul
    | ScandirFailed(dir: string)
    | NotExactlyOneChip(count: nat)
    | UnknownLabel(text: string)
    | GpioOutOfRange(gpio: u32)
    | ChipOutOfRange(chip: u32)

  /** `GpioChipNumberToPath`. */
  function GpioChipNumberToPath(n: u32): (p: string)
    ensures StartsWith(p, ChipPathPrefix) && |p| > |ChipPathPrefix|
  {
    ChipPathPrefix + NatToString(n)
  }

  /**
   * `GpioPathToChipNumber`: skips 13 characters and reads the decimal digits
   * that follow as an `unsigned long`, then truncates to 32 bits.
   */
  function GpioPathToChipNumber(path: string): (r: Result<u32, SysfsError>)
    ensures |path| < |ChipPathPrefix| ==> r == Failure(PathTooShort(path))
    ensures r.Success? ==> |LeadingDigits(path[|ChipPathPrefix|..])| > 0
    ensures r.Success? ==> r.value == DigitsValue(LeadingDigits(path[|ChipPathPrefix|..])) % U32Limit
    ensures (|path| >= |ChipPathPrefix| && |LeadingDigits(path[|ChipPathPrefix|..])| > 0 &&
      DigitsValue(LeadingDigits(path[|ChipPathPrefix|..])) < U64Limit) ==> r.Success?
  {
    if |path| < |ChipPathPrefix| then Failure(PathTooShort(path))
    else
      var digits := LeadingDigits(path[|ChipPathPrefix|..]);
      if |digits| == 0 then Failure(NoDigits(path))
      else if DigitsValue(digits) >= U64Limit then Failure(NumberTooLarge(path))
      else Success(DigitsValue(digits) % U32Limit)
  }

  lemma {:induction false} LeadingDigitsOfDigits(s: string)
    requires AllDigits(s)
    ensures LeadingDigits(s) == s
  {
  }

  /** The path of chip `n` names chip `n`. */
  lemma {:induction false} ChipPathRoundTrip(n: u32)
    ensures GpioPathToChipNumber(GpioChipNumberToPath(n)) == Success(n)
  {
    var p := GpioChipNumberToPath(n);
    assert p[|ChipPathPrefix|..] == NatToString(n);
    LeadingDigitsOfDigits(NatToString(n));
    DigitsValueOfNatToString(n);
  }

  /** `chip_filter`: `find("gpiochip") == 0`. */
  predicate ChipFilter(name: string) {
    Find(name, ChipNamePrefix) == Some(0)
  }

  lemma {:induction false} ChipFilterIsPrefix(name: string)
    ensures ChipFilter(name) <==> StartsWith(name, ChipNamePrefix)
  {
    FindZeroIsPrefix(name, ChipNamePrefix);
  }

  function FilterChips(names: seq<string>): (r: seq<string>)
    ensures forall x :: x in r <==> x in names && ChipFilter(x)
  {
    if |names| == 0 then []
    else (if ChipFilter(names[0]) then [names[0]] else []) + FilterChips(names[1..])
  }

  /**
   * The chip number of a sysfs chip entry, read from the one `gpiochip*`
   * entry of its `device` directory (`None` when the directory cannot be
   * scanned).
   */
  function DeviceChipNumber(deviceDir: Option<seq<string>>): (r: Result<u32, SysfsError>)
    ensures deviceDir.None? ==> r.Failure?
    ensures deviceDir.Some? && |FilterChips(deviceDir.value)| != 1 ==> r == Failure(NotExactlyOneChip(|FilterChips(deviceDir.value)|))
  {
    match deviceDir
    case None => Failure(ScandirFailed("device"))
    case Some(names) =>
      var chips := FilterChips(names);
      if |chips| != 1 then Failure(NotExactlyOneChip(|chips|))
      else GpioPathToChipNumber("/dev/" + chips[0])
  }

  /** A device directory holding the single entry `gpiochip<n>` yields `n`. */
  lemma {:induction false} DeviceChipNumberOfSingle(names: seq<string>, n: u32)
    requires FilterChips(names) == [ChipNamePrefix + NatToString(n)]
    ensures DeviceChipNumber(Some(names)) == Success(n)
  {
    var chip := FilterChips(names)[0];
    assert DeviceChipNumber(Some(names)) == GpioPathToChipNumber("/dev/" + chip);
    DevPathOfName(NatToString(n));
    assert "/dev/" + chip == GpioChipNumberToPath(n);
    ChipPathRoundTrip(n);
  }

  /** The device node of entry `gpiochip<s>` is `/dev/gpiochip<s>`. */
  lemma {:induction false} DevPathOfName(s: string)
    ensures "/dev/" + (ChipNamePrefix + s) == ChipPathPrefix + s
  {
    assert "/dev/" + ChipNamePrefix == ChipPathPrefix;
    assert "/dev/" + (ChipNamePrefix + s) == ("/dev/" + ChipNamePrefix) + s;
  }

  // ---------------------------------------------------------------------------
  // Ranges.

  /** What the mappings learn about one chip: its number, legacy base, line count and label. */
  datatype ChipInfo = ChipInfo(number: u32, base: u32, lineCount: u32, chipLabel: string)

  /** `TRange`: a chip number with the sysfs numbers `[begin, end)`. */
  datatype Range = Range(chip: u32, begin: u32, end: u32)

  /** `TRange(chip, base)`: the end is computed in 32 bits and may wrap. */
  function RangeOf(c: ChipInfo): Range {
    Range(c.number, c.base, Add32(c.base, c.lineCount))
  }

  /** `TGpioRange::InRange`. */
  predicate InRange(r: Range, g: u32) {
    r.begin <= g < r.end
  }

  /** Without wrap-around a chip's range is exactly `[base, base + lineCount)`. */
  lemma {:induction false} RangeOfCovers(c: ChipInfo, g: u32)
    requires c.base + c.lineCount < U32Limit
    ensures InRange(RangeOf(c), g) <==> c.base <= g < c.base + c.lineCount
  {
  }

  /** A range whose end wraps past 2^32 holds no number at all. */
  lemma {:induction false} RangeOfWrapped(c: ChipInfo, g: u32)
    requires c.base + c.lineCount >= U32Limit && c.lineCount > 0
    ensures !InRange(RangeOf(c), g)
  {
  }

  /** `TRangeCompare` on two full ranges: `a` lies entirely below `b`. */
  predicate Below(a: Range, b: Range) {
    a.end <= b.begin
  }

  predicate Proper(r: Range) {
    r.begin <= r.end
  }

  /** The set's order: each range lies entirely below every later one. */
  predicate Ordered(s: seq<Range>) {
    (forall i :: 0 <= i < |s| ==> Proper(s[i])) &&
    forall i, j :: 0 <= i < j < |s| ==> Below(s[i], s[j])
  }

  predicate Overlap(a: Range, b: Range) {
    !Below(a, b) && !Below(b, a)
  }

  /**
   * `std::set::insert`: placed in front of the first range not below it,
   * unless that range is equivalent to it (they overlap), in which case the
   * set is unchanged.
   */
  function InsertRange(s: seq<Range>, r: Range): (t: seq<Range>)
    ensures forall x :: x in t ==> x in s || x == r
    ensures forall x :: x in s ==> x in t
  {
    if |s| == 0 then [r]
    else if Below(s[0], r) then [s[0]] + InsertRange(s[1..], r)
    else if Below(r, s[0]) then [r] + s
    else s
  }

  /** Insertion keeps the order, and adds the range exactly when it overlaps no member. */
  lemma {:induction false} InsertRangeOrdered(s: seq<Range>, r: Range)
    requires Ordered(s) && Proper(r)
    ensures Ordered(InsertRange(s, r))
    ensures r in InsertRange(s, r) <==> r in s || forall i :: 0 <= i < |s| ==> !Overlap(s[i], r)
    decreases |s|
  {
    if |s| > 0 {
      if Below(s[0], r) {
        InsertRangeOrdered(s[1..], r);
        var t := InsertRange(s, r);
        var tail := InsertRange(s[1..], r);
        assert t == [s[0]] + tail;
        forall k | 0 <= k < |tail|
          ensures Below(s[0], tail[k])
        {
          assert tail[k] in tail;
          if tail[k] != r {
            assert tail[k] in s[1..];
            var q :| 0 <= q < |s[1..]| && s[1..][q] == tail[k];
            assert Below(s[0], s[1 + q]);
          }
        }
        assert !Overlap(s[0], r);
        if r !in s && forall i :: 0 <= i < |s[1..]| ==> !Overlap(s[1..][i], r) {
          forall i | 0 <= i < |s|
            ensures !Overlap(s[i], r)
          {
            if i > 0 {
              assert s[i] == s[1..][i - 1];
            }
          }
        }
      } else if Below(r, s[0]) {
        forall i | 0 <= i < |s|
          ensures !Overlap(s[i], r) && Below(r, s[i])
        {
          if i > 0 {
            assert Below(s[0], s[i]);
          }
        }
      }
    }
  }

  // ---------------------------------------------------------------------------
  // Mappings.

  /** The module-level state: the range set, the label map and the two flags. */
  datatype Mappings = Mappings(ranges: seq<Range>, labels: map<string, u32>, ready: bool, cleared: bool)

  const Fresh: Mappings := Mappings([], map[], false, false)

  /** The range of every chip, in order. */
  function ChipRanges(chips: seq<ChipInfo>): (r: seq<Range>)
    ensures |r| == |chips| && forall i :: 0 <= i < |chips| ==> r[i] == RangeOf(chips[i])
  {
    seq(|chips|, i requires 0 <= i < |chips| => RangeOf(chips[i]))
  }

  /**
   * `EnsureMappingsAreReady`'s range part: each chip's range inserted in turn. The
   * set keeps what it had, gains only chip ranges, and stays ordered.
   */
  function BuildRanges(s: seq<Range>, chips: seq<ChipInfo>): (t: seq<Range>)
    ensures forall x :: x in s ==> x in t
    ensures forall x :: x in t ==> x in s || x in ChipRanges(chips)
    ensures Ordered(s) && (forall i :: 0 <= i < |chips| ==> Proper(RangeOf(chips[i]))) ==> Ordered(t)
    decreases |chips|
  {
    if |chips| == 0 then s
    else
      var next := InsertRange(s, RangeOf(chips[0]));
      assert Ordered(s) && Proper(RangeOf(chips[0])) ==> Ordered(next) by {
        if Ordered(s) && Proper(RangeOf(chips[0])) {
          InsertRangeOrdered(s, RangeOf(chips[0]));
        }
      }
      assert ChipRanges(chips) == [RangeOf(chips[0])] + ChipRanges(chips[1..]);
      assert forall i :: 0 <= i < |chips[1..]| ==> chips[1..][i] == chips[i + 1];
      BuildRanges(next, chips[1..])
  }

  function BuildLabels(m: map<string, u32>, chips: seq<ChipInfo>): (r: map<string, u32>)
    ensures forall l :: l in r <==> l in m || exists i :: 0 <= i < |chips| && chips[i].chipLabel == l
    decreases |chips|
  {
    if |chips| == 0 then m else BuildLabels(m[chips[0].chipLabel := chips[0].number], chips[1..])
  }

  /** The lbl map records, for each label, the number of the last chip carrying it. */
  lemma {:induction false} BuildLabelsLastWins(m: map<string, u32>, chips: seq<ChipInfo>, i: nat)
    requires i < |chips|
    requires forall j :: i < j < |chips| ==> chips[j].chipLabel != chips[i].chipLabel
    ensures BuildLabels(m, chips)[chips[i].chipLabel] == chips[i].number
    decreases |chips|
  {
    if i == 0 {
      BuildLabelsKeeps(m[chips[0].chipLabel := chips[0].number], chips[1..], chips[0].chipLabel);
    } else {
      BuildLabelsLastWins(m[chips[0].chipLabel := chips[0].number], chips[1..], i - 1);
    }
  }

  lemma {:induction false} BuildLabelsKeeps(m: map<string, u32>, chips: seq<ChipInfo>, l: string)
    requires l in m && forall j :: 0 <= j < |chips| ==> chips[j].chipLabel != l
    ensures BuildLabels(m, chips)[l] == m[l]
    decreases |chips|
  {
    if |chips| > 0 {
      BuildLabelsKeeps(m[chips[0].chipLabel := chips[0].number], chips[1..], l);
    }
  }

  /** `EnsureMappingsAreReady`: builds the mappings from the chip listing once. */
  function EnsureReady(m: Mappings, chips: seq<ChipInfo>): (r: Mappings)
    requires !m.cleared
    ensures r.ready && !r.cleared
    ensures m.ready ==> r == m
  {
    if m.ready then m
    else Mappings(BuildRanges(m.ranges, chips), BuildLabels(m.labels, chips), true, false)
  }

  /** A second call is a no-op whatever the listing says by then. */
  lemma {:induction false} EnsureReadyIdempotent(m: Mappings, chips: seq<ChipInfo>, later: seq<ChipInfo>)
    requires !m.cleared
    ensures EnsureReady(EnsureReady(m, chips), later) == EnsureReady(m, chips)
  {
  }

  /** `ClearMappingCache`: after it, the mappings may not be used again. */
  function ClearMappingCache(m: Mappings): (r: Mappings)
    ensures r.cleared && !r.ready && |r.ranges| == 0 && |r.labels| == 0
  {
    Mappings([], map[], false, true)
  }

  /** `GpioChipLabelToNumber`. */
  function GpioChipLabelToNumber(m: Mappings, chips: seq<ChipInfo>, lbl: string): (r: (Mappings, Result<u32, SysfsError>))
    requires !m.cleared
    ensures r.0 == EnsureReady(m, chips)
    ensures r.1.Success? <==> lbl in r.0.labels
    ensures r.1.Success? ==> r.1.value == r.0.labels[lbl]
  {
    var ready := EnsureReady(m, chips);
    if lbl in ready.labels then (ready, Success(ready.labels[lbl]))
    else (ready, Failure(UnknownLabel(lbl)))
  }

  // ---------------------------------------------------------------------------
  // Lookups as written.

  /**
   * `ChipSet.find(TGpioRange(g, g))`: the lower bound is the first range
   * whose end exceeds `g`; the equivalence test then compares that range
   * with itself (both casts in the comparator's second branch are of `b`),
   * so it accepts any non-empty range without checking `begin <= g`.
   */
  function FindByGpio(s: seq<Range>, g: u32): (r: Option<Range>)
    ensures r.Some? ==> r.value in s && g < r.value.end && r.value.begin < r.value.end
  {
    if |s| == 0 then None
    else if s[0].end <= g then FindByGpio(s[1..], g)
    else if s[0].end <= s[0].begin then None
    else Some(s[0])
  }

  /** The lookup finds the lower bound for `g` exactly when that range is non-empty. */
  lemma {:induction false} FindByGpioLowerBound(s: seq<Range>, g: u32)
    ensures FindByGpio(s, g).Some? <==> exists i :: 0 <= i < |s| && LowerBoundGpio(s, g, i) && s[i].begin < s[i].end
    ensures FindByGpio(s, g).Some? ==> exists i :: 0 <= i < |s| && LowerBoundGpio(s, g, i) && s[i] == FindByGpio(s, g).value
    decreases |s|
  {
    if |s| > 0 {
      if s[0].end <= g {
        FindByGpioLowerBound(s[1..], g);
        forall i | 1 <= i < |s|
          ensures LowerBoundGpio(s, g, i) <==> LowerBoundGpio(s[1..], g, i - 1)
        {
          if LowerBoundGpio(s[1..], g, i - 1) {
            forall k | 0 <= k < i
              ensures s[k].end <= g
            {
              if k > 0 {
                assert s[k] == s[1..][k - 1];
              }
            }
          }
        }
        if exists i :: 0 <= i < |s| && LowerBoundGpio(s, g, i) && s[i].begin < s[i].end {
          var i :| 0 <= i < |s| && LowerBoundGpio(s, g, i) && s[i].begin < s[i].end;
          assert i != 0;
          assert LowerBoundGpio(s[1..], g, i - 1);
        }
        if FindByGpio(s, g).Some? {
          var i :| 0 <= i < |s[1..]| && LowerBoundGpio(s[1..], g, i) && s[1..][i] == FindByGpio(s, g).value;
          assert LowerBoundGpio(s, g, i + 1);
        }
      } else {
        assert LowerBoundGpio(s, g, 0);
        forall i | 0 <= i < |s| && LowerBoundGpio(s, g, i)
          ensures i == 0
        {
        }
      }
    }
  }

  /** Index `i` is the first range whose end exceeds `g`. */
  predicate LowerBoundGpio(s: seq<Range>, g: u32, i: nat) {
    i < |s| && g < s[i].end && forall k :: 0 <= k < i ==> s[k].end <= g
  }

  /** `FromSysfsGpio`: the found chip and `g - begin` in 32 bits. */
  function FromSysfsGpio(s: seq<Range>, g: u32): (r: Result<(u32, u32), SysfsError>)
    ensures r.Success? <==> FindByGpio(s, g).Some?
    ensures r.Success? ==> r.value == (FindByGpio(s, g).value.chip, Sub32(g, FindByGpio(s, g).value.begin))
  {
    match FindByGpio(s, g)
    case None => Failure(GpioOutOfRange(g))
    case Some(range) => Success((range.chip, Sub32(g, range.begin)))
  }

  /**
   * `ChipSet.find(TChipRange(n))`: the lower bound is the first range whose
   * chip number is not below `n`; the equivalence test again only asks for a
   * non-empty range.
   */
  function FindByChip(s: seq<Range>, n: u32): (r: Option<Range>)
    ensures r.Some? ==> r.value in s && n <= r.value.chip && r.value.begin < r.value.end
  {
    if |s| == 0 then None
    else if s[0].chip < n then FindByChip(s[1..], n)
    else if s[0].end <= s[0].begin then None
    else Some(s[0])
  }

  /** The lookup finds the first range whose chip is not below `n` exactly when that range is non-empty. */
  lemma {:induction false} FindByChipLowerBound(s: seq<Range>, n: u32)
    ensures FindByChip(s, n).Some? <==> exists i :: 0 <= i < |s| && LowerBoundChip(s, n, i) && s[i].begin < s[i].end
    ensures FindByChip(s, n).Some? ==> exists i :: 0 <= i < |s| && LowerBoundChip(s, n, i) && s[i] == FindByChip(s, n).value
    decreases |s|
  {
    if |s| > 0 {
      if s[0].chip < n {
        FindByChipLowerBound(s[1..], n);
        forall i | 1 <= i < |s|
          ensures LowerBoundChip(s, n, i) <==> LowerBoundChip(s[1..], n, i - 1)
        {
          if LowerBoundChip(s[1..], n, i - 1) {
            forall k | 0 <= k < i
              ensures s[k].chip < n
            {
              if k > 0 {
                assert s[k] == s[1..][k - 1];
              }
            }
          }
        }
        if exists i :: 0 <= i < |s| && LowerBoundChip(s, n, i) && s[i].begin < s[i].end {
          var i :| 0 <= i < |s| && LowerBoundChip(s, n, i) && s[i].begin < s[i].end;
          assert i != 0;
          assert LowerBoundChip(s[1..], n, i - 1);
        }
        if FindByChip(s, n).Some? {
          var i :| 0 <= i < |s[1..]| && LowerBoundChip(s[1..], n, i) && s[1..][i] == FindByChip(s, n).value;
          assert LowerBoundChip(s, n, i + 1);
        }
      } else {
        assert LowerBoundChip(s, n, 0);
        forall i | 0 <= i < |s| && LowerBoundChip(s, n, i)
          ensures i == 0
        {
        }
      }
    }
  }

  /** Index `i` is the first range whose chip number is not below `n`. */
  predicate LowerBoundChip(s: seq<Range>, n: u32, i: nat) {
    i < |s| && n <= s[i].chip && forall k :: 0 <= k < i ==> s[k].chip < n
  }

  /** `ToSysfsGpio` for a line at `offset` on chip `n`: the found range's begin plus the offset, in 32 bits. */
  function ToSysfsGpio(s: seq<Range>, n: u32, offset: u32): (r: Result<u32, SysfsError>)
    ensures r.Success? <==> FindByChip(s, n).Some?
    ensures r.Success? ==> r.value == Add32(FindByChip(s, n).value.begin, offset)
  {
    match FindByChip(s, n)
    case None => Failure(ChipOutOfRange(n))
    case Some(range) => Success(Add32(range.begin, offset))
  }

  // ---------------------------------------------------------------------------
  // Lookups as intended.

  /** The range that holds `g`, if any. */
  function FindContaining(s: seq<Range>, g: u32): (r: Option<Range>)
    ensures r.Some? ==> r.value in s && InRange(r.value, g)
    ensures r.None? ==> forall i :: 0 <= i < |s| ==> !InRange(s[i], g)
  {
    if |s| == 0 then None
    else if InRange(s[0], g) then Some(s[0])
    else
      var r := FindContaining(s[1..], g);
      assert forall i :: 1 <= i < |s| ==> s[i] == s[1..][i - 1];
      r
  }

  /** `FromSysfsGpio` as intended: a number outside every range is rejected. */
  function FromSysfsGpioChecked(s: seq<Range>, g: u32): (r: Result<(u32, u32), SysfsError>)
    ensures r.Failure? <==> forall i :: 0 <= i < |s| ==> !InRange(s[i], g)
    ensures r.Success? ==> exists i :: 0 <= i < |s| && InRange(s[i], g) && r.value == (s[i].chip, g - s[i].begin)
  {
    match FindContaining(s, g)
    case None => Failure(GpioOutOfRange(g))
    case Some(range) =>
      var i :| 0 <= i < |s| && s[i] == range;
      Success((range.chip, Sub32(g, range.begin)))
  }

  /** The range of chip `n`, if any. */
  function FindChip(s: seq<Range>, n: u32): (r: Option<Range>)
    ensures r.Some? ==> r.value in s && r.value.chip == n
    ensures r.None? ==> forall i :: 0 <= i < |s| ==> s[i].chip != n
  {
    if |s| == 0 then None
    else if s[0].chip == n then Some(s[0])
    else
      var r := FindChip(s[1..], n);
      assert forall i :: 1 <= i < |s| ==> s[i] == s[1..][i - 1];
      r
  }

  /** `ToSysfsGpio` as intended: the begin of chip `n`'s own range plus the offset. */
  function ToSysfsGpioChecked(s: seq<Range>, n: u32, offset: u32): (r: Result<u32, SysfsError>)
    ensures r.Failure? <==> forall i :: 0 <= i < |s| ==> s[i].chip != n
    ensures r.Success? ==> exists i :: 0 <= i < |s| && s[i].chip == n && r.value == Add32(s[i].begin, offset)
  {
    match FindChip(s, n)
    case None => Failure(ChipOutOfRange(n))
    case Some(range) =>
      var i :| 0 <= i < |s| && s[i] == range;
      Success(Add32(range.begin, offset))
  }

  /** Chip numbers are unique in the set. */
  predicate UniqueChips(s: seq<Range>) {
    forall i, j :: 0 <= i < j < |s| ==> s[i].chip != s[j].chip
  }

  /** In ordered disjoint ranges, at most one range holds a given number. */
  lemma {:induction false} OrderedContainingUnique(s: seq<Range>, g: u32, i: nat, j: nat)
    requires Ordered(s) && i < |s| && j < |s| && InRange(s[i], g) && InRange(s[j], g)
    ensures i == j
  {
  }

  /**
   * The intended round trip: with ordered disjoint ranges and unique chip
   * numbers, the sysfs number of line `offset` of chip `n` converts back to
   * `(n, offset)`.
   */
  lemma {:induction false} SysfsRoundTripChecked(s: seq<Range>, k: nat, offset: u32)
    requires Ordered(s) && UniqueChips(s) && k < |s| && offset < s[k].end - s[k].begin
    ensures ToSysfsGpioChecked(s, s[k].chip, offset).Success?
    ensures FromSysfsGpioChecked(s, ToSysfsGpioChecked(s, s[k].chip, offset).value) == Success((s[k].chip, offset))
  {
    ToSysfsGpioCheckedAt(s, k, offset);
    FromSysfsGpioCheckedAt(s, k, s[k].begin + offset);
  }

  /** With unique chip numbers, chip `s[k].chip`'s line `offset` gets the number `begin + offset`. */
  lemma {:induction false} ToSysfsGpioCheckedAt(s: seq<Range>, k: nat, offset: u32)
    requires UniqueChips(s) && k < |s| && s[k].begin <= s[k].end && offset < s[k].end - s[k].begin
    ensures ToSysfsGpioChecked(s, s[k].chip, offset) == Success(s[k].begin + offset)
  {
    var g := ToSysfsGpioChecked(s, s[k].chip, offset).value;
    var i :| 0 <= i < |s| && s[i].chip == s[k].chip && g == Add32(s[i].begin, offset);
    assert i == k;
  }

  /** On an ordered set, a number inside range `k` maps to that range's chip and offset. */
  lemma {:induction false} FromSysfsGpioCheckedAt(s: seq<Range>, k: nat, g: u32)
    requires Ordered(s) && k < |s| && InRange(s[k], g)
    ensures FromSysfsGpioChecked(s, g) == Success((s[k].chip, g - s[k].begin))
  {
    var r := FromSysfsGpioChecked(s, g);
    var j :| 0 <= j < |s| && InRange(s[j], g) && r.value == (s[j].chip, g - s[j].begin);
    OrderedContainingUnique(s, g, j, k);
  }

  /** On ordered ranges the lower-bound search finds the range that holds the number. */
  lemma {:induction false} FindByGpioInRange(s: seq<Range>, g: u32, k: nat)
    requires Ordered(s) && k < |s| && InRange(s[k], g)
    ensures FindByGpio(s, g) == Some(s[k])
  {
    assert LowerBoundGpio(s, g, k) by {
      forall i | 0 <= i < k
        ensures s[i].end <= g
      {
        assert Below(s[i], s[k]);
      }
    }
    FindByGpioLowerBound(s, g);
    var i :| 0 <= i < |s| && LowerBoundGpio(s, g, i) && s[i] == FindByGpio(s, g).value;
    assert i == k;
  }

  /** On ordered ranges the lookup as written agrees with the intended one for every number that lies in a range. */
  lemma {:induction false} FromSysfsGpioInRange(s: seq<Range>, g: u32, k: nat)
    requires Ordered(s) && k < |s| && InRange(s[k], g)
    ensures FromSysfsGpio(s, g) == FromSysfsGpioChecked(s, g)
  {
    FindByGpioInRange(s, g, k);
    var c := FromSysfsGpioChecked(s, g);
    var j :| 0 <= j < |s| && InRange(s[j], g) && c.value == (s[j].chip, g - s[j].begin);
    OrderedContainingUnique(s, g, j, k);
  }

  /**
   * The round trip as written holds when chip numbers ascend along the
   * ranges.
   */
  lemma {:induction false} SysfsRoundTrip(s: seq<Range>, k: nat, offset: u32)
    requires Ordered(s) && k < |s| && offset < s[k].end - s[k].begin
    requires forall i, j :: 0 <= i < j < |s| ==> s[i].chip < s[j].chip
    ensures ToSysfsGpio(s, s[k].chip, offset).Success?
    ensures FromSysfsGpio(s, ToSysfsGpio(s, s[k].chip, offset).value) == Success((s[k].chip, offset))
  {
    var n := s[k].chip;
    var r := FindByChip(s, n);
    assert r.Some? by {
      FindByChipAscending(s, n, k);
    }
    FindByChipAscending(s, n, k);
    var g := s[k].begin + offset;
    FindByGpioInRange(s, g, k);
  }

  lemma {:induction false} FindByChipAscending(s: seq<Range>, n: u32, k: nat)
    requires Ordered(s) && k < |s| && s[k].chip == n && s[k].begin < s[k].end
    requires forall i, j :: 0 <= i < j < |s| ==> s[i].chip < s[j].chip
    ensures FindByChip(s, n) == Some(s[k])
    decreases k
  {
    if k > 0 {
      assert s[0].chip < n;
      assert Ordered(s[1..]) by {
        forall i, j | 0 <= i < j < |s[1..]|
          ensures Below(s[1..][i], s[1..][j])
        {
          assert Below(s[i + 1], s[j + 1]);
        }
      }
      assert s[1..][k - 1] == s[k];
      FindByChipAscending(s[1..], n, k - 1);
    }
  }

  // ---------------------------------------------------------------------------
  // Counterexamples to the lookups as written.

  /** Two chips with a gap of sysfs numbers between them. */
  const GapRanges: seq<Range> := [Range(0, 0, 32), Range(1, 64, 96)]

  /** A number in the gap is accepted and given a wrapped-around offset on the chip above it. */
  lemma {:induction false} FromSysfsGpioAcceptsGap()
    ensures Ordered(GapRanges)
    ensures FromSysfsGpio(GapRanges, 40) == Success((1, U32Limit - 24))
    ensures FromSysfsGpioChecked(GapRanges, 40) == Failure(GpioOutOfRange(40))
  {
    assert LowerBoundGpio(GapRanges, 40, 1);
  }

  /** Chip 1 sits below chip 0 in sysfs numbering, as dynamic base allocation arranges it. */
  const DescendingRanges: seq<Range> := [Range(1, 0, 32), Range(0, 32, 64)]

  /** A line of chip 0 is given a sysfs number inside chip 1's range. */
  lemma {:induction false} ToSysfsGpioPicksWrongChip()
    ensures Ordered(DescendingRanges) && UniqueChips(DescendingRanges)
    ensures ToSysfsGpio(DescendingRanges, 0, 5) == Success(5)
    ensures FromSysfsGpio(DescendingRanges, 5) == Success((1, 5))
    ensures ToSysfsGpioChecked(DescendingRanges, 0, 5) == Success(37)
  {
    assert LowerBoundGpio(DescendingRanges, 5, 0);
  }
}

=== FILE: system_config.dfy ===
/**
 * The generator's main loop: every child node of `/wirenboard/gpios`, in
 * name order, becomes one channel of the system configuration; channels are
 * then ordered by their `sort-order` cell, and the item, input and output
 * name lists patched into the editor schema are collected along the way.
 *
 * Chips behind a phandle the bus listing does not know get placeholder names
 * `disconnected_gpiochip_<k>`, numbered from 1 in child-name order.
 */
module SystemConfig {
  import opened Wrappers
  import opened Strings
  import opened Cells
  import opened Sorting
  import opened DeviceTree

  const Container: string := "/wirenboard/gpios"
  const GpioProp: string := "io-gpios"
  const InputProp: string := "input"
  const OutputHighProp: string := "output-high"
  const SortOrderProp: string := "sort-order"
  const DevicePrefix: string := "/dev/gpiochip"
  const DisconnectedPrefix: string := "disconnected_gpiochip_"

  datatype Direction = Input | Output

  /**
   * The chip a channel is wired to: the device node `/dev/gpiochip<n>`, or
   * the `k`-th placeholder for a chip the bus listing does not know.
   */
  datatype ChipRef = Device(number: nat) | Disconnected(k: nat)

  /** One `channels` entry of the generated file. */
  datatype Channel = Channel(name: string, chip: ChipRef, offset: nat, direction: Direction, inverted: bool, initialState: bool)

  /** A channel together with the `order` key that is dropped after sorting. */
  datatype Item = Item(channel: Channel, order: nat)

  /**
   * What the loop body learns about one child before the chip is named:
   * `link` is the `/dev/gpiochipN` number when the phandle is known.
   */
  datatype Decoded = Decoded(name: string, link: Option<nat>, offset: nat, direction: Direction,
                             inverted: bool, initialState: bool, order: nat)

  /** The generated channel list and the three name lists. */
  datatype SystemConfig = SystemConfig(channels: seq<Channel>, itemNames: seq<string>,
                                       inputNames: seq<string>, outputNames: seq<string>)

  /**
   * The injected environment: the device tree and both controller listings,
   * each `None` when its directory is missing.
   */
  datatype Sources = Sources(tree: Tree, classEntries: Option<seq<ClassEntry>>, busEntries: Option<seq<BusEntry>>)

  datatype GenError = InTree(cause: TreeError) | InRegistry(reason: RegistryError)

  function ChildPath(name: string): string {
    Container + "/" + name
  }

  function FirstCell(t: Tree, node: string, prop: string): (r: Result<nat, TreeError>)
    ensures r.Success? <==> GetPropCells(t, node, prop).Success? && |GetPropCells(t, node, prop).value| > 0
    ensures r.Success? ==> r.value == GetPropCells(t, node, prop).value[0]
  {
    var cells :- GetPropCells(t, node, prop);
    if |cells| == 0 then Failure(EmptyCellList) else Success(cells[0])
  }

  /**
   * The loop body for child `name`, up to the naming of its chip. It raises
   * when the specifier cannot be read or decoded, when the property holds no
   * cells, when the pin came from a missing cell, or when a `sort-order`
   * property has no readable first cell.
   */
  function DecodeChild(chips: map<nat, int>, phandles: map<nat, nat>, t: Tree, name: string): (r: Result<Decoded, TreeError>)
    ensures var node := ChildPath(name);
      var gpio := GetPropGpio(chips, t, node, GpioProp);
      r.Success? <==>
        gpio.Success? && gpio.value.Some? && gpio.value.value.pin.Some? &&
        (HasProp(t, node, SortOrderProp) ==> FirstCell(t, node, SortOrderProp).Success?)
    ensures r.Success? ==> r.value.name == name
    ensures r.Success? ==>
      var node := ChildPath(name);
      var gpio := GetPropGpio(chips, t, node, GpioProp).value.value;
      var phandle := FirstCell(t, node, GpioProp).value;
      r.value.offset == gpio.pin.value && (r.value.inverted <==> gpio.attr == Some(1)) &&
      r.value.link == (if phandle in phandles then Some(phandles[phandle]) else None)
    ensures GetPropGpio(chips, t, ChildPath(name), GpioProp).Failure? ==>
      r == Failure(GetPropGpio(chips, t, ChildPath(name), GpioProp).error)
  {
    var node := ChildPath(name);
    var gpio :- GetPropGpio(chips, t, node, GpioProp);
    var phandle :- FirstCell(t, node, GpioProp);
    var link := if phandle in phandles then Some(phandles[phandle]) else None;
    if gpio.None? then Failure(NoSpecifier)
    else
      var direction := if HasProp(t, node, InputProp) then Input else Output;
      var inverted := gpio.value.attr == Some(1);
      var initialState := HasProp(t, node, OutputHighProp);
      var order :- if HasProp(t, node, SortOrderProp) then FirstCell(t, node, SortOrderProp) else Success(0);
      if gpio.value.pin.None? then Failure(NotAnInteger("None"))
      else Success(Decoded(name, link, gpio.value.pin.value, direction, inverted, initialState, order))
  }

  /** The loop over the children, stopping at the first child that raises. */
  function DecodeAll(chips: map<nat, int>, phandles: map<nat, nat>, t: Tree, names: seq<string>): (r: Result<seq<Decoded>, TreeError>)
    ensures r.Success? <==> forall i :: 0 <= i < |names| ==> DecodeChild(chips, phandles, t, names[i]).Success?
    ensures r.Success? ==> |r.value| == |names|
    ensures r.Success? ==> forall i :: 0 <= i < |names| ==> r.value[i] == DecodeChild(chips, phandles, t, names[i]).value
    ensures r.Failure? ==> exists i :: 0 <= i < |names| && DecodeChild(chips, phandles, t, names[i]) == Failure(r.error)
  {
    MapAll(name => DecodeChild(chips, phandles, t, name), names)
  }

  /**
   * The inverse direction: a channel as a board's device tree describes it,
   * in the `offset` scheme, and the node that carries that description.
   */
  datatype ChildSpec = ChildSpec(phandle: nat, pin: nat, inverted: bool, input: bool, outputHigh: bool, order: Option<nat>)

  predicate SpecInRange(c: ChildSpec) {
    c.phandle < CellLimit && c.pin < CellLimit && (c.order.Some? ==> c.order.value < CellLimit)
  }

  function SpecNode(c: ChildSpec): Node
    requires SpecInRange(c)
  {
    var gpios := map[GpioProp := EncodeCells([c.phandle, c.pin, if c.inverted then 1 else 0])];
    var withInput := if c.input then gpios[InputProp := []] else gpios;
    var withHigh := if c.outputHigh then withInput[OutputHighProp := []] else withInput;
    var props := if c.order.Some? then withHigh[SortOrderProp := EncodeCells([c.order.value])] else withHigh;
    Node(props, [])
  }

  /** The property files of a node built from a description. */
  lemma {:induction false} SpecNodeProps(c: ChildSpec)
    requires SpecInRange(c)
    ensures var n := SpecNode(c);
      n.children == [] && GpioProp in n.props && "gpio-xlate-type" !in n.props &&
      n.props[GpioProp] == EncodeCells([c.phandle, c.pin, if c.inverted then 1 else 0]) &&
      (InputProp in n.props <==> c.input) && (OutputHighProp in n.props <==> c.outputHigh) &&
      (SortOrderProp in n.props <==> c.order.Some?) &&
      (c.order.Some? ==> n.props[SortOrderProp] == EncodeCells([c.order.value]))
  {
  }

  /** What the generator reads back from a node built from a description. */
  lemma {:induction false} SpecNodeReads(chips: map<nat, int>, t: Tree, name: string, c: ChildSpec)
    requires SpecInRange(c) && ChildPath(name) in t && t[ChildPath(name)] == SpecNode(c)
    ensures var node := ChildPath(name);
      FirstCell(t, node, GpioProp) == Success(c.phandle) &&
      GetPropGpio(chips, t, node, GpioProp) ==
        (if c.phandle in chips then Success(Some(Locator(chips[c.phandle], Some(c.pin), Some(if c.inverted then 1 else 0))))
         else Failure(UnknownPhandle(c.phandle))) &&
      (HasProp(t, node, InputProp) <==> c.input) && (HasProp(t, node, OutputHighProp) <==> c.outputHigh) &&
      (HasProp(t, node, SortOrderProp) <==> c.order.Some?) &&
      (c.order.Some? ==> FirstCell(t, node, SortOrderProp) == Success(c.order.value))
  {
    var node := ChildPath(name);
    var cells := [c.phandle, c.pin, if c.inverted then 1 else 0];
    SpecNodeProps(c);
    Bin2UlongOfEncodeCells(cells);
    assert GetPropCells(t, node, GpioProp) == Success(cells);
    assert XlateType(t, node) == Success(XlateOffset);
    if c.order.Some? {
      Bin2UlongOfEncodeCells([c.order.value]);
      assert GetPropCells(t, node, SortOrderProp) == Success([c.order.value]);
    }
  }

  /** Decoding a node built from a description gives the description back. */
  lemma {:induction false} DecodeChildOfSpec(chips: map<nat, int>, phandles: map<nat, nat>, t: Tree, name: string, c: ChildSpec)
    requires SpecInRange(c) && ChildPath(name) in t && t[ChildPath(name)] == SpecNode(c)
    ensures c.phandle in chips ==>
      DecodeChild(chips, phandles, t, name) == Success(Decoded(name,
        if c.phandle in phandles then Some(phandles[c.phandle]) else None,
        c.pin, if c.input then Input else Output, c.inverted, c.outputHigh, c.order.GetOr(0)))
    ensures c.phandle !in chips ==> DecodeChild(chips, phandles, t, name) == Failure(UnknownPhandle(c.phandle))
  {
    if c.phandle in chips {
      DecodeKnownSpec(chips, phandles, t, name, c);
    } else {
      SpecNodeReads(chips, t, name, c);
    }
  }

  lemma {:induction false} DecodeKnownSpec(chips: map<nat, int>, phandles: map<nat, nat>, t: Tree, name: string, c: ChildSpec)
    requires SpecInRange(c) && ChildPath(name) in t && t[ChildPath(name)] == SpecNode(c) && c.phandle in chips
    ensures DecodeChild(chips, phandles, t, name) == Success(Decoded(name,
        if c.phandle in phandles then Some(phandles[c.phandle]) else None,
        c.pin, if c.input then Input else Output, c.inverted, c.outputHigh, c.order.GetOr(0)))
  {
    SpecNodeReads(chips, t, name, c);
  }

  // ---------------------------------------------------------------------------
  // Chip naming.

  /** The `gpio.chip` string written for a chip reference. */
  function ChipPath(c: ChipRef): string {
    match c
    case Device(n) => DevicePrefix + NatToString(n)
    case Disconnected(k) => DisconnectedPrefix + NatToString(k)
  }

  /** Distinct chip references are written as distinct strings. */
  lemma {:induction false} ChipPathInjective(a: ChipRef, b: ChipRef)
    ensures ChipPath(a) == ChipPath(b) <==> a == b
  {
    if a != b {
      if a.Device? != b.Device? {
        assert ChipPath(a)[0] != ChipPath(b)[0];
      } else if a.Device? {
        assert ChipPath(a)[|DevicePrefix|..] == NatToString(a.number);
        assert ChipPath(b)[|DevicePrefix|..] == NatToString(b.number);
        NatToStringInjective(a.number, b.number);
      } else {
        assert ChipPath(a)[|DisconnectedPrefix|..] == NatToString(a.k);
        assert ChipPath(b)[|DisconnectedPrefix|..] == NatToString(b.k);
        NatToStringInjective(a.k, b.k);
      }
    }
  }

  function CountDisconnected(ds: seq<Decoded>): nat {
    if |ds| == 0 then 0 else (if ds[0].link.None? then 1 else 0) + CountDisconnected(ds[1..])
  }

  function ChannelOf(d: Decoded, chip: ChipRef): Channel {
    Channel(d.name, chip, d.offset, d.direction, d.inverted, d.initialState)
  }

  /** The chip name of `d` when `before` placeholders are already taken. */
  function ChipName(d: Decoded, before: nat): ChipRef {
    if d.link.Some? then Device(d.link.value) else Disconnected(before + 1)
  }

  /** Chip names, `counter` placeholders having been handed out already. */
  function NameChips(ds: seq<Decoded>, counter: nat): (items: seq<Item>)
    ensures |items| == |ds|
    ensures forall i {:trigger items[i]} :: 0 <= i < |ds| ==>
      items[i].order == ds[i].order && items[i].channel == ChannelOf(ds[i], items[i].channel.chip)
  {
    if |ds| == 0 then []
    else if ds[0].link.None? then
      [Item(ChannelOf(ds[0], Disconnected(counter + 1)), ds[0].order)] + NameChips(ds[1..], counter + 1)
    else
      [Item(ChannelOf(ds[0], Device(ds[0].link.value)), ds[0].order)] + NameChips(ds[1..], counter)
  }

  /**
   * A known chip is named by its device node; an unknown one gets the next
   * placeholder number, one more than the unknown chips before it.
   */
  lemma {:induction false} NameChipsAt(ds: seq<Decoded>, counter: nat, i: nat)
    requires i < |ds|
    ensures NameChips(ds, counter)[i].channel.chip == ChipName(ds[i], counter + CountDisconnected(ds[..i]))
    decreases i
  {
    if i == 0 {
      assert ds[..0] == [];
    } else {
      var next := if ds[0].link.None? then counter + 1 else counter;
      NameChipsAt(ds[1..], next, i - 1);
      CountDisconnectedCons(ds, i);
      NameChipsCons(ds, counter, i);
    }
  }

  lemma {:induction false} CountDisconnectedCons(ds: seq<Decoded>, i: nat)
    requires 0 < i <= |ds|
    ensures CountDisconnected(ds[..i]) == (if ds[0].link.None? then 1 else 0) + CountDisconnected(ds[1..][..i - 1])
  {
    assert ds[..i][1..] == ds[1..][..i - 1];
    assert ds[..i][0] == ds[0];
  }

  lemma {:induction false} NameChipsCons(ds: seq<Decoded>, counter: nat, i: nat)
    requires 0 < i < |ds|
    ensures NameChips(ds, counter)[i] == NameChips(ds[1..], if ds[0].link.None? then counter + 1 else counter)[i - 1]
  {
  }

  lemma {:induction false} NameChipsPaths(ds: seq<Decoded>, counter: nat)
    ensures forall i :: 0 <= i < |ds| ==>
      NameChips(ds, counter)[i].channel.chip == ChipName(ds[i], counter + CountDisconnected(ds[..i]))
  {
    forall i | 0 <= i < |ds|
      ensures NameChips(ds, counter)[i].channel.chip == ChipName(ds[i], counter + CountDisconnected(ds[..i]))
    {
      NameChipsAt(ds, counter, i);
    }
  }

  lemma {:induction false} CountDisconnectedPrefix(ds: seq<Decoded>, i: nat, j: nat)
    requires i < j <= |ds| && ds[i].link.None?
    ensures CountDisconnected(ds[..i]) < CountDisconnected(ds[..j])
    decreases i
  {
    if i == 0 {
      assert ds[..j][0] == ds[0];
    } else {
      assert ds[..i][1..] == ds[1..][..i - 1];
      assert ds[..j][1..] == ds[1..][..j - 1];
      CountDisconnectedPrefix(ds[1..], i - 1, j - 1);
    }
  }

  /** Different channels never share a placeholder chip. */
  lemma {:induction false} DisconnectedNamesDistinct(ds: seq<Decoded>, counter: nat)
    ensures forall i, j :: 0 <= i < j < |ds| && ds[i].link.None? && ds[j].link.None? ==>
      NameChips(ds, counter)[i].channel.chip != NameChips(ds, counter)[j].channel.chip
  {
    NameChipsPaths(ds, counter);
    forall i, j | 0 <= i < j < |ds| && ds[i].link.None? && ds[j].link.None?
      ensures NameChips(ds, counter)[i].channel.chip != NameChips(ds, counter)[j].channel.chip
    {
      CountDisconnectedPrefix(ds, i, j);
    }
  }

  // ---------------------------------------------------------------------------
  // The whole run.

  function OrderOf(it: Item): int {
    it.order
  }

  function NameOf(it: Item): string {
    it.channel.name
  }

  function Channels(items: seq<Item>): (cs: seq<Channel>)
    ensures |cs| == |items| && forall i :: 0 <= i < |items| ==> cs[i] == items[i].channel
  {
    if |items| == 0 then [] else [items[0].channel] + Channels(items[1..])
  }

  function NamesWith(ds: seq<Decoded>, dir: Direction): seq<string> {
    if |ds| == 0 then []
    else (if ds[0].direction == dir then [ds[0].name] else []) + NamesWith(ds[1..], dir)
  }

  function Names(ds: seq<Decoded>): (ns: seq<string>)
    ensures |ns| == |ds| && forall i :: 0 <= i < |ds| ==> ns[i] == ds[i].name
  {
    if |ds| == 0 then [] else [ds[0].name] + Names(ds[1..])
  }

  function Lift<T>(r: Result<T, TreeError>): Result<T, GenError> {
    match r
    case Success(v) => Success(v)
    case Failure(e) => Failure(InTree(e))
  }

  function LiftRegistry<T>(r: Result<T, RegistryError>): Result<T, GenError> {
    match r
    case Success(v) => Success(v)
    case Failure(e) => Failure(InRegistry(e))
  }

  /** The children of the container, sorted by name. */
  function SortedChildren(t: Tree): seq<string>
    requires Container in t
  {
    SortNames(t[Container].children)
  }

  /**
   * `main()` up to the two file writes: `None` when the container node is
   * missing, otherwise the channels (sorted by order) and the name lists.
   */
  function Generate(src: Sources): (r: Result<Option<SystemConfig>, GenError>)
    ensures Container !in src.tree ==> r == Success(None)
    ensures Container in src.tree ==>
      (r.Success? <==>
        ScanClassDir(src.classEntries).Success? && ScanBusDir(src.busEntries).Success? &&
        DecodeAll(ScanClassDir(src.classEntries).value, ScanBusDir(src.busEntries).value,
                  src.tree, SortedChildren(src.tree)).Success?)
    ensures Container in src.tree && r.Success? ==> r.value.Some?
    ensures Container in src.tree && ScanClassDir(src.classEntries).Failure? ==>
      r == Failure(InRegistry(ScanClassDir(src.classEntries).error))
    ensures Container in src.tree && src.classEntries.None? ==> r == Failure(InRegistry(NoListing(ClassDir)))
    ensures Container in src.tree && src.busEntries.None? ==> r.Failure?
  {
    var t := src.tree;
    if Container !in t then Success(None)
    else
      var chips :- LiftRegistry(ScanClassDir(src.classEntries));
      var phandles :- LiftRegistry(ScanBusDir(src.busEntries));
      var names := SortedChildren(t);
      var ds :- Lift(DecodeAll(chips, phandles, t, names));
      var items := SortByKey(NameChips(ds, 0), OrderOf);
      Success(Some(SystemConfig(Channels(items), Names(ds), NamesWith(ds, Input), NamesWith(ds, Output))))
  }

  // ---------------------------------------------------------------------------
  // Properties of a run.

  /** The `sort-order` value a child is sorted by: its first cell, 0 when absent. */
  function SortOrder(t: Tree, name: string): nat {
    var node := ChildPath(name);
    if HasProp(t, node, SortOrderProp) && FirstCell(t, node, SortOrderProp).Success? then
      FirstCell(t, node, SortOrderProp).value
    else 0
  }

  /** The cells of a child's `io-gpios` property, none when they cannot be read. */
  function GpioCells(t: Tree, name: string): seq<nat> {
    var cells := GetPropCells(t, ChildPath(name), GpioProp);
    if cells.Success? then cells.value else []
  }

  /** The specifier scheme a child names, `offset` when it cannot be read. */
  function Scheme(t: Tree, name: string): string {
    var xlate := XlateType(t, ChildPath(name));
    if xlate.Success? then xlate.value else XlateOffset
  }

  /**
   * The line offset a child's cells spell: the cell after the phandle in the
   * `offset` scheme, bank times 32 plus pin in the `bank_pin` scheme.
   */
  function PinOf(t: Tree, name: string): nat {
    var cells := GpioCells(t, name);
    if Scheme(t, name) == XlateBankPin then (if |cells| >= 3 then cells[1] * PinsPerBank + cells[2] else 0)
    else if |cells| >= 2 then cells[1] else 0
  }

  /** The channel is inverted when the attribute cell, the one after the pin, is 1. */
  predicate InvertedOf(t: Tree, name: string) {
    var cells := GpioCells(t, name);
    var at := if Scheme(t, name) == XlateBankPin then 3 else 2;
    at < |cells| && cells[at] == 1
  }

  /** The `/dev/gpiochipN` number the bus listing gives the child's phandle cell, if any. */
  function LinkOf(phandles: map<nat, nat>, t: Tree, name: string): Option<nat> {
    var cells := GpioCells(t, name);
    if |cells| > 0 && cells[0] in phandles then Some(phandles[cells[0]]) else None
  }

  /**
   * What a child node says about its channel: the sort key, whether it is an
   * input and starts high, its line offset, whether it is inverted, and the
   * device number of its chip when the chip is known.
   */
  datatype NodeFacts = NodeFacts(order: nat, input: bool, high: bool, offset: nat, inverted: bool, link: Option<nat>)

  function FactsOf(phandles: map<nat, nat>, t: Tree, name: string): NodeFacts {
    NodeFacts(SortOrder(t, name), HasProp(t, ChildPath(name), InputProp), HasProp(t, ChildPath(name), OutputHighProp),
              PinOf(t, name), InvertedOf(t, name), LinkOf(phandles, t, name))
  }

  /** The facts of every child of tree `t`, by name. */
  function FactsIn(phandles: map<nat, nat>, t: Tree): string -> NodeFacts {
    name => FactsOf(phandles, t, name)
  }

  /**
   * A channel carries its child's direction, initial state, offset and
   * inversion, and is wired to the device the child's chip is known as, or
   * to a placeholder when it is unknown.
   */
  predicate ChannelMatches(f: NodeFacts, c: Channel) {
    (c.direction == Input <==> f.input) &&
    (c.initialState <==> f.high) &&
    c.offset == f.offset &&
    (c.inverted <==> f.inverted) &&
    (if f.link.Some? then c.chip == Device(f.link.value) else c.chip.Disconnected?)
  }

  /** An item agrees with the facts of its child on the order key and every channel field. */
  predicate ItemAgrees(facts: string -> NodeFacts, x: Item) {
    x.order == facts(x.channel.name).order && ChannelMatches(facts(x.channel.name), x.channel)
  }

  /** A decoded child agrees with facts `f` on every field its channel will carry. */
  predicate DecodedMatches(f: NodeFacts, d: Decoded) {
    d.order == f.order &&
    (d.direction == Input <==> f.input) &&
    (d.initialState <==> f.high) &&
    d.offset == f.offset &&
    (d.inverted <==> f.inverted) &&
    d.link == f.link
  }

  predicate DecodedAgrees(facts: string -> NodeFacts, d: Decoded) {
    DecodedMatches(facts(d.name), d)
  }

  /** A decoded child agrees with what its node says. */
  predicate DecodedFaithful(phandles: map<nat, nat>, t: Tree, d: Decoded) {
    DecodedMatches(FactsOf(phandles, t, d.name), d)
  }

  /**
   * A decoded child is what its node says: order key, direction, initial
   * state, the offset its cells spell in its scheme, inverted exactly for
   * attribute 1, and the device of its phandle cell.
   */
  lemma {:induction false} DecodeChildFacts(chips: map<nat, int>, phandles: map<nat, nat>, t: Tree, name: string)
    requires DecodeChild(chips, phandles, t, name).Success?
    ensures DecodeChild(chips, phandles, t, name).value.name == name
    ensures DecodedFaithful(phandles, t, DecodeChild(chips, phandles, t, name).value)
  {
    DecodeChildKeys(chips, phandles, t, name);
    DecodeChildCells(chips, phandles, t, name);
  }

  /** The sort key, direction and initial state of a decoded child come from its node's properties. */
  lemma {:induction false} DecodeChildKeys(chips: map<nat, int>, phandles: map<nat, nat>, t: Tree, name: string)
    requires DecodeChild(chips, phandles, t, name).Success?
    ensures var d := DecodeChild(chips, phandles, t, name).value;
      d.order == SortOrder(t, name) &&
      (d.direction == Input <==> HasProp(t, ChildPath(name), InputProp)) &&
      (d.initialState <==> HasProp(t, ChildPath(name), OutputHighProp))
  {
  }

  /** The offset, inversion and chip link of a decoded child are what its cells spell. */
  lemma {:induction false} DecodeChildCells(chips: map<nat, int>, phandles: map<nat, nat>, t: Tree, name: string)
    requires DecodeChild(chips, phandles, t, name).Success?
    ensures var d := DecodeChild(chips, phandles, t, name).value;
      d.offset == PinOf(t, name) && (d.inverted <==> InvertedOf(t, name)) && d.link == LinkOf(phandles, t, name)
  {
    var node := ChildPath(name);
    var loc := GetPropGpio(chips, t, node, GpioProp).value.value;
    var d := DecodeChild(chips, phandles, t, name).value;
    assert d.offset == loc.pin.value && (d.inverted <==> loc.attr == Some(1));
    assert d.link == (if FirstCell(t, node, GpioProp).value in phandles then Some(phandles[FirstCell(t, node, GpioProp).value]) else None);
    var cells := GetPropCells(t, node, GpioProp).value;
    assert GpioCells(t, name) == cells;
    assert DecodeSpecifier(chips, Scheme(t, name), cells) == Success(Some(loc));
    LocatorOfCells(chips, Scheme(t, name), cells, loc);
  }

  /** A decoded locator holds the pin `PinOf` spells and attribute 1 exactly when `InvertedOf` holds. */
  lemma {:induction false} LocatorOfCells(chips: map<nat, int>, xlate: string, cells: seq<nat>, loc: Locator)
    requires DecodeSpecifier(chips, xlate, cells) == Success(Some(loc)) && loc.pin.Some?
    ensures xlate == XlateBankPin ==> |cells| >= 3 && loc.pin.value == cells[1] * PinsPerBank + cells[2]
    ensures xlate != XlateBankPin ==> |cells| >= 2 && loc.pin.value == cells[1]
    ensures loc.attr == Some(1) <==> var at := if xlate == XlateBankPin then 3 else 2; at < |cells| && cells[at] == 1
  {
  }

  lemma {:induction false} NamesWithMember(ds: seq<Decoded>, dir: Direction, n: string)
    ensures n in NamesWith(ds, dir) <==> NamedWith(ds, n, dir)
    decreases |ds|
  {
    if |ds| > 0 {
      NamesWithMember(ds[1..], dir, n);
      if n in NamesWith(ds[1..], dir) {
        var k :| 0 <= k < |ds[1..]| && ds[1..][k].name == n && ds[1..][k].direction == dir;
        assert ds[k + 1] == ds[1..][k];
      }
      if NamedWith(ds, n, dir) {
        var i :| 0 <= i < |ds| && ds[i].name == n && ds[i].direction == dir;
        if i > 0 {
          assert ds[1..][i - 1] == ds[i];
        }
      }
    }
  }

  /** Every item name goes to exactly one of the input and output lists. */
  lemma {:induction false} NamesWithPartition(ds: seq<Decoded>)
    ensures multiset(NamesWith(ds, Input)) + multiset(NamesWith(ds, Output)) == multiset(Names(ds))
    decreases |ds|
  {
    if |ds| > 0 {
      NamesWithPartition(ds[1..]);
      assert Names(ds) == [ds[0].name] + Names(ds[1..]);
    }
  }

  /** The decoded children of a successful run, in name order. */
  lemma {:induction false} RunDecoded(src: Sources) returns (ds: seq<Decoded>)
    requires Generate(src).Success? && Generate(src).value.Some?
    ensures ScanClassDir(src.classEntries).Success? && ScanBusDir(src.busEntries).Success?
    ensures DecodeAll(ScanClassDir(src.classEntries).value, ScanBusDir(src.busEntries).value,
                      src.tree, SortedChildren(src.tree)) == Success(ds)
    ensures Names(ds) == SortedChildren(src.tree)
    ensures Generate(src).value.value == SystemConfig(Channels(SortByKey(NameChips(ds, 0), OrderOf)), Names(ds),
                                                      NamesWith(ds, Input), NamesWith(ds, Output))
    ensures forall i :: 0 <= i < |ds| ==> DecodedFaithful(ScanBusDir(src.busEntries).value, src.tree, ds[i])
  {
    var t := src.tree;
    var chips := ScanClassDir(src.classEntries).value;
    var phandles := ScanBusDir(src.busEntries).value;
    var names := SortedChildren(t);
    ds := DecodeAll(chips, phandles, t, names).value;
    forall i | 0 <= i < |ds|
      ensures ds[i].name == names[i] && DecodedFaithful(phandles, t, ds[i])
    {
      DecodeChildFacts(chips, phandles, t, names[i]);
    }
  }

  /** A successful run lists every child once in `itemNames`, in ascending name order. */
  lemma {:induction false} GenerateItemNames(src: Sources)
    requires Generate(src).Success? && Generate(src).value.Some?
    requires Distinct(src.tree[Container].children)
    ensures NamesAscending(Generate(src).value.value.itemNames)
    ensures multiset(Generate(src).value.value.itemNames) == multiset(src.tree[Container].children)
  {
    var ds := RunDecoded(src);
    SortNamesAscending(src.tree[Container].children);
  }

  /** The child named `n` has the given direction. */
  predicate NamedWith(ds: seq<Decoded>, n: string, dir: Direction) {
    exists i :: 0 <= i < |ds| && ds[i].name == n && ds[i].direction == dir
  }

  /** With distinct names, the child at `i` is the only one named `n`, so it decides `n`'s direction. */
  predicate DistinctNames(ds: seq<Decoded>) {
    forall i, j :: 0 <= i < j < |ds| ==> ds[i].name != ds[j].name
  }

  lemma {:induction false} DistinctNamesOf(ds: seq<Decoded>)
    requires Distinct(Names(ds))
    ensures DistinctNames(ds)
  {
    forall i, j | 0 <= i < j < |ds|
      ensures ds[i].name != ds[j].name
    {
      assert Names(ds)[i] != Names(ds)[j];
    }
  }

  lemma {:induction false} NamedByIndex(ds: seq<Decoded>, n: string, i: nat, dir: Direction)
    requires DistinctNames(ds) && i < |ds| && ds[i].name == n
    ensures NamedWith(ds, n, dir) <==> ds[i].direction == dir
  {
    if NamedWith(ds, n, dir) {
      var k :| 0 <= k < |ds| && ds[k].name == n && ds[k].direction == dir;
    }
  }

  lemma {:induction false} NamedIsListed(ds: seq<Decoded>, n: string, dir: Direction)
    ensures NamedWith(ds, n, dir) ==> n in Names(ds)
  {
    if NamedWith(ds, n, dir) {
      var k :| 0 <= k < |ds| && ds[k].name == n && ds[k].direction == dir;
      assert Names(ds)[k] == n;
    }
  }

  /** Membership of `n` in the list for `dir` follows its node's `input` property. */
  lemma {:induction false} DirectionListOf(phandles: map<nat, nat>, t: Tree, ds: seq<Decoded>, n: string, dir: Direction)
    requires DistinctNames(ds)
    requires forall i :: 0 <= i < |ds| ==> DecodedFaithful(phandles, t, ds[i])
    ensures n in NamesWith(ds, dir) <==> n in Names(ds) && (HasProp(t, ChildPath(n), InputProp) <==> dir == Input)
  {
    NamesWithMember(ds, dir, n);
    NamedIsListed(ds, n, dir);
    var names := Names(ds);
    if n in names {
      var i :| 0 <= i < |names| && names[i] == n;
      assert DecodedFaithful(phandles, t, ds[i]);
      NamedByIndex(ds, n, i, dir);
    }
  }

  /**
   * The input and output lists split `itemNames`: a child lands in
   * `inputNames` exactly when its node has an `input` property, and in
   * `outputNames` otherwise.
   */
  lemma {:induction false} GenerateDirectionLists(src: Sources, n: string)
    requires Generate(src).Success? && Generate(src).value.Some?
    requires Distinct(src.tree[Container].children)
    ensures var cfg := Generate(src).value.value;
      multiset(cfg.inputNames) + multiset(cfg.outputNames) == multiset(cfg.itemNames) &&
      (n in cfg.inputNames <==> n in cfg.itemNames && HasProp(src.tree, ChildPath(n), InputProp)) &&
      (n in cfg.outputNames <==> n in cfg.itemNames && !HasProp(src.tree, ChildPath(n), InputProp))
  {
    var ds := RunDecoded(src);
    NamesWithPartition(ds);
    DistinctPermutation(src.tree[Container].children, Names(ds));
    DistinctNamesOf(ds);
    var phandles := ScanBusDir(src.busEntries).value;
    DirectionListOf(phandles, src.tree, ds, n, Input);
    DirectionListOf(phandles, src.tree, ds, n, Output);
  }

  lemma {:induction false} FaithfulAgrees(phandles: map<nat, nat>, t: Tree, ds: seq<Decoded>)
    requires forall i :: 0 <= i < |ds| ==> DecodedFaithful(phandles, t, ds[i])
    ensures forall i :: 0 <= i < |ds| ==> DecodedAgrees(FactsIn(phandles, t), ds[i])
  {
  }

  lemma {:induction false} NamedItemsAgree(facts: string -> NodeFacts, ds: seq<Decoded>, counter: nat)
    requires forall i :: 0 <= i < |ds| ==> DecodedAgrees(facts, ds[i])
    ensures forall x :: x in multiset(NameChips(ds, counter)) ==> ItemAgrees(facts, x)
  {
    var named := NameChips(ds, counter);
    forall x | x in multiset(named)
      ensures ItemAgrees(facts, x)
    {
      var k :| 0 <= k < |named| && named[k] == x;
      NamedItemAgrees(facts, ds, counter, k);
    }
  }

  lemma {:induction false} NamedItemAgrees(facts: string -> NodeFacts, ds: seq<Decoded>, counter: nat, k: nat)
    requires k < |ds| && DecodedAgrees(facts, ds[k])
    ensures ItemAgrees(facts, NameChips(ds, counter)[k])
  {
    NameChipsAt(ds, counter, k);
  }

  /** The sorted items each agree with a decoded child. */
  lemma {:induction false} SortedItemsAgree(facts: string -> NodeFacts, ds: seq<Decoded>)
    requires forall i :: 0 <= i < |ds| ==> DecodedAgrees(facts, ds[i])
    ensures var items := SortByKey(NameChips(ds, 0), OrderOf);
      |items| == |ds| &&
      forall i :: 0 <= i < |items| ==> ItemAgrees(facts, items[i]) && items[i].channel.name in Names(ds)
  {
    var named := NameChips(ds, 0);
    var items := SortByKey(named, OrderOf);
    NamedItemsAgree(facts, ds, 0);
    assert |items| == |named| by {
      assert |multiset(items)| == |multiset(named)|;
    }
    forall i | 0 <= i < |items|
      ensures ItemAgrees(facts, items[i]) && items[i].channel.name in Names(ds)
    {
      var x := items[i];
      assert x in multiset(named);
      var k :| 0 <= k < |named| && named[k] == x;
      assert Names(ds)[k] == x.channel.name;
    }
  }

  /** Sorted items are ordered by key, ties by ascending name, when the children's names ascend. */
  lemma {:induction false} SortedItemsOrder(ds: seq<Decoded>)
    requires NamesAscending(Names(ds))
    ensures KeyNameSorted(SortByKey(NameChips(ds, 0), OrderOf), OrderOf, NameOf)
  {
    var named := NameChips(ds, 0);
    forall i, j | 0 <= i < j < |named|
      ensures StrLess(NameOf(named[i]), NameOf(named[j]))
    {
      assert Names(ds)[i] == NameOf(named[i]) && Names(ds)[j] == NameOf(named[j]);
    }
    SortByKeyTiesByName(named, OrderOf, NameOf);
  }

  /**
   * Placeholder chips are numbered in the name order of their channels: of
   * two channels on unknown chips, the one with the smaller name has the
   * smaller placeholder number (so no two share one).
   */
  predicate PlaceholdersInNameOrder(cs: seq<Channel>) {
    forall i, j :: (0 <= i < |cs| && 0 <= j < |cs| && cs[i].chip.Disconnected? && cs[j].chip.Disconnected? &&
      StrLess(cs[i].name, cs[j].name)) ==> cs[i].chip.k < cs[j].chip.k
  }

  /**
   * Channels `cs` list the children `names` one each, ordered by their sort
   * key with equal keys in ascending name order; each carries its child's
   * direction, initial state, offset, inversion and chip, and placeholder
   * chips are numbered in name order.
   */
  predicate ChannelsAgree(facts: string -> NodeFacts, names: seq<string>, cs: seq<Channel>) {
    |cs| == |names| &&
    (forall i :: 0 <= i < |cs| ==> cs[i].name in names) &&
    (forall i, j :: 0 <= i < j < |cs| ==>
      facts(cs[i].name).order < facts(cs[j].name).order ||
      (facts(cs[i].name).order == facts(cs[j].name).order && StrLess(cs[i].name, cs[j].name))) &&
    (forall i :: 0 <= i < |cs| ==> ChannelMatches(facts(cs[i].name), cs[i])) &&
    PlaceholdersInNameOrder(cs)
  }

  /**
   * The same, against tree `t` and bus map `phandles`: ordered by the
   * `sort-order` value; Input exactly for children with an `input`
   * property, initially high exactly for those with `output-high`; the
   * offset and inversion their `io-gpios` cells spell; `/dev/gpiochipN` for
   * a phandle the bus map knows and a placeholder otherwise.
   */
  predicate ChannelsFaithful(phandles: map<nat, nat>, t: Tree, names: seq<string>, cs: seq<Channel>) {
    ChannelsAgree(FactsIn(phandles, t), names, cs)
  }

  /** The channels of items sorted by key and name, each agreeing with its child. */
  lemma {:induction false} ItemsChannels(facts: string -> NodeFacts, names: seq<string>, items: seq<Item>)
    requires KeyNameSorted(items, OrderOf, NameOf) && |items| == |names|
    requires forall i :: 0 <= i < |items| ==> ItemAgrees(facts, items[i]) && items[i].channel.name in names
    requires PlaceholdersInNameOrder(Channels(items))
    ensures ChannelsAgree(facts, names, Channels(items))
  {
    var cs := Channels(items);
    forall i, j | 0 <= i < j < |cs|
      ensures facts(cs[i].name).order < facts(cs[j].name).order ||
        (facts(cs[i].name).order == facts(cs[j].name).order && StrLess(cs[i].name, cs[j].name))
    {
      ItemsBefore(facts, items[i], items[j]);
    }
  }

  lemma {:induction false} ItemsBefore(facts: string -> NodeFacts, x: Item, y: Item)
    requires KeyNameBefore(x, y, OrderOf, NameOf) && ItemAgrees(facts, x) && ItemAgrees(facts, y)
    ensures facts(x.channel.name).order < facts(y.channel.name).order ||
      (facts(x.channel.name).order == facts(y.channel.name).order && StrLess(x.channel.name, y.channel.name))
  {
  }

  /** The channels built from decoded children in ascending name order. */
  lemma {:induction false} DecodedChannels(facts: string -> NodeFacts, ds: seq<Decoded>)
    requires NamesAscending(Names(ds))
    requires forall i :: 0 <= i < |ds| ==> DecodedAgrees(facts, ds[i])
    ensures ChannelsAgree(facts, Names(ds), Channels(SortByKey(NameChips(ds, 0), OrderOf)))
  {
    SortedItemsOrder(ds);
    SortedItemsAgree(facts, ds);
    SortedPlaceholders(ds);
    ItemsChannels(facts, Names(ds), SortByKey(NameChips(ds, 0), OrderOf));
  }

  /** Agreement carries over to any listing of the same names. */
  lemma {:induction false} ChannelsAgreePermuted(facts: string -> NodeFacts, a: seq<string>, b: seq<string>, cs: seq<Channel>)
    requires ChannelsAgree(facts, a, cs) && multiset(a) == multiset(b)
    ensures ChannelsAgree(facts, b, cs)
  {
    assert |a| == |b| by {
      assert |multiset(a)| == |multiset(b)|;
    }
    forall i | 0 <= i < |cs|
      ensures cs[i].name in b
    {
      assert cs[i].name in multiset(a);
    }
  }

  /** Of two children on unknown chips, the earlier one gets the smaller placeholder. */
  lemma {:induction false} PlaceholderPair(ds: seq<Decoded>, i: nat, j: nat)
    requires i < j < |ds| && ds[i].link.None? && ds[j].link.None?
    ensures var a := NameChips(ds, 0)[i].channel.chip;
      var b := NameChips(ds, 0)[j].channel.chip;
      a.Disconnected? && b.Disconnected? && a.k < b.k
  {
    NameChipsAt(ds, 0, i);
    NameChipsAt(ds, 0, j);
    CountDisconnectedPrefix(ds, i, j);
  }

  /** In an ascending list, the smaller of two names sits first. */
  lemma {:induction false} AscendingIndex(names: seq<string>, i: nat, j: nat)
    requires NamesAscending(names) && i < |names| && j < |names| && StrLess(names[i], names[j])
    ensures i < j
  {
    if i == j {
      StrLessIrreflexive(names[i]);
    } else if j < i {
      StrLessAsymmetric(names[j], names[i]);
    }
  }

  /** Children listed in ascending name order: a smaller name means an earlier position. */
  predicate PositionsByName(ds: seq<Decoded>) {
    forall i, j :: 0 <= i < |ds| && 0 <= j < |ds| && StrLess(ds[i].name, ds[j].name) ==> i < j
  }

  lemma {:induction false} AscendingPositions(ds: seq<Decoded>)
    requires NamesAscending(Names(ds))
    ensures PositionsByName(ds)
  {
    forall i, j | 0 <= i < |ds| && 0 <= j < |ds| && StrLess(ds[i].name, ds[j].name)
      ensures i < j
    {
      assert Names(ds)[i] == ds[i].name && Names(ds)[j] == ds[j].name;
      AscendingIndex(Names(ds), i, j);
    }
  }

  /** Of two children on unknown chips, the one with the smaller name gets the smaller placeholder. */
  lemma {:induction false} PlaceholderByName(ds: seq<Decoded>, i: nat, j: nat)
    requires PositionsByName(ds)
    requires 0 <= i < |ds| && 0 <= j < |ds| && StrLess(ds[i].name, ds[j].name)
    requires NameChips(ds, 0)[i].channel.chip.Disconnected? && NameChips(ds, 0)[j].channel.chip.Disconnected?
    ensures NameChips(ds, 0)[i].channel.chip.k < NameChips(ds, 0)[j].channel.chip.k
  {
    NameChipsAt(ds, 0, i);
    NameChipsAt(ds, 0, j);
    PlaceholderPair(ds, i, j);
  }

  /** Before sorting, a placeholder's number counts the unknown chips up to its child in name order. */
  lemma {:induction false} NamedPlaceholders(ds: seq<Decoded>)
    requires PositionsByName(ds)
    ensures PlaceholdersInNameOrder(Channels(NameChips(ds, 0)))
  {
    var named := NameChips(ds, 0);
    var cs := Channels(named);
    forall i, j | 0 <= i < |cs| && 0 <= j < |cs| && cs[i].chip.Disconnected? && cs[j].chip.Disconnected? &&
        StrLess(cs[i].name, cs[j].name)
      ensures cs[i].chip.k < cs[j].chip.k
    {
      assert cs[i] == named[i].channel && cs[j] == named[j].channel;
      PlaceholderByName(ds, i, j);
    }
  }

  /** The property only looks at which channels occur, so any selection from a list keeps it. */
  lemma {:induction false} PlaceholdersOfMembers(a: seq<Channel>, b: seq<Channel>)
    requires PlaceholdersInNameOrder(a)
    requires forall i :: 0 <= i < |b| ==> b[i] in a
    ensures PlaceholdersInNameOrder(b)
  {
    forall i, j | 0 <= i < |b| && 0 <= j < |b| && b[i].chip.Disconnected? && b[j].chip.Disconnected? &&
        StrLess(b[i].name, b[j].name)
      ensures b[i].chip.k < b[j].chip.k
    {
      var x :| 0 <= x < |a| && a[x] == b[i];
      var y :| 0 <= y < |a| && a[y] == b[j];
    }
  }

  /** The channels of a permutation of items occur among the items' channels. */
  lemma {:induction false} PermutedChannelsMembers(named: seq<Item>, items: seq<Item>)
    requires multiset(items) == multiset(named)
    ensures forall i :: 0 <= i < |items| ==> Channels(items)[i] in Channels(named)
  {
    forall i | 0 <= i < |items|
      ensures Channels(items)[i] in Channels(named)
    {
      assert items[i] in multiset(named);
      var k :| 0 <= k < |named| && named[k] == items[i];
      assert Channels(named)[k] == Channels(items)[i];
    }
  }

  /** Sorting by order moves channels but keeps each one's placeholder. */
  lemma {:induction false} SortedPlaceholders(ds: seq<Decoded>)
    requires NamesAscending(Names(ds))
    ensures PlaceholdersInNameOrder(Channels(SortByKey(NameChips(ds, 0), OrderOf)))
  {
    var named := NameChips(ds, 0);
    var items := SortByKey(named, OrderOf);
    AscendingPositions(ds);
    NamedPlaceholders(ds);
    PermutedChannelsMembers(named, items);
    PlaceholdersOfMembers(Channels(named), Channels(items));
  }

  /**
   * The generated channels are those of the children, one each, ordered by
   * their `sort-order` value with equal values in ascending name order; each
   * carries its node's direction, initial state, offset, inversion and chip
   * (`/dev/gpiochipN` from the bus listing, else a placeholder numbered in
   * name order).
   */
  lemma {:induction false} GenerateChannels(src: Sources)
    requires Generate(src).Success? && Generate(src).value.Some?
    requires Distinct(src.tree[Container].children)
    ensures ScanBusDir(src.busEntries).Success?
    ensures ChannelsFaithful(ScanBusDir(src.busEntries).value, src.tree, src.tree[Container].children,
                             Generate(src).value.value.channels)
  {
    var t := src.tree;
    var ds := RunDecoded(src);
    var phandles := ScanBusDir(src.busEntries).value;
    SortNamesAscending(t[Container].children);
    FaithfulAgrees(phandles, t, ds);
    DecodedChannels(FactsIn(phandles, t), ds);
    ChannelsAgreePermuted(FactsIn(phandles, t), Names(ds), t[Container].children, Channels(SortByKey(NameChips(ds, 0), OrderOf)));
  }
}

=== FILE: wrappers.dfy ===
/** Failure-compatible option and result types shared by every module. */
module Wrappers {

  datatype Option<+T> = None | Some(value: T) {
    predicate IsFailure() {
      None?
    }

    function PropagateFailure<U>(): Option<U>
      requires None?
    {
      None
    }

    function Extract(): T
      requires Some?
    {
      value
    }

    function GetOr(default: T): T {
      match this
      case Some(v) => v
      case None => default
    }
  }

  /** A computation that either yields a value or raises an error of type E. */
  datatype Result<+T, +E> = Success(value: T) | Failure(error: E) {
    predicate IsFailure() {
      Failure?
    }

    function PropagateFailure<U>(): Result<U, E>
      requires Failure?
    {
      Failure(error)
    }

    function Extract(): T
      requires Success?
    {
      value
    }
  }

  /** Applies `f` to each element in turn and stops at the first failure, which it raises. */
  function MapAll<T, U, E>(f: T -> Result<U, E>, xs: seq<T>): (r: Result<seq<U>, E>)
    ensures r.Success? <==> forall i :: 0 <= i < |xs| ==> f(xs[i]).Success?
    ensures r.Success? ==> |r.value| == |xs| && forall i :: 0 <= i < |xs| ==> r.value[i] == f(xs[i]).value
    ensures r.Failure? ==> exists i :: 0 <= i < |xs| && f(xs[i]) == Failure(r.error)
  {
    if |xs| == 0 then Success([])
    else
      var y :- f(xs[0]);
      var rest :- MapAll(f, xs[1..]);
      Success([y] + rest)
  }
}
